=== FILE: README.md ===
# Silm interpreter core in Dafny

Silm is a small line-oriented scripting language. Its interpreter reads a program one
line at a time. It splits each line into tokens and routes the line on its first token
to a command handler. The handlers bind variables, print, read a line of input, define
blocks, branch, or re-enter the interpreter on other text (`eval`, `interpret`,
`import`). Every value is kept as text: a kind (`int`, `float`, `str`, `char`, `bool`,
`block`), an identifier and a textual payload. Argument text is turned into a value by
`extract_data`, and arithmetic goes through a shunting-yard evaluator.

This project models that core:

| file | module | models |
|---|---|---|
| `text.dfy` | `Text` | the Rust `str` operations the interpreter relies on (`trim`, `split_whitespace`, `split`, `split_once`, `rsplit_once`, `trim_*_matches`, `replace`, `join`, `lines`) |
| `numbers.dfy` | `Numbers` | `str::parse::<i32>`, `i32::to_string`, `bool` and `char` parsing, and the exact syntax of `str::parse::<f32>` |
| `values.dfy` | `Values` | `DataType`, `Variable`, `represent_datatype`, and the outcome of an evaluation (value, error, panic) |
| `store.dfy` | `Store` | the variable store: `get_variable` and `assign` |
| `arithmetic.dfy` | `Arithmetic` | `shunting_yard`, as functions and as the imperative loops |
| `evaluator.dfy` | `Evaluator` | `extract_data` |
| `builtins.dfy` | `Builtins` | `typeof`, `nameof`, `eq`, `ne`, `format` and the placeholder substitution loop |
| `commands.dfy` | `Commands` | the command handlers and the dispatcher `interpret` as state transitions |
| `runtime.dfy` | `Runtime` | the interpreter as an object whose methods update the store, the output and the input in place, each proved equal to its transition |
| `legacy.dfy` | `Legacy` | the older typed-declaration interpreter of `main.rs` (`int x = 1;`, `println (x);`, …) as transitions and as an object |

The state of a run is the variable store, everything printed so far, the input lines
still to be read, and a status: running, exited (`exit`) or panicked (a Rust panic
ends the process). The input is a sequence of lines. An empty sequence is end of
input, where `read_line` yields the empty string, and a missing line is a read
error. Files that `interpret` and `import` read are given as a function from
file name to contents or error message.

Wherever the language's documentation and the code disagree, the model follows the
code. These are the places:
- `extract_data` has no branch for a leading minus sign. `-5` is looked up as a
  variable name (`Evaluator.NegativeNumberIsAName`).
- `extract_data` has no branch that calls built-in functions.
- Numbers are parsed as `f32`, not as double-precision floats.
- The documentation calls the operators left-associative. The shunting yard applies
  the operators left on the stack from the top, so `3 - 2 - 1` is `3 - (2 - 1)`
  (`Arithmetic.SubtractionGroupsRight`).
- The dispatcher in `src/interpreter.rs` reaches only `let`, `println`, `formatln`,
  `readline` and `exit`. `block`, `if`, `eval`, `interpret` and `import` are modelled
  as handlers but are reached by no line, and there is no block invocation.
- Two inputs panic rather than printing an error: `block` with a name and nothing
  after it, and an operator without two operands in the shunting yard.

The main properties proved:
- Every transition only appends to the output, only consumes input from the front,
  and keeps the store free of duplicate identifiers. Each transition function states
  this as `ensures Advances(st, r)`.
- After an exit or a panic, no further line has any effect.
- A successful `let` binds exactly its name and leaves every other binding as it was.
- `typeof` and `nameof` agree with `represent_datatype` and with the identifier.
- `eq` is true exactly when both arguments have the same kind and the same payload,
  `ne` is its negation, and comparison is symmetric and reflexive.
- `format` replaces each bound `{name}` by the payload of the first binding of that
  name, for brace-free names and payloads, and leaves a text without a bound
  placeholder unchanged.
- Integer literals round-trip through printing and parsing. `i32` parsing accepts
  exactly an optional sign and digits whose value fits in 32 bits.
- A string literal extracts to its text with every leading and trailing quote
  removed; a character literal is a `char` exactly when at most one character is left.
- The three-operand cases of the shunting yard are computed exactly. When `f32`
  arithmetic is taken to be exact real arithmetic, `x + 1 + 2 - ( 3 * 4 ) / 5 ^ 6 % 7`
  with `x` bound to 256 evaluates to 258.92.
- Each imperative method equals its transition, including the placeholder loop, the
  shunting-yard loops, the `assign` search and the file line loops.

## Model

| member | source | states |
|---|---|---|
| Values.KindName | src/helper.rs:127-139 | the name of a kind is one of the six kind names |
| Values.KindNameInjective | src/helper.rs:127-139 | two kinds have the same name exactly when they are the same kind |
| Text.TrimStart | src/helper.rs:8 | the result is a suffix of the text that starts with no whitespace, and only whitespace was removed |
| Text.TrimEnd | src/commands.rs:193 | the result is a prefix of the text with no trailing whitespace, and only whitespace was removed |
| Text.Trim | src/helper.rs:8 | the result is the middle of the text, neither end is whitespace, and everything removed on either side is whitespace |
| Text.TrimLeadingSpace | src/helper.rs:8 | a leading space does not change the trimmed text |
| Text.TrimStartMatches | src/helper.rs:15 | the result is a suffix of the text that does not start with the character, and every removed character is that character |
| Text.TrimEndMatches | src/helper.rs:16 | the result is a prefix of the text that does not end with the character, and every removed character is that character |
| Text.TrimStartMatchesRun | src/helper.rs:15 | a run of the character in front of a text that does not start with it is removed exactly |
| Text.TrimEndMatchesRun | src/helper.rs:16 | a run of the character behind a text that does not end with it is removed exactly |
| Text.TrimStartMatchesStr | src/main.rs:360-362 | the result is a suffix of the text that does not start with the pattern, and what was removed is a repetition of the pattern |
| Text.TrimEndMatchesStr | src/main.rs:329 | the result is a prefix of the text that does not end with the pattern, and what was removed is a repetition of the pattern |
| Text.ContainsChar | src/commands.rs:174 | a one-character pattern occurs exactly when the character is in the text |
| Text.Split | src/commands.rs:302 | there is at least one part, the first part is a prefix of the text, and no part contains the separator |
| Text.SplitJoin | src/commands.rs:302 | joining the parts with the separator gives the text back |
| Text.JoinSplitIsReplace | src/commands.rs:300-308 | splitting a block body at `\;` and joining with line breaks is replacing every `\;` by a line break |
| Text.ReplaceSelf | src/functions.rs:274 | replacing a pattern by itself leaves the text unchanged |
| Text.ReplaceAbsent | src/functions.rs:274 | replacing a pattern that does not occur leaves the text unchanged |
| Text.SplitOnce | src/commands.rs:543 | the text is the part before, the separator and the part after, and the part before holds no separator; no split exactly when the separator is absent |
| Text.RSplitOnce | src/commands.rs:174 | the text is the part before, the character and the part after, and the part after holds no such character; no split exactly when it is absent |
| Text.WordLength | src/interpreter.rs:25 | the leading word is whitespace-free and is followed by whitespace or the end |
| Text.SplitWhitespace | src/interpreter.rs:25 | every token is non-empty and free of whitespace; text starting with a non-space character yields its leading word first |
| Text.SplitWhitespaceJoin | src/interpreter.rs:25 | splitting words joined by single spaces gives the words back |
| Text.SpaceSkipped | src/interpreter.rs:25 | a leading space does not change the tokens |
| Text.SplitWhitespaceOfWord | src/helper.rs:9 | a single word splits into itself |
| Numbers.ParseI32 | src/helper.rs:79-87 | a text parses exactly when it is an optional sign followed by digits whose value is in the 32-bit signed range, and the result is that value |
| Numbers.AccumulateValue | src/helper.rs:79 | the digit-by-digit accumulation with its overflow check yields the value of all digits exactly when it fits in 32 bits |
| Numbers.DigitsValuePrefix | src/helper.rs:79 | the value of a prefix of the digits is at most the value of all of them |
| Numbers.ShowNat | src/helper.rs:83 | a natural number prints as a non-empty run of digits |
| Numbers.ShowInt | src/helper.rs:83 | an integer prints as a non-empty text |
| Numbers.DigitsValueOfShowNat | src/helper.rs:83 | the decimal digits printed for a natural number read back as that number |
| Numbers.ParseShowInt | src/helper.rs:79-84 | parsing the printed form of any `i32` gives the number back |
| Numbers.LeadingZerosDropped | src/helper.rs:79-84 | `007` parses to 7, which prints as `7` |
| Numbers.LowerAscii | src/helper.rs:69 | lower-casing keeps the length (used for `inf` and `nan`) |
| Numbers.ExponentMark | src/helper.rs:69 | the index found is the first `e` or `E`, or the length when there is none |
| Numbers.ParseF32 | src/helper.rs:69 | a text parses as an `f32` exactly when it has `f32` syntax, and then to its value |
| Store.UniqueDistinct | src/helper.rs:111-125 | in a store with unique identifiers, two positions hold different identifiers |
| Store.FindIndex | src/helper.rs:141-150 | the index found holds the identifier and no earlier binding does; nothing is found exactly when no binding has the identifier |
| Store.FindIndexIsFirst | src/helper.rs:141-150 | the first position that holds the identifier is the index found |
| Store.Lookup | src/helper.rs:141-150 | the copy found is the binding at the index `FindIndex` finds, carries the identifier, and is absent exactly when unbound |
| Store.LookupFindsFirst | src/helper.rs:141-150 | the copy found is a binding with no earlier binding of the same identifier |
| Store.Assigned | src/helper.rs:111-125 | the store grows by one exactly when the identifier is unbound; every identifier keeps its position, every binding of another identifier is kept, and a new binding goes at the end |
| Store.AssignOverwrites | src/helper.rs:111-125 | rebinding replaces the first binding's kind and payload in place and changes nothing else |
| Store.AssignAppends | src/helper.rs:121-123 | a new identifier is appended at the end |
| Store.LookupAfterAssign | src/helper.rs:111-125 | after `assign` the identifier looks up to exactly the assigned value |
| Store.LookupOtherAfterAssign | src/helper.rs:111-125 | `assign` leaves every other identifier's lookup unchanged |
| Store.AssignKeepsUnique | src/helper.rs:111-125 | `assign` keeps identifiers unique |
| Store.AssignIdempotent | src/helper.rs:111-125 | repeating the same `assign` changes nothing further |
| Arithmetic.Apply | src/helper.rs:179-187 | the six operators succeed, and any other operator text is the `invalid operator` error |
| Arithmetic.ApplyTop | src/helper.rs:176-188 | a reduction pops one operator and two values and pushes one, panics exactly when a value is missing, and names the operator it rejects |
| Arithmetic.ReduceBefore | src/helper.rs:172-192 | after the reductions the stack top no longer forces an eager reduction, and the operator stack is a prefix of the one before |
| Arithmetic.CloseParen | src/helper.rs:196-216 | the operators are popped down to the last `(`, which is removed too, or all of them when there is none |
| Arithmetic.Step | src/helper.rs:167-246 | a number token pushes its value; an operator token ends up on top of the operator stack |
| Arithmetic.Feed | src/helper.rs:167-246 | each token adds at most one operator and one value |
| Arithmetic.Drain | src/helper.rs:248-271 | a final value means no `(` was left and there was one more value than operators |
| Arithmetic.ShuntingYard | src/helper.rs:161-272 | no tokens is `invalid expression`, and a single number is its own value |
| Arithmetic.Reduce | src/helper.rs:176-188 | the pop-pop-apply-push sequence equals `ApplyTop` |
| Arithmetic.ReduceWhileEager | src/helper.rs:172-192 | the `while let` loop before an operator push leaves the stacks `ReduceBefore` gives |
| Arithmetic.ReduceToOpen | src/helper.rs:196-216 | the loop for `)` leaves the stacks `CloseParen` gives |
| Arithmetic.DrainStacks | src/helper.rs:248-271 | the final loop and the value-count check return what `Drain` gives |
| Arithmetic.StepStacks | src/helper.rs:168-245 | one pass of the loop body leaves the stacks `Step` gives |
| Arithmetic.RunShuntingYard | src/helper.rs:161-272 | the token loop, with its inner loops as the methods above, returns exactly the shunting-yard result of the tokens |
| Arithmetic.OperatorPushedUnlessEager | src/helper.rs:171-193 | an operator is pushed as it stands unless `+`/`-` meets `*`/`/` on top |
| Arithmetic.UnmatchedCloseIsNotAnError | src/helper.rs:196-216 | a `)` without a matching `(` empties the operator stack without an error |
| Arithmetic.FeedParenthesisAt | src/helper.rs:194-216 | `(` is pushed, and `)` leaves the stacks `CloseParen` gives |
| Arithmetic.OpenLeftIsMismatched | src/helper.rs:248-251 | a `(` left on the stack at the end is `mismatched parentheses` |
| Arithmetic.ValueCountChecked | src/helper.rs:267-271 | with no operators left, exactly one value is the result, otherwise `invalid expression` |
| Arithmetic.DigitsAreNumber | src/helper.rs:168 | decimal digits are an `f32` literal |
| Arithmetic.SymbolIsNotNumber | src/helper.rs:168 | a single character that is not a digit is no `f32` literal |
| Arithmetic.OperatorsAreNotNumbers | src/helper.rs:168-171 | none of the six operators is an `f32` literal |
| Arithmetic.OperatorsAreOperators | src/helper.rs:171 | each of the six operators passes the operator check |
| Arithmetic.FirstOperandPair | src/helper.rs:167-193 | `a op b` at the start leaves the operator and both values on the stacks |
| Arithmetic.ReduceLeftFirst | src/helper.rs:172-192 | when the second operator forces an eager reduction, the left pair is combined first |
| Arithmetic.EagerStep | src/helper.rs:172-193 | `+`/`-` over `*`/`/` reduces the pair below before it is pushed |
| Arithmetic.GroupRight | src/helper.rs:248-265 | otherwise the second operator is applied first, at the final drain |
| Arithmetic.DrainPair | src/helper.rs:248-271 | one operator over two values drains to their combination |
| Arithmetic.DrainTwo | src/helper.rs:248-271 | two operators over three values drain from the top: `x op1 (y op2 z)` |
| Arithmetic.DrainTop | src/helper.rs:252-265 | the drain applies the top operator to the two top values first |
| Arithmetic.ThreeOperands | src/helper.rs:161-272 | `a op1 b op2 c` groups from the right, except that `+`/`-` after `*`/`/` reduces the left pair first |
| Arithmetic.SubtractionGroupsRight | src/helper.rs:248-265 | `3 - 2 - 1` evaluates to 2 |
| Arithmetic.MissingOperandPanics | src/helper.rs:253-254 | a number followed by an operator panics on the missing operand |
| Arithmetic.CompoundOperatorRejectedWhenApplied | src/helper.rs:171 | `+-` is taken as an operator by substring containment and fails only when applied |
| Arithmetic.NamedOperand | src/helper.rs:217-245 | a name contributes its payload only when bound to an `int` or `float` that parses; otherwise the matching error |
| Arithmetic.IntOperand | src/helper.rs:217-229 | a name bound to an `int` with a numeric payload pushes that payload's value |
| Arithmetic.ExampleDrained | src/helper.rs:248-265 | the stacks left by the worked example drain to 258.92 |
| Arithmetic.ProductInParentheses | src/helper.rs:196-216 | the `)` of the worked example reduces `3 * 4` to 12 and removes the `(` |
| Arithmetic.WorkedExample | src/helper.rs:161-272 | with `x` bound to the `int` 256 and exact real arithmetic, `x + 1 + 2 - ( 3 * 4 ) / 5 ^ 6 % 7` is 258.92 |
| Evaluator.Expression | src/helper.rs:95-104 | an expression's value is an anonymous `float`; its errors carry the `shunting yard algorithm: ` prefix; it panics exactly when the shunting yard does |
| Evaluator.CharLiteral | src/helper.rs:24-47 | with the apostrophes stripped from both ends, a `char` holding what is left exactly when at most one character is left, and otherwise `invalid char assignment` |
| Evaluator.Numeral | src/helper.rs:57-88 | several tokens go to the shunting yard; a dotted token is a `float` exactly when it has `f32` syntax, else `invalid float assignment`; any other token is an `int` with its canonical payload exactly when it is a 32-bit decimal, else `invalid int assignment` |
| Evaluator.Reference | src/helper.rs:89-94 | a name yields the first binding of exactly that name, and an error exactly when it is unbound |
| Evaluator.Evaluate | src/helper.rs:11-108 | no value exactly when the trimmed text is empty; a value is a literal or the first binding of its identifier; only several tokens can panic |
| Evaluator.ExtractData | src/helper.rs:4-109 | no value exactly when the text is blank; a value is a literal or the first binding of its identifier; only several tokens can panic |
| Evaluator.OneWordTokens | src/helper.rs:9 | a text without whitespace is its only token |
| Evaluator.StringLiteral | src/helper.rs:12-23 | a text between double quotes is a `str` with every leading and trailing quote removed |
| Evaluator.StringLiteralRoundTrip | src/helper.rs:12-23 | quoting a text that neither starts nor ends with a quote and extracting it gives the text back as a `str` |
| Evaluator.StringLiteralStripsQuotes | src/helper.rs:14-17 | any number of quotes around such a text are all removed |
| Evaluator.QuoteRunsStripped | src/helper.rs:14-17 | trimming a character from both ends removes exactly the runs of it around a text that neither starts nor ends with it |
| Evaluator.CharLiteralText | src/helper.rs:24-47 | a quoted text is a `char` holding it when it has at most one character, and `invalid char assignment` otherwise |
| Evaluator.ShortCharLiteral | src/helper.rs:31-46 | `''` and a quoted single character are `char` literals |
| Evaluator.BoolLiteral | src/helper.rs:48-56 | `true` and `false` are `bool` literals |
| Evaluator.FloatLiteral | src/helper.rs:68-77 | a dotted token starting with a digit is a `float` with the printed `f32` value exactly when it has `f32` syntax, and `invalid float assignment` otherwise |
| Evaluator.FloatLiteralOnePointZero | src/helper.rs:68-74 | `1.0` is a `float` |
| Evaluator.FloatLiteralTwoPoints | src/helper.rs:68-77 | `1.2.3` is `invalid float assignment` |
| Evaluator.TwoPoints | src/helper.rs:69 | `1.2.3` has no `f32` syntax |
| Evaluator.IntLiteral | src/helper.rs:78-87 | digits are an `int` with the canonical payload when they fit in 32 bits, else `invalid int assignment` |
| Evaluator.NumeralOfDigits | src/helper.rs:78-87 | the numeric branch on one all-digit token gives the same |
| Evaluator.IntPayloadReparses | src/helper.rs:79-84 | an `int` payload parses back to its value |
| Evaluator.VariableReference | src/helper.rs:89-94 | a single non-literal token is its first binding or `variable '<name>' unrecognised` |
| Evaluator.NegativeNumberIsAName | src/helper.rs:57 | `-` followed by digits is looked up as a name |
| Evaluator.NotBooleanLiteral | src/helper.rs:48 | text containing whitespace is neither `true` nor `false` |
| Evaluator.MultipleTokens | src/helper.rs:9 | trimmed text containing whitespace splits into several tokens |
| Evaluator.EvaluateExpression | src/helper.rs:95-104 | several tokens that are no literal go to the shunting yard |
| Evaluator.ExpressionIsFloat | src/helper.rs:95-104 | text of several tokens that is no quoted literal goes to the shunting yard |
| Builtins.Inner | src/functions.rs:10-12 | removing the first and last characters of a parenthesised text leaves what is between them |
| Builtins.CallArgument | src/functions.rs:7-10 | an argument exists exactly when the joined tokens are parenthesised |
| Builtins.InnerOfWrapped | src/functions.rs:8-12 | a text wrapped in parentheses is parenthesised and unwraps to itself |
| Builtins.CallOfTwoTokens | src/functions.rs:98-102 | the tokens `(a,` and `b)` give the argument text `a, b` |
| Builtins.SingleArgument | src/functions.rs:6-35 | no tokens is `function requires one argument` and an unparenthesised call `function call does not contain two parantheses`; otherwise a value only comes from evaluating the text between the parentheses, an argument that evaluates to nothing is `function requires one argument`, and an evaluation error or panic is passed on unchanged |
| Builtins.WrappedArgument | src/functions.rs:6-35 | a parenthesised argument that evaluates gives its value |
| Builtins.TypeOf | src/functions.rs:6-35 | succeeds exactly when the argument evaluates; the result is a returned `str` holding the argument's kind name; every failure is the argument's own error or panic |
| Builtins.TypeOfWrapped | src/functions.rs:6-35 | `typeof` of any evaluable argument is its kind name |
| Builtins.NameOf | src/functions.rs:43-72 | succeeds exactly when the argument evaluates; the result is a returned `str` holding the argument's identifier; every failure is the argument's own error or panic |
| Builtins.CompareArguments | src/functions.rs:104-153 | without a comma, `function requires two arguments`; otherwise split at the last comma, an answer exactly when both sides have a value, true exactly when kinds and payloads are equal, and the missing-argument errors |
| Builtins.Compare | src/functions.rs:96-157 | fewer than two tokens is `function requires at least two tokens`, an unparenthesised call `function call does not contain two parantheses`; otherwise the answer, error or panic is the comparison of the text between the parentheses |
| Builtins.ShowBool | src/functions.rs:114-124 | the printed boolean parses back to itself |
| Builtins.Eq | src/functions.rs:96-158 | a returned `bool`, succeeding exactly when the comparison does, `true` exactly when it answers true; a failed comparison's message or panic is passed on |
| Builtins.Ne | src/functions.rs:174-236 | a returned `bool`, succeeding exactly when the comparison does, `true` exactly when it answers false; a failed comparison's message or panic is passed on |
| Builtins.NeIsNotEq | src/functions.rs:174-236 | `ne` fails exactly when `eq` does, with the same error, and otherwise answers the opposite |
| Builtins.RSplitOnceAtOnlyComma | src/functions.rs:104 | text joined by a comma splits at it when the right side has no comma |
| Builtins.CompareSymmetric | src/functions.rs:104-133 | comparing `a, b` gives the same answer as comparing `b, a` |
| Builtins.CompareReflexive | src/functions.rs:112-118 | any argument that evaluates is equal to itself |
| Builtins.CompareWithSpace | src/functions.rs:104-118 | `a, a` with a space after the comma compares equal |
| Builtins.SameQuotedCompare | src/functions.rs:104-118 | the same quoted text on both sides compares equal |
| Builtins.TypeOfCharLiteral | src/functions.rs:39 | `typeof('c')` is `char` |
| Builtins.UnboundArgumentFails | src/functions.rs:37-41 | `typeof` and `nameof` of an unbound name fail with the lookup error |
| Builtins.NameOfLiteral | src/functions.rs:75-79 | `nameof` of a literal is `$uninitialised$` |
| Builtins.NameOfVariable | src/functions.rs:80-92 | `nameof` of a bound name is the name |
| Builtins.EqOfTwoTokens | src/functions.rs:96-158 | `eq` written as `(a,` `b)` is true exactly when both values have the same kind and payload |
| Builtins.EqOfCall | src/functions.rs:96-124 | `eq` on a parenthesised call of at least two tokens prints the comparison's answer |
| Builtins.FourTokensArgument | src/functions.rs:98-102 | the four tokens of a two-word string compared with itself give the argument `"u v", "u v"` |
| Builtins.EqOfSameNumber | src/functions.rs:161 | `eq(1, 1)` is true |
| Builtins.EqOfSameTwoWordString | src/functions.rs:162-167 | `eq` of the same two-word string literal, written as four tokens, is true |
| Builtins.EqOfSamePhrase | src/functions.rs:162-167 | `eq("same phrase", "same phrase")` is true |
| Builtins.EqOfDifferentBools | src/functions.rs:168-171 | `eq(false, true)` is false |
| Builtins.SpaceIgnored | src/helper.rs:8 | a space before an argument does not change its value |
| Builtins.Placeholder | src/functions.rs:268 | a placeholder is the identifier between braces |
| Builtins.Formatted | src/functions.rs:266-276 | a text without `{`, or without the placeholder of any binding, is left as it is |
| Builtins.Substitute | src/functions.rs:263-276 | the loop over the store returns the text with each binding's `{name}` replaced, in store order, by the payload of the first binding of that name |
| Builtins.NoPlaceholderUnchanged | src/functions.rs:266-276 | a text without `{` is unchanged by any number of rounds |
| Builtins.NoBoundPlaceholderUnchanged | src/functions.rs:266-276 | a text that holds no binding's placeholder is unchanged by any number of rounds |
| Builtins.ReplaceOnce | src/functions.rs:274 | a placeholder that occurs once is replaced once |
| Builtins.OtherPlaceholderAbsent | src/functions.rs:268-274 | a text with one brace-free placeholder holds no other identifier's placeholder |
| Builtins.OnePlaceholder | src/functions.rs:263-276 | in a store of brace-free names and payloads, one bound placeholder between brace-free texts becomes the payload of the first binding of its name |
| Builtins.SingleSubstitution | src/functions.rs:266-276 | with one binding, its placeholder becomes its payload |
| Builtins.Format | src/functions.rs:252-296 | succeeds exactly when the call is parenthesised and its argument has a value; the result is a returned `str` holding that value's payload with the placeholders substituted; it panics exactly when the argument does |
| Commands.ErrorLine | src/helper.rs:152-157 | the error line starts with the input name and ends with the message and a line break |
| Commands.Throw | src/helper.rs:152-157 | an error appends `<name>:<line>: <function>: <message>` and a line break and changes nothing else |
| Commands.ThrowPrintsErrorLine | src/helper.rs:152-157 | an error keeps the store and appends one error line |
| Commands.Print | src/commands.rs:61-97 | printing appends the text and a line break and changes nothing else |
| Commands.Fail | src/helper.rs:152-157 | a failed evaluation keeps store and input, and sets the panicked status without output exactly when it was a panic |
| Commands.AfterLet | src/commands.rs:12-59 | `let` keeps the input and only appends output; fewer than three tokens is `improper amount of tokens (!>= 4)`, a second token other than `=` is `assignment operator (=) not found`, a value that evaluates to nothing is `empty value given`, an evaluation error is reported under `let` and a panic halts |
| Commands.AfterPrintln | src/commands.rs:61-97 | `println` keeps store and input and only appends output; no tokens is `no argument provided`, an unparenthesised call `command call does not contain two parantheses` |
| Commands.AfterFormatln | src/commands.rs:99-159 | `formatln` keeps store and input and only appends output; no tokens is `command requires one argument`, an unparenthesised call `command call does not contain two parantheses` |
| Commands.ReadInto | src/commands.rs:186-207 | reading consumes exactly one line, or none at end of input, and keeps the status |
| Commands.ReadlnArguments | src/commands.rs:176-245 | `readln` on its two arguments consumes at most one line and leaves the status or panics; a failed evaluation of either argument is reported under `readln` or halts, and an argument that evaluates to nothing is `first argument not given` or `second argument not given` |
| Commands.AfterReadln | src/commands.rs:161-271 | `readln` consumes at most one line and leaves the status or panics; fewer than two tokens is `command requires at least two tokens`, an unparenthesised call `command call does not contain two parantheses`, no comma `command requires two arguments`; otherwise the two sides of the last comma are its arguments |
| Commands.AfterExit | src/commands.rs:273-288 | `exit` keeps store and input and sets the exited status exactly when its argument is `()` |
| Commands.BlockCode | src/commands.rs:300-308 | the stored code is the body with every `\;` replaced by a line break |
| Commands.AfterBlock | src/commands.rs:290-328 | `block` keeps the input and only appends output; no tokens is `block can not be nameless`, a name alone panics, and a second token other than `()` is `block must have two parantheses` |
| Commands.Unrecognised | src/interpreter.rs:42-49 | the message starts with the input name and ends with the whole line |
| Commands.Command | src/interpreter.rs:27-37 | every dispatched command advances the state |
| Commands.Dispatch | src/interpreter.rs:26-51 | the dispatcher advances the state |
| Commands.AfterInterpret | src/interpreter.rs:19-52 | `interpret` on a halted state changes nothing, and otherwise advances the state |
| Commands.AfterEval | src/commands.rs:400-445 | `eval` advances the state; no tokens is `no argument provided`, an unparenthesised call `command call does not contain two parantheses` |
| Commands.RunLines | src/commands.rs:350-359 | running any sequence of lines advances the state |
| Commands.InterpretArgument | src/commands.rs:343-397 | `interpret` on its evaluated argument advances the state |
| Commands.AfterInterpretFile | src/commands.rs:330-398 | `interpret` advances the state; no tokens is `no argument provided`, an unparenthesised call `command call does not contain two parantheses` |
| Commands.ImportLine | src/commands.rs:469-488 | importing one line keeps the input and leaves the status or panics |
| Commands.ImportLines | src/commands.rs:467-489 | importing any sequence of lines advances the state |
| Commands.ImportArgument | src/commands.rs:460-532 | `import` on its evaluated argument advances the state |
| Commands.AfterImport | src/commands.rs:447-533 | `import` advances the state; no tokens is `no argument provided`, an unparenthesised call `command call does not contain two parantheses` |
| Commands.RunSegments | src/commands.rs:556-565 | running the parts of an `if` body advances the state |
| Commands.AfterIf | src/commands.rs:535-603 | `if` advances the state; no tokens is `no condition provided`, no ` :: ` is `no condition-bound code provided`, and an unparenthesised condition is `command condition must contain two parantheses` |
| Commands.AdvancesTransitive | src/interpreter.rs:19-52 | advancing twice is advancing |
| Commands.AssignAdvances | src/helper.rs:111-125 | binding a value advances the state |
| Commands.HaltedIsFinal | src/commands.rs:273-288 | once exited or panicked, running further lines changes nothing |
| Commands.StopsWhenHalted | src/commands.rs:350-359 | the lines after the one that halts the process are ignored |
| Commands.RunLinesStep | src/commands.rs:350-359 | running one more line is `interpret` on it with its 1-based line number |
| Commands.RunSegmentsStep | src/commands.rs:556-565 | running one more part of an `if` body is `interpret` on it under the same line number |
| Commands.ImportLinesStep | src/commands.rs:467-489 | importing one more line imports it with its 1-based line number |
| Commands.ExitHalts | src/commands.rs:273-288 | `exit ()` sets the exited status and changes nothing else |
| Commands.IgnoredLines | src/interpreter.rs:26-38 | blank lines and `#` lines change nothing |
| Commands.UnknownCommand | src/interpreter.rs:42-49 | any other first token prints `unrecognised function` with the whole line and keeps the store |
| Commands.DispatchLet | src/interpreter.rs:27-28 | a `let` line runs the `let` handler on the remaining tokens, with the same store, input name and line number |
| Commands.DispatchPrintln | src/interpreter.rs:27-30 | a `println` line runs the `println` handler on the remaining tokens, with the same store, input name and line number |
| Commands.DispatchFormatln | src/interpreter.rs:27-32 | a `formatln` line runs the `formatln` handler on the remaining tokens, with the same store, input name and line number |
| Commands.DispatchReadline | src/interpreter.rs:27-34 | a `readline` line runs the `readln` handler on the remaining tokens, with the same store, input name and line number |
| Commands.DispatchUnknown | src/interpreter.rs:42-49 | an unknown command prints the `unrecognised function` message |
| Commands.LetBinds | src/commands.rs:18-36 | a successful `let` binds the name to the value's kind and payload, keeps every other binding and prints nothing |
| Commands.LetFailureKeepsStore | src/commands.rs:37-58 | a failing `let` keeps the store and prints one error line, or panics |
| Commands.BlockStoresCode | src/commands.rs:296-311 | a block binds its body with every `\;` replaced by a line break |
| Commands.BlockWithoutParenthesesPanics | src/commands.rs:296-299 | `block` with only a name panics on the missing token |
| Commands.ReadlnReadsLine | src/commands.rs:182-197 | `readln` prints the prompt, consumes one line and binds it without trailing whitespace |
| Commands.ReadlnAtEndOfInput | src/commands.rs:186-197 | at end of input `readln` binds the empty string |
| Commands.ReadlnFailedRead | src/commands.rs:199-206 | a failed read prints `invalid input` after the prompt and binds nothing |
| Commands.ReadlnNeedsString | src/commands.rs:208-219 | a target that is not a `str` is refused with a message naming the first argument |
| Commands.ReadlnWithoutComma | src/commands.rs:248-253 | arguments without a comma are `command requires two arguments` |
| Commands.IfFalseDoesNothing | src/commands.rs:551-566 | a false or empty condition changes nothing |
| Commands.IfTrueRunsCode | src/commands.rs:551-565 | a condition that evaluates to the `bool` `true` runs each `\;`-separated part in order under the same line number |
| Commands.IfTrueLiteralRunsCode | src/commands.rs:551-565 | the condition `(true)` does so |
| Commands.IfNeedsBool | src/commands.rs:567-574 | a condition of another kind is `condition must be of type bool` |
| Commands.EvalRunsCode | src/commands.rs:400-445 | `eval ("<code>")` is `interpret` on the code |
| Commands.EvalOfArgument | src/commands.rs:400-445 | for any parenthesised argument: a `str` value is interpreted as the calling line under the caller's name and line number; another kind is `argument must be a str`, no value `command requires one argument`, an evaluation error is reported under `eval`, a panic halts |
| Commands.InterpretRunsFile | src/commands.rs:343-367 | `interpret ("<file>")` runs the file's lines under its name, or reports the read error |
| Commands.InterpretOfArgument | src/commands.rs:330-398 | for any parenthesised argument: a `str` value names the file whose lines run under that name, a read error is reported with its message, another kind is `argument must be a str`, no value prints an empty line, an evaluation error is reported under `interpret`, a panic halts |
| Commands.ImportOfArgument | src/commands.rs:447-533 | for any parenthesised argument: a `str` value names the file whose `let` and `block` lines are taken under that name, a read error is reported with its message, another kind is `argument must be a str`, no value is `command requires one argument` under `current_function`, an evaluation error is reported under `import`, a panic halts |
| Commands.ImportRunsFile | src/commands.rs:460-500 | `import ("<file>")` takes the file's bindings and blocks under its name, or reports the read error |
| Commands.ImportLinesKeepInput | src/commands.rs:467-489 | importing never reads input and never exits |
| Commands.ImportRunsLetAndBlock | src/commands.rs:466-488 | a `let` or `block` line of an imported file runs that command under the file name and its 1-based line number |
| Commands.ImportSkipsOtherLines | src/commands.rs:472-487 | lines other than `let` and `block` have no effect when imported |
| Commands.PrintlnPrintsString | src/commands.rs:61-97 | `println ("<text>")` prints the text |
| Commands.PrintlnOfArgument | src/commands.rs:61-97 | for any parenthesised argument: the value's payload is printed, no value prints an empty line, an evaluation error is reported under `println`, a panic halts |
| Commands.FormatlnPrintsString | src/commands.rs:99-159 | `formatln ("<text>")` prints the substituted text, and the text itself when it has no `{` |
| Commands.FormatlnOfArgument | src/commands.rs:99-159 | for any parenthesised argument: the value's payload is printed with every placeholder substituted from the store, no value is `command requires one argument`, an evaluation error is reported under `formatln`, a panic halts |
| Runtime.Interpreter.constructor | src/interpreter.rs:19-24 | a new interpreter has an empty store, no output, the given input and is running |
| Runtime.Interpreter.Assign | src/helper.rs:111-125 | the search-then-overwrite-or-push leaves the store `assign` specifies |
| Runtime.Interpreter.ThrowError | src/helper.rs:152-157 | the state after printing an error line |
| Runtime.Interpreter.PrintLine | src/commands.rs:61-97 | the state after printing one line |
| Runtime.Interpreter.Report | src/helper.rs:152-157 | the state after reporting a failed evaluation: its error line, or the panic |
| Runtime.Interpreter.Let | src/commands.rs:12-59 | the state `let` specifies |
| Runtime.Interpreter.Println | src/commands.rs:61-97 | the state `println` specifies |
| Runtime.Interpreter.Formatln | src/commands.rs:99-159 | the state `formatln` specifies, with the placeholder loop |
| Runtime.Interpreter.ReadLine | src/commands.rs:186-207 | the state after reading one line into the target |
| Runtime.Interpreter.ReadlnWith | src/commands.rs:176-245 | the state `readln` specifies on its two arguments |
| Runtime.Interpreter.Readln | src/commands.rs:161-271 | the state `readln` specifies |
| Runtime.Interpreter.Exit | src/commands.rs:273-288 | the state `exit` specifies |
| Runtime.Interpreter.Block | src/commands.rs:290-328 | the state `block` specifies |
| Runtime.Interpreter.Interpret | src/interpreter.rs:19-52 | the state `interpret` specifies |
| Runtime.Interpreter.Run | src/interpreter.rs:26-51 | the state the dispatcher specifies |
| Runtime.Interpreter.Eval | src/commands.rs:400-445 | the state `eval` specifies |
| Runtime.Interpreter.RunFileLines | src/commands.rs:350-359 | the line loop leaves the state of running all lines in order |
| Runtime.Interpreter.InterpretFile | src/commands.rs:330-398 | the state `interpret` on a file specifies |
| Runtime.Interpreter.ImportLineOf | src/commands.rs:469-488 | the state after importing one line |
| Runtime.Interpreter.ImportFileLines | src/commands.rs:467-489 | the line loop leaves the state of importing all lines in order |
| Runtime.Interpreter.Import | src/commands.rs:447-533 | the state `import` specifies |
| Runtime.Interpreter.RunThen | src/commands.rs:556-565 | the loop over the parts of an `if` body leaves the state of running them in order |
| Runtime.Interpreter.If | src/commands.rs:535-603 | the state `if` specifies |
| Legacy.KindName | src/main.rs:570-582 | the name of a kind is one of the five kind names |
| Legacy.KindNameInjective | src/main.rs:570-582 | two kinds have the same name exactly when they are the same kind |
| Legacy.Lift | src/main.rs:18-22 | the lifted store has the same identifiers and payloads in the same order |
| Legacy.FindVar | src/main.rs:599-608 | a copy found carries the identifier and is in the store; nothing is found exactly when no binding has the identifier |
| Legacy.Assign | src/main.rs:584-597 | the store grows by one exactly when the name is unbound; every binding keeps its identifier and kind, other names are kept, and a new binding goes at the end |
| Legacy.AssignKeepsKind | src/main.rs:584-597 | after `assign` the name holds the new value under the kind it had before, or under the new kind if it was unbound |
| Legacy.AssignKeepsOthers | src/main.rs:584-597 | `assign` leaves every other name as it was |
| Legacy.AssignKeepsAllOthers | src/main.rs:584-597 | `assign` keeps every binding of every other name |
| Legacy.Throw | src/main.rs:610-615 | an error appends `<name>:<line>: <function>: <message>` and a line break and changes nothing else |
| Legacy.Print | src/main.rs:336 | printing appends the text and a line break and changes nothing else |
| Legacy.Bind | src/main.rs:584-597 | binding changes only the store: the name holds the value and other names are kept |
| Legacy.DeclareInt | src/main.rs:86-130 | nothing is printed exactly when the line is `int <name> = <value>;` with an `i32` value, which is then stored as written; a token count other than four is `improper amount of tokens (!= 4)`, a third token other than `=` is `assignment operator (=) not found`, any other value is `'<value>' is not an integer`; on an error the store is kept |
| Legacy.DeclareFloat | src/main.rs:132-190 | nothing is printed exactly when the value has `f32` syntax and a decimal point, and it is then stored as written; the token-count and `=` errors as for `int`, `'<value>' is not a float` without `f32` syntax, and `'<name>' does not contain a floating point` without a point; on an error the store is kept |
| Legacy.DeclareStr | src/main.rs:192-230 | nothing is printed exactly when `=` is in place, and the stripped text is then stored; fewer than four tokens is `improper amount of tokens (!>= 4)`, a third token other than `=` is `assignment operator (=) not found`; on an error the store is kept |
| Legacy.DeclareChar | src/main.rs:232-279 | nothing is printed exactly when one character is left between the quotes, which is then stored; the token-count and `=` errors as for `int`, otherwise `'<value>' is not a char`; on an error the store is kept |
| Legacy.DeclareBool | src/main.rs:281-324 | nothing is printed exactly when the value is a boolean, which is then stored; the token-count and `=` errors as for `int`, otherwise `'<value>' is not a boolean`; on an error the store is kept |
| Legacy.Println | src/main.rs:326-354 | `println` keeps the store and the input; other than two tokens is `no argument provided`, `();` prints an empty line, a bound name prints the value of its first binding, an unbound one is `variable '<name>' unrecognised` |
| Legacy.Formatln | src/main.rs:356-386 | `formatln` keeps the store and the input; fewer than two tokens is `improper amount of tokens (!>= 2)`, otherwise the text between `("` and `");` is printed with each `{name}` replaced by that variable's value |
| Legacy.TypeOf | src/main.rs:388-421 | `typeof` keeps the store and the input; other than two tokens is `no argument provided`, an empty argument `improper amount of tokens (!= 2)`, a bound name prints the kind name of its first binding, an unbound one is `variable '<name>' unrecognised` |
| Legacy.ReadInto | src/main.rs:442-463 | reading consumes exactly one line, or none at end of input, and changes no other name |
| Legacy.Readline | src/main.rs:423-534 | `readline` changes no name but its second argument, and with the wrong number of arguments reads nothing |
| Legacy.ReadNamed | src/main.rs:429-517 | input is consumed only when both names are bound to `str` values, and only the second name can change |
| Legacy.Exit | src/main.rs:536-552 | `exit` keeps store and input, and exits exactly on `();` |
| Legacy.Command | src/main.rs:84-552 | every known command advances the state |
| Legacy.Unknown | src/main.rs:558-565 | the message starts with the input name and ends with the whole line |
| Legacy.Dispatch | src/main.rs:84-566 | the dispatcher advances the state |
| Legacy.AfterInterpret | src/main.rs:82-568 | a line after exit changes nothing, and otherwise the state advances |
| Legacy.IntStoredVerbatim | src/main.rs:86-130 | a new `int` stores the literal text as written, not its canonical form, and prints nothing |
| Legacy.RejectedDeclarationKeepsStore | src/main.rs:86-324 | an `int`, `float`, `bool` or `char` value that does not parse is the matching error and the store is kept |
| Legacy.FloatNeedsPoint | src/main.rs:132-190 | a `float` is stored only with a decimal point; without one the error names the variable, not the value |
| Legacy.BoolDeclaration | src/main.rs:281-324 | a `bool` declaration prints nothing exactly when the value is `true` or `false` |
| Legacy.CharDeclaration | src/main.rs:232-279 | a `char` declaration prints nothing exactly when one character is left between the quotes |
| Legacy.StrNeverFails | src/main.rs:192-230 | with `=` in place a `str` declaration always binds the stripped text and prints nothing |
| Legacy.RedeclarationKeepsKind | src/main.rs:584-597 | redeclaring a name as `str` changes its value and keeps its first kind |
| Legacy.TypeOfPrintsKind | src/main.rs:388-421 | `typeof (x);` prints the kind name of `x` |
| Legacy.ReadlineNamesFirstArgument | src/main.rs:478-489 | when the second `readline` argument is undeclared, the message names the first argument |
| Legacy.ReadlineReadsLine | src/main.rs:438-453 | with two `str` variables `readline` prints the first's value, consumes one line and stores it trimmed in the second |
| Legacy.ExitEnds | src/main.rs:536-552 | `exit ();` ends the process, after which no line has an effect |
| Legacy.DispatchRoutes | src/main.rs:85-552 | each of the ten known commands (`int`, `float`, `str`, `char`, `bool`, `println`, `formatln`, `typeof`, `readline`, `exit`) runs its own handler on the whole line, with the same store, input name and line number |
| Legacy.UnknownCommand | src/main.rs:554-565 | an empty first token or `#` does nothing; any other unknown command prints `unknown function` with the line and keeps the store |
| Legacy.FormatlnPlainText | src/main.rs:356-386 | a `formatln` text without `{` is printed as it stands |
| Legacy.Interpreter.constructor | src/main.rs:24-26 | a new interpreter has an empty store, no output, the given input and has not exited |
| Legacy.Interpreter.Assign | src/main.rs:584-597 | the search-then-overwrite-value-or-push leaves the store `assign` specifies |
| Legacy.Interpreter.ThrowError | src/main.rs:610-615 | the state after printing an error line |
| Legacy.Interpreter.PrintLine | src/main.rs:336 | the state after printing one line |
| Legacy.Interpreter.Declare | src/main.rs:86-324 | the state the `int`, `float`, `char` and `bool` declarations specify |
| Legacy.Interpreter.DeclareString | src/main.rs:192-230 | the state the `str` declaration specifies |
| Legacy.Interpreter.FormatLine | src/main.rs:356-386 | the state `formatln` specifies, with the placeholder loop |
| Legacy.Interpreter.ReadLine | src/main.rs:423-534 | the state `readline` specifies |
| Legacy.Interpreter.ReadArguments | src/main.rs:429-517 | the state `readline` specifies once its two arguments are known |
| Legacy.Interpreter.Read | src/main.rs:442-463 | the state after reading one line into the target |
| Legacy.Interpreter.Show | src/main.rs:326-421 | the state `println` and `typeof` specify |
| Legacy.Interpreter.Stop | src/main.rs:536-552 | the state `exit` specifies |
| Legacy.Interpreter.Interpret | src/main.rs:82-568 | the state the legacy `interpret` specifies |

## Left out

- Floating point: `f32` values, arithmetic and printing are abstract (`Numbers.FloatOps`). The syntax `str::parse::<f32>` accepts is modelled exactly. The worked example 258.92 is proved only under the assumption that the operations are exact real arithmetic (`Arithmetic.RealArithmetic`); real `f32` rounding is not modelled.
- `main` in `src/main.rs` (argument handling, the interactive prompt loop, reading the program file) is not part of this model. The legacy `interpret` is modelled one line at a time.
- Real input and output: standard input is a sequence of lines, printed text is appended to one string, and files are a function from name to contents or error.
- `throw_error` prints an `i32` line number. The model uses unbounded integers, so a counter overflow after 2^31 lines is not modelled.
- The `output_queue` of `shunting_yard` is only written, never read, and is left out.
- The `""` arm of the dispatcher is unreachable, because `split_whitespace` yields no empty tokens. The legacy `invalid amount of arguments (!= 2)` branch is unreachable, because three tokens always leave two arguments. Neither is modelled.
- `src/interpreter.rs` declares five kinds, but `silm_block` stores a sixth, `Block`. The model adds `Block`, and `Values.KindName` names it `block`, since `represent_datatype` lists no name for it.
- The dispatcher calls `silm_readline` for `readline`. Only `silm_readln` is defined, so the model routes `readline` to it.
- A panic is modelled as a halted status. The panic message is not modelled.
- OnePlaceholder: the general substitution result is proved only for stores whose identifiers and payloads contain no `{`, and for a text with one placeholder between brace-free texts. Substitutions that create new placeholders from payloads are computed by `Builtins.Formatted` but have no lemma.
- StringLiteralRoundTrip: holds only for texts that neither start nor end with `"`, because `trim_*_matches` strips every quote at either end; `Evaluator.StringLiteral` states the general case.
- ShowInt: states only that the printed text is non-empty; its meaning is given by `Numbers.ParseShowInt`.
- Command, Dispatch, RunLines, InterpretArgument, ImportLines, ImportArgument and RunSegments (and the legacy Command and Dispatch): their own contracts state only the `Advances` frame. What each does is given by lemmas: the routes of the dispatchers by `DispatchLet`, `DispatchPrintln`, `DispatchFormatln`, `DispatchReadline`, `ExitHalts`, `IgnoredLines`, `UnknownCommand` and the legacy `DispatchRoutes` and `UnknownCommand`; the rest by `InterpretOfArgument`, `ImportOfArgument`, `ImportRunsLetAndBlock`, `ImportSkipsOtherLines`, `IfTrueRunsCode`, `HaltedIsFinal`, `StopsWhenHalted`, `RunLinesStep` and `RunSegmentsStep`. AfterEval, AfterInterpretFile, AfterImport and AfterIf state their own errors for a malformed call; what they do with an evaluated argument is given by `EvalOfArgument`, `InterpretOfArgument`, `ImportOfArgument`, `IfTrueRunsCode`, `IfFalseDoesNothing` and `IfNeedsBool`.

=== FILE: arithmetic.dfy ===
/** `shunting_yard`: infix arithmetic over an operator stack and a value stack, with
    the reduction rule and operator meanings of the source (see README). */
module Arithmetic {
  import opened Text
  import opened Numbers
  import opened Values
  import opened Store

  /** A token is an operator when it occurs in this string (substring containment). */
  const Operators: string := "+-*/^%"

  /** The operator stack and the value stack; the top of each is its last element. */
  datatype Stacks = Stacks(ops: seq<string>, vals: seq<real>)

  /** The `match op` that computes one operator; `^` is `(a * a) * b`. */
  function Apply(fl: FloatOps, op: string, a: real, b: real): (r: Outcome<real>)
    ensures r.Panic? == false
    ensures r.Err? <==> op !in {"+", "-", "*", "/", "^", "%"}
  {
    match op
    case "+" => Ok(fl.add(a, b))
    case "-" => Ok(fl.sub(a, b))
    case "*" => Ok(fl.mul(a, b))
    case "/" => Ok(fl.div(a, b))
    case "^" => Ok(fl.mul(fl.mul(a, a), b))
    case "%" => Ok(fl.rem(a, b))
    case _ => Err("invalid operator: " + op)
  }

  /** Pop the top operator, pop `b` then `a` (an `unwrap` that panics when the value
      stack runs out), apply, push the result. */
  function ApplyTop(fl: FloatOps, st: Stacks): (r: Outcome<Stacks>)
    requires |st.ops| > 0
    ensures r.Panic? <==> |st.vals| < 2
    ensures r.Ok? ==> |r.val.ops| == |st.ops| - 1 && |r.val.vals| == |st.vals| - 1
    ensures r.Ok? ==> r.val.ops == st.ops[..|st.ops| - 1]
    ensures r.Err? ==> r.msg == "invalid operator: " + st.ops[|st.ops| - 1]
  {
    var op := st.ops[|st.ops| - 1];
    if |st.vals| < 2 then Panic
    else
      var n := |st.vals|;
      match Apply(fl, op, st.vals[n - 2], st.vals[n - 1])
      case Ok(x) => Ok(Stacks(st.ops[..|st.ops| - 1], st.vals[..n - 2] + [x]))
      case Err(e) => Err(e)
      case Panic => Panic
  }

  /** The one case where an incoming operator reduces the stack first. */
  predicate Eager(token: string, top: string) {
    (token == "+" || token == "-") && (top == "*" || top == "/")
  }

  /** The `while let` before pushing an operator: reduce while `Eager` holds. */
  function ReduceBefore(fl: FloatOps, st: Stacks, token: string): (r: Outcome<Stacks>)
    ensures r.Ok? ==> |r.val.ops| == 0 || !Eager(token, r.val.ops[|r.val.ops| - 1])
    ensures r.Ok? ==> r.val.ops <= st.ops && |r.val.vals| <= |st.vals|
    decreases |st.ops|
  {
    if |st.ops| > 0 && Eager(token, st.ops[|st.ops| - 1]) then
      match ApplyTop(fl, st)
      case Ok(next) => ReduceBefore(fl, next, token)
      case Err(e) => Err(e)
      case Panic => Panic
    else Ok(st)
  }

  /** The `while let` on `)`: reduce until a `(` is popped or the stack is empty. */
  function CloseParen(fl: FloatOps, st: Stacks): (r: Outcome<Stacks>)
    ensures r.Ok? ==> r.val.ops <= st.ops && |r.val.vals| <= |st.vals|
    ensures r.Ok? && "(" in st.ops ==>
      |r.val.ops| < |st.ops| && st.ops[|r.val.ops|] == "(" && "(" !in st.ops[|r.val.ops| + 1..]
    ensures r.Ok? && "(" !in st.ops ==> r.val.ops == []
    decreases |st.ops|
  {
    if |st.ops| == 0 then Ok(st)
    else if st.ops[|st.ops| - 1] == "(" then Ok(st.(ops := st.ops[..|st.ops| - 1]))
    else
      match ApplyTop(fl, st)
      case Ok(next) =>
        assert st.ops == next.ops + [st.ops[|st.ops| - 1]];
        CloseParen(fl, next)
      case Err(e) => Err(e)
      case Panic => Panic
  }

  /** The body of the `for token in tokens` loop. */
  function Step(fl: FloatOps, store: seq<Variable>, st: Stacks, token: string): (r: Outcome<Stacks>)
    ensures r.Ok? ==> |r.val.ops| <= |st.ops| + 1 && |r.val.vals| <= |st.vals| + 1
    ensures r.Ok? && !FloatSyntax(token) && Contains(Operators, token) ==>
      |r.val.ops| > 0 && r.val.ops[|r.val.ops| - 1] == token
    ensures FloatSyntax(token) ==> r == Ok(Stacks(st.ops, st.vals + [fl.value(token)]))
  {
    match ParseF32(fl, token)
    case Some(x) => Ok(st.(vals := st.vals + [x]))
    case None =>
      if Contains(Operators, token) then
        match ReduceBefore(fl, st, token)
        case Ok(next) => Ok(next.(ops := next.ops + [token]))
        case Err(e) => Err(e)
        case Panic => Panic
      else if token == "(" then Ok(st.(ops := st.ops + ["("]))
      else if token == ")" then CloseParen(fl, st)
      else
        match Lookup(store, token)
        case Some(v) =>
          if v.kind == Int || v.kind == Float then
            match ParseF32(fl, v.payload)
            case Some(x) => Ok(st.(vals := st.vals + [x]))
            case None => Err("variable '" + token + "' can not be parsed into a float")
          else Err("variable '" + token + "' must be either an int or a float")
        case None => Err("invalid token: " + token)
  }

  /** All tokens, left to right. */
  function Feed(fl: FloatOps, store: seq<Variable>, st: Stacks, tokens: seq<string>): (r: Outcome<Stacks>)
    ensures r.Ok? ==> |r.val.ops| <= |st.ops| + |tokens| && |r.val.vals| <= |st.vals| + |tokens|
    decreases |tokens|
  {
    if tokens == [] then Ok(st)
    else match Step(fl, store, st, tokens[0])
      case Ok(next) => Feed(fl, store, next, tokens[1..])
      case Err(e) => Err(e)
      case Panic => Panic
  }

  /** The final `while let`: apply the remaining operators from the top, then demand
      exactly one value. */
  function Drain(fl: FloatOps, st: Stacks): (r: Outcome<real>)
    ensures r.Ok? ==> "(" !in st.ops && |st.vals| == |st.ops| + 1
    decreases |st.ops|
  {
    if |st.ops| == 0 then
      if |st.vals| != 1 then Err("invalid expression") else Ok(st.vals[0])
    else if st.ops[|st.ops| - 1] == "(" then Err("mismatched parentheses")
    else
      match ApplyTop(fl, st)
      case Ok(next) =>
        assert st.ops == next.ops + [st.ops[|st.ops| - 1]];
        Drain(fl, next)
      case Err(e) => Err(e)
      case Panic => Panic
  }

  /** Feeding the remaining tokens to the stacks, then draining them. */
  function Continue(fl: FloatOps, store: seq<Variable>, st: Stacks, tokens: seq<string>): Outcome<real> {
    match Feed(fl, store, st, tokens)
    case Ok(last) => Drain(fl, last)
    case Err(e) => Err(e)
    case Panic => Panic
  }

  /** What `shunting_yard` returns for a token list. */
  function ShuntingYard(fl: FloatOps, store: seq<Variable>, tokens: seq<string>): (r: Outcome<real>)
    ensures tokens == [] ==> r == Err("invalid expression")
    ensures |tokens| == 1 && FloatSyntax(tokens[0]) ==> r == Ok(fl.value(tokens[0]))
  {
    SingleNumber(fl, store, tokens);
    Continue(fl, store, Stacks([], []), tokens)
  }

  lemma SingleNumber(fl: FloatOps, store: seq<Variable>, tokens: seq<string>)
    ensures |tokens| == 1 && FloatSyntax(tokens[0]) ==> Continue(fl, store, Stacks([], []), tokens) == Ok(fl.value(tokens[0]))
  {
    if |tokens| == 1 && FloatSyntax(tokens[0]) {
      var last := Stacks([], [fl.value(tokens[0])]);
      assert [] + [fl.value(tokens[0])] == [fl.value(tokens[0])];
      assert Step(fl, store, Stacks([], []), tokens[0]) == Ok(last);
      assert tokens[1..] == [];
      assert Feed(fl, store, Stacks([], []), tokens) == Ok(last);
    }
  }

  // ---------------------------------------------------------------------------
  // The imperative algorithm

  /** One reduction as the source writes it: pop the operator, pop `b`, pop `a`, apply,
      push. */
  method Reduce(fl: FloatOps, ops: seq<string>, vals: seq<real>) returns (r: Outcome<Stacks>)
    requires |ops| > 0
    ensures r == ApplyTop(fl, Stacks(ops, vals))
  {
    var op := ops[|ops| - 1];
    var rest := ops[..|ops| - 1];
    if |vals| == 0 {
      return Panic;
    }
    var b := vals[|vals| - 1];
    var below := vals[..|vals| - 1];
    if |below| == 0 {
      return Panic;
    }
    var a := below[|below| - 1];
    below := below[..|below| - 1];
    assert a == vals[|vals| - 2] && below == vals[..|vals| - 2];
    var applied := Apply(fl, op, a, b);
    match applied
    case Ok(x) =>
      r := Ok(Stacks(rest, below + [x]));
    case Err(e) =>
      r := Err(e);
    case Panic =>
      r := Panic;
  }

  /** The `while let` before an operator is pushed. */
  method ReduceWhileEager(fl: FloatOps, st: Stacks, token: string) returns (r: Outcome<Stacks>)
    ensures r == ReduceBefore(fl, st, token)
  {
    var ops, vals := st.ops, st.vals;
    while |ops| > 0 && Eager(token, ops[|ops| - 1])
      invariant ReduceBefore(fl, Stacks(ops, vals), token) == ReduceBefore(fl, st, token)
      decreases |ops|
    {
      var reduced := Reduce(fl, ops, vals);
      match reduced
      case Ok(next) =>
        ops, vals := next.ops, next.vals;
      case Err(e) =>
        return Err(e);
      case Panic =>
        return Panic;
    }
    return Ok(Stacks(ops, vals));
  }

  /** The `while let` on `)`: reduce until the `(` is popped or the stack is empty. */
  method ReduceToOpen(fl: FloatOps, st: Stacks) returns (r: Outcome<Stacks>)
    ensures r == CloseParen(fl, st)
  {
    var ops, vals := st.ops, st.vals;
    while |ops| > 0
      invariant CloseParen(fl, Stacks(ops, vals)) == CloseParen(fl, st)
      decreases |ops|
    {
      if ops[|ops| - 1] == "(" {
        return Ok(Stacks(ops[..|ops| - 1], vals));
      }
      var reduced := Reduce(fl, ops, vals);
      match reduced
      case Ok(next) =>
        ops, vals := next.ops, next.vals;
      case Err(e) =>
        return Err(e);
      case Panic =>
        return Panic;
    }
    return Ok(Stacks(ops, vals));
  }

  /** The final `while let` and the check for exactly one value. */
  method DrainStacks(fl: FloatOps, st: Stacks) returns (r: Outcome<real>)
    ensures r == Drain(fl, st)
  {
    var ops, vals := st.ops, st.vals;
    while |ops| > 0
      invariant Drain(fl, Stacks(ops, vals)) == Drain(fl, st)
      decreases |ops|
    {
      if ops[|ops| - 1] == "(" {
        return Err("mismatched parentheses");
      }
      var reduced := Reduce(fl, ops, vals);
      match reduced
      case Ok(next) =>
        ops, vals := next.ops, next.vals;
      case Err(e) =>
        return Err(e);
      case Panic =>
        return Panic;
    }
    if |vals| != 1 {
      return Err("invalid expression");
    }
    return Ok(vals[0]);
  }

  /** The body of the `for token in tokens` loop, on the stacks it is given. */
  method StepStacks(fl: FloatOps, store: seq<Variable>, st: Stacks, token: string) returns (r: Outcome<Stacks>)
    ensures r == Step(fl, store, st, token)
  {
    var number := ParseF32(fl, token);
    if number.Some? {
      return Ok(Stacks(st.ops, st.vals + [number.val]));
    } else if Contains(Operators, token) {
      var reduced := ReduceWhileEager(fl, st, token);
      match reduced
      case Ok(next) =>
        return Ok(Stacks(next.ops + [token], next.vals));
      case Err(e) =>
        return Err(e);
      case Panic =>
        return Panic;
    } else if token == "(" {
      return Ok(Stacks(st.ops + ["("], st.vals));
    } else if token == ")" {
      r := ReduceToOpen(fl, st);
    } else {
      var found := Lookup(store, token);
      match found
      case Some(v) =>
        if v.kind == Int || v.kind == Float {
          var parsed := ParseF32(fl, v.payload);
          if parsed.Some? {
            return Ok(Stacks(st.ops, st.vals + [parsed.val]));
          } else {
            return Err("variable '" + token + "' can not be parsed into a float");
          }
        } else {
          return Err("variable '" + token + "' must be either an int or a float");
        }
      case None =>
        return Err("invalid token: " + token);
    }
  }

  /** `shunting_yard` with its loops: the tokens left to right, then the final drain. */
  method RunShuntingYard(fl: FloatOps, store: seq<Variable>, tokens: seq<string>) returns (r: Outcome<real>)
    ensures r == ShuntingYard(fl, store, tokens)
  {
    var st := Stacks([], []);
    for i := 0 to |tokens|
      invariant Continue(fl, store, st, tokens[i..]) == ShuntingYard(fl, store, tokens)
    {
      ContinueStep(fl, store, st, tokens, i);
      var stepped := StepStacks(fl, store, st, tokens[i]);
      match stepped
      case Ok(next) =>
        st := next;
      case Err(e) =>
        return Err(e);
      case Panic =>
        return Panic;
    }
    assert Feed(fl, store, st, tokens[|tokens|..]) == Ok(st);
    r := DrainStacks(fl, st);
  }

  /** Continuing from the token at `i` is one step, then continuing from `i + 1`. */
  lemma ContinueStep(fl: FloatOps, store: seq<Variable>, st: Stacks, tokens: seq<string>, i: nat)
    requires i < |tokens|
    ensures Continue(fl, store, st, tokens[i..]) == match Step(fl, store, st, tokens[i])
      case Ok(next) => Continue(fl, store, next, tokens[i + 1..])
      case Err(e) => Err(e)
      case Panic => Panic
  {
    assert tokens[i..][0] == tokens[i] && tokens[i..][1..] == tokens[i + 1..];
  }

  // ---------------------------------------------------------------------------
  // Facts about the algorithm

  /** Only an incoming `+` or `-` over a `*` or `/` reduces before the push; every other
      operator token is pushed onto the stack as it stands. */
  lemma OperatorPushedUnlessEager(fl: FloatOps, store: seq<Variable>, st: Stacks, token: string)
    requires ParseF32(fl, token).None? && Contains(Operators, token)
    requires |st.ops| == 0 || !Eager(token, st.ops[|st.ops| - 1])
    ensures Step(fl, store, st, token) == Ok(st.(ops := st.ops + [token]))
  {
  }

  /** `)` with no `(` below it empties the operator stack instead of failing. */
  lemma {:induction false} UnmatchedCloseIsNotAnError(fl: FloatOps, st: Stacks)
    requires "(" !in st.ops
    requires forall op :: op in st.ops ==> op in {"+", "-", "*", "/", "^", "%"}
    requires |st.vals| > |st.ops|
    ensures CloseParen(fl, st).Ok? && CloseParen(fl, st).val.ops == []
    ensures |CloseParen(fl, st).val.vals| == |st.vals| - |st.ops|
    decreases |st.ops|
  {
    if |st.ops| > 0 {
      assert st.ops[|st.ops| - 1] in st.ops;
      var next := ApplyTop(fl, st);
      assert next.Ok?;
      assert forall op :: op in next.val.ops ==> op in st.ops;
      UnmatchedCloseIsNotAnError(fl, next.val);
    }
  }

  /** A `(` at the top of the stack when the tokens run out is an error. */
  lemma OpenLeftIsMismatched(fl: FloatOps, ops: seq<string>, vals: seq<real>)
    ensures Drain(fl, Stacks(ops + ["("], vals)) == Err("mismatched parentheses")
  {
  }

  /** An empty operator stack must hold exactly one value. */
  lemma ValueCountChecked(fl: FloatOps, vals: seq<real>)
    ensures Drain(fl, Stacks([], vals)) == if |vals| == 1 then Ok(vals[0]) else Err("invalid expression")
  {
  }

  /** A single character other than a digit is never an `f32` literal. */
  lemma SymbolIsNotNumber(c: char)
    requires !IsDigit(c)
    ensures !FloatSyntax([c])
  {
    var s := [c];
    assert s[1..] == [];
    var body := if c == '+' || c == '-' then [] else s;
    assert LowerAscii(body) !in {"inf", "infinity", "nan"} by {
      assert |LowerAscii(body)| <= 1;
    }
    var e := ExponentMark(body);
    assert body[..e] == [] || body[..e] == [c];
    SymbolIsNoMantissa(c);
  }

  lemma SymbolIsNoMantissa(c: char)
    requires !IsDigit(c)
    ensures !Mantissa([]) && !Mantissa([c])
  {
    assert RSplitOnce([], '.') == None;
    if c == '.' {
      assert RSplitOnce([c], '.') == Some(([], []));
    } else {
      assert RSplitOnce([c], '.') == None;
    }
  }

  /** A string of decimal digits is an `f32` literal. */
  lemma DigitsAreNumber(s: string)
    requires |s| > 0 && AllDigits(s)
    ensures FloatSyntax(s)
  {
    assert s[0] != '+' && s[0] != '-';
    ExponentMarkOfDigits(s);
    assert s[..|s|] == s;
    assert '.' !in s;
  }

  lemma {:induction false} ExponentMarkOfDigits(s: string)
    requires AllDigits(s)
    ensures ExponentMark(s) == |s|
  {
    if s != [] {
      ExponentMarkOfDigits(s[1..]);
    }
  }

  /** With three operands the operators group from the right, except that a `+` or
      `-` after a `*` or `/` makes the left pair reduce first. */
  lemma ThreeOperands(fl: FloatOps, store: seq<Variable>, a: string, op1: string, b: string, op2: string, c: string)
    requires FloatSyntax(a) && FloatSyntax(b) && FloatSyntax(c)
    requires op1 in {"+", "-", "*", "/", "^", "%"} && op2 in {"+", "-", "*", "/", "^", "%"}
    ensures var x, y, z := fl.value(a), fl.value(b), fl.value(c);
      ShuntingYard(fl, store, [a, op1, b, op2, c]) ==
        if Eager(op2, op1) then Ok(Apply(fl, op2, Apply(fl, op1, x, y).val, z).val)
        else Ok(Apply(fl, op1, x, Apply(fl, op2, y, z).val).val)
  {
    var x, y, z := fl.value(a), fl.value(b), fl.value(c);
    var s3 := Stacks([op1], [x, y]);
    FirstOperandPairThen(fl, store, a, op1, b, op2, c);
    OperatorsAreNotNumbers(op2);
    OperatorsAreOperators(op2);
    if Eager(op2, op1) {
      ReduceLeftFirst(fl, store, s3, op2, c);
      assert Continue(fl, store, s3, [op2, c]) == Ok(Apply(fl, op2, Apply(fl, op1, x, y).val, z).val);
    } else {
      GroupRight(fl, store, s3, op2, c);
      assert Continue(fl, store, s3, [op2, c]) == Ok(Apply(fl, op1, x, Apply(fl, op2, y, z).val).val);
    }
  }

  /** After `a op1 b` the stacks hold `op1` and the two values, whatever follows. */
  lemma FirstOperandPairThen(fl: FloatOps, store: seq<Variable>, a: string, op1: string, b: string, op2: string, c: string)
    requires FloatSyntax(a) && FloatSyntax(b)
    requires op1 in {"+", "-", "*", "/", "^", "%"}
    ensures ShuntingYard(fl, store, [a, op1, b, op2, c])
         == Continue(fl, store, Stacks([op1], [fl.value(a), fl.value(b)]), [op2, c])
  {
    assert [a, op1, b, op2, c] == [a, op1, b] + [op2, c];
    FirstOperandPair(fl, store, a, op1, b, [op2, c]);
  }

  /** The eager case: the pair already on the stack is reduced before `op2` is pushed. */
  lemma ReduceLeftFirst(fl: FloatOps, store: seq<Variable>, s3: Stacks, op2: string, c: string)
    requires FloatSyntax(c) && !FloatSyntax(op2) && Contains(Operators, op2)
    requires |s3.ops| == 1 && |s3.vals| == 2 && Eager(op2, s3.ops[0])
    requires op2 in {"+", "-", "*", "/", "^", "%"}
    ensures var xy := Apply(fl, s3.ops[0], s3.vals[0], s3.vals[1]).val;
      Continue(fl, store, s3, [op2, c]) == Ok(Apply(fl, op2, xy, fl.value(c)).val)
  {
    var op1, x, y, z := s3.ops[0], s3.vals[0], s3.vals[1], fl.value(c);
    var xy := Apply(fl, op1, x, y).val;
    var s4 := Stacks([op2], [xy]);
    EagerStep(fl, store, s3, op2);
    LastOperand(fl, store, s3, op2, c, s4);
    assert [xy] + [z] == [xy, z];
    DrainPair(fl, op2, xy, z);
  }

  /** One operator over two values drains to the operator applied to them. */
  lemma DrainPair(fl: FloatOps, op: string, a: real, b: real)
    requires op in {"+", "-", "*", "/", "^", "%"}
    ensures Drain(fl, Stacks([op], [a, b])) == Ok(Apply(fl, op, a, b).val)
  {
    var s := Stacks([op], [a, b]);
    var x := Apply(fl, op, a, b).val;
    assert Apply(fl, op, s.vals[0], s.vals[1]) == Ok(x);
    assert s.ops[..0] == [] && s.vals[..0] + [x] == [x];
    assert ApplyTop(fl, s) == Ok(Stacks([], [x]));
  }

  /** The eager step itself: the pair on the stack is reduced, then `op2` pushed. */
  lemma EagerStep(fl: FloatOps, store: seq<Variable>, s3: Stacks, op2: string)
    requires !FloatSyntax(op2) && Contains(Operators, op2)
    requires |s3.ops| == 1 && |s3.vals| == 2 && Eager(op2, s3.ops[0])
    ensures Step(fl, store, s3, op2) == Ok(Stacks([op2], [Apply(fl, s3.ops[0], s3.vals[0], s3.vals[1]).val]))
  {
    var op1, x, y := s3.ops[0], s3.vals[0], s3.vals[1];
    var xy := Apply(fl, op1, x, y).val;
    assert Apply(fl, op1, x, y) == Ok(xy);
    assert s3.ops[..0] == [] && s3.vals[..0] + [xy] == [xy];
    assert ApplyTop(fl, s3) == Ok(Stacks([], [xy]));
    assert ReduceBefore(fl, Stacks([], [xy]), op2) == Ok(Stacks([], [xy]));
    assert ReduceBefore(fl, s3, op2) == Ok(Stacks([], [xy]));
    assert ParseF32(fl, op2) == None;
    assert Stacks([], [xy]).(ops := [] + [op2]) == Stacks([op2], [xy]);
  }

  /** The other case: `op2` is pushed over the pair and applied first. */
  lemma GroupRight(fl: FloatOps, store: seq<Variable>, s3: Stacks, op2: string, c: string)
    requires FloatSyntax(c) && !FloatSyntax(op2) && Contains(Operators, op2)
    requires |s3.ops| == 1 && |s3.vals| == 2 && !Eager(op2, s3.ops[0])
    requires s3.ops[0] in {"+", "-", "*", "/", "^", "%"} && op2 in {"+", "-", "*", "/", "^", "%"}
    ensures var yz := Apply(fl, op2, s3.vals[1], fl.value(c)).val;
      Continue(fl, store, s3, [op2, c]) == Ok(Apply(fl, s3.ops[0], s3.vals[0], yz).val)
  {
    var op1, x, y, z := s3.ops[0], s3.vals[0], s3.vals[1], fl.value(c);
    var s4 := Stacks([op1, op2], [x, y]);
    assert ReduceBefore(fl, s3, op2) == Ok(s3);
    assert s3.(ops := s3.ops + [op2]) == s4;
    assert Step(fl, store, s3, op2) == Ok(s4);
    LastOperand(fl, store, s3, op2, c, s4);
    var s5 := Stacks([op1, op2], [x, y, z]);
    assert s4.(vals := s4.vals + [z]) == s5;
    DrainTwo(fl, op1, op2, x, y, z);
  }

  /** Two operators over three values are applied from the top. */
  lemma DrainTwo(fl: FloatOps, op1: string, op2: string, x: real, y: real, z: real)
    requires op1 in {"+", "-", "*", "/", "^", "%"} && op2 in {"+", "-", "*", "/", "^", "%"}
    ensures Drain(fl, Stacks([op1, op2], [x, y, z])) == Ok(Apply(fl, op1, x, Apply(fl, op2, y, z).val).val)
  {
    var yz := Apply(fl, op2, y, z).val;
    var s5 := Stacks([op1, op2], [x, y, z]);
    assert s5.ops[..1] == [op1] && s5.vals[..1] == [x];
    assert s5.vals[1] == y && s5.vals[2] == z && s5.ops[1] == op2;
    assert s5.vals[..1] + [yz] == [x, yz];
    assert ApplyTop(fl, s5) == Ok(Stacks([op1], [x, yz]));
    var r := Apply(fl, op1, x, yz).val;
    var s6 := Stacks([op1], [x, yz]);
    assert Apply(fl, op1, s6.vals[0], s6.vals[1]) == Ok(r);
    assert s6.ops[..0] == [] && s6.vals[..0] + [r] == [r];
    assert ApplyTop(fl, s6) == Ok(Stacks([], [r]));
    assert Drain(fl, s6) == Ok(r);
  }

  /** Subtraction chains group from the right: `3 - 2 - 1` is `3 - (2 - 1)`. */
  lemma SubtractionGroupsRight(fl: FloatOps, store: seq<Variable>)
    requires forall a: real, b: real :: fl.sub(a, b) == a - b
    requires fl.value("3") == 3.0 && fl.value("2") == 2.0 && fl.value("1") == 1.0
    ensures ShuntingYard(fl, store, ["3", "-", "2", "-", "1"]) == Ok(2.0)
  {
    DigitsAreNumber("3");
    DigitsAreNumber("2");
    DigitsAreNumber("1");
    ThreeOperands(fl, store, "3", "-", "2", "-", "1");
  }

  /** An operator with one operand below it panics on the missing value. */
  lemma MissingOperandPanics(fl: FloatOps, store: seq<Variable>, a: string, op: string)
    requires FloatSyntax(a)
    requires op in {"+", "-", "*", "/", "^", "%"}
    ensures ShuntingYard(fl, store, [a, op]) == Panic
  {
    var s2 := Stacks([op], [fl.value(a)]);
    assert [a, op] == [a] + ([op] + []);
    FeedNumber(fl, store, Stacks([], []), a, [op] + []);
    assert [] + [fl.value(a)] == [fl.value(a)];
    FeedFirstOperator(fl, store, Stacks([], [fl.value(a)]), op, []);
    assert Feed(fl, store, s2, []) == Ok(s2);
    assert ApplyTop(fl, s2) == Panic;
  }

  /** Operator tokens are recognised by containment in `Operators`, so a token such as
      "+-" is pushed as an operator and rejected only when it is applied. */
  lemma CompoundOperatorRejectedWhenApplied(fl: FloatOps, store: seq<Variable>, a: string, b: string)
    requires FloatSyntax(a) && FloatSyntax(b)
    ensures ShuntingYard(fl, store, [a, "+-", b]) == Err("invalid operator: +-")
  {
    var x, y := fl.value(a), fl.value(b);
    CompoundOperatorIsOperator();
    var s1 := Stacks([], [x]);
    var s3 := Stacks(["+-"], [x, y]);
    assert [a, "+-", b] == [a] + ["+-", b];
    FeedNumber(fl, store, Stacks([], []), a, ["+-", b]);
    assert [] + [x] == [x];
    OperatorPushedUnlessEager(fl, store, s1, "+-");
    assert [] + ["+-"] == ["+-"];
    LastOperand(fl, store, s1, "+-", b, Stacks(["+-"], [x]));
    assert [x] + [y] == [x, y];
    assert Apply(fl, "+-", x, y) == Err("invalid operator: +-");
    assert ApplyTop(fl, s3) == Err("invalid operator: +-");
  }

  /** "+-" is no `f32` literal and occurs in `Operators`. */
  lemma CompoundOperatorIsOperator()
    ensures !FloatSyntax("+-") && Contains(Operators, "+-")
  {
    assert !FloatSyntax("+-") by {
      var body := "-";
      assert ExponentMark(body) == 1 && body[..1] == "-";
      assert RSplitOnce("-", '.') == None;
      assert LowerAscii(body) == "-";
    }
    assert Operators[..2] == "+-";
  }

  /** A variable operand contributes its payload's value only when it is an `int` or a
      `float`; an unbound name that is no number, operator or parenthesis is an invalid
      token. */
  lemma NamedOperand(fl: FloatOps, store: seq<Variable>, st: Stacks, t: string)
    requires !FloatSyntax(t) && !Contains(Operators, t) && t != "(" && t != ")"
    ensures match Lookup(store, t)
      case None => Step(fl, store, st, t) == Err("invalid token: " + t)
      case Some(v) =>
        if v.kind != Int && v.kind != Float then
          Step(fl, store, st, t) == Err("variable '" + t + "' must be either an int or a float")
        else if FloatSyntax(v.payload) then
          Step(fl, store, st, t) == Ok(Stacks(st.ops, st.vals + [fl.value(v.payload)]))
        else Step(fl, store, st, t) == Err("variable '" + t + "' can not be parsed into a float")
  {
  }

  lemma FirstOperandPair(fl: FloatOps, store: seq<Variable>, a: string, op1: string, b: string, rest: seq<string>)
    requires FloatSyntax(a) && FloatSyntax(b)
    requires op1 in {"+", "-", "*", "/", "^", "%"}
    ensures Feed(fl, store, Stacks([], []), [a, op1, b] + rest)
         == Feed(fl, store, Stacks([op1], [fl.value(a), fl.value(b)]), rest)
  {
    var x, y := fl.value(a), fl.value(b);
    assert [a, op1, b] + rest == [a] + ([op1] + ([b] + rest));
    FeedNumber(fl, store, Stacks([], []), a, [op1] + ([b] + rest));
    assert [] + [x] == [x];
    FeedFirstOperator(fl, store, Stacks([], [x]), op1, [b] + rest);
    FeedNumber(fl, store, Stacks([op1], [x]), b, rest);
    assert [x] + [y] == [x, y];
  }

  /** A number token is pushed onto the value stack. */
  lemma FeedNumber(fl: FloatOps, store: seq<Variable>, st: Stacks, a: string, rest: seq<string>)
    requires FloatSyntax(a)
    ensures Feed(fl, store, st, [a] + rest) == Feed(fl, store, Stacks(st.ops, st.vals + [fl.value(a)]), rest)
  {
    assert Step(fl, store, st, a) == Ok(Stacks(st.ops, st.vals + [fl.value(a)]));
    assert ([a] + rest)[0] == a && ([a] + rest)[1..] == rest;
  }

  /** An operator on an empty operator stack is pushed without reducing. */
  lemma FeedFirstOperator(fl: FloatOps, store: seq<Variable>, st: Stacks, op: string, rest: seq<string>)
    requires st.ops == [] && op in {"+", "-", "*", "/", "^", "%"}
    ensures Feed(fl, store, st, [op] + rest) == Feed(fl, store, Stacks([op], st.vals), rest)
  {
    OperatorsAreNotNumbers(op);
    OperatorsAreOperators(op);
    assert ReduceBefore(fl, st, op) == Ok(st);
    assert st.ops + [op] == [op];
    assert Step(fl, store, st, op) == Ok(Stacks([op], st.vals));
    assert ([op] + rest)[0] == op && ([op] + rest)[1..] == rest;
  }

  lemma LastOperand(fl: FloatOps, store: seq<Variable>, st: Stacks, op: string, c: string, next: Stacks)
    requires FloatSyntax(c)
    requires Step(fl, store, st, op) == Ok(next)
    ensures Feed(fl, store, st, [op, c]) == Ok(next.(vals := next.vals + [fl.value(c)]))
  {
    var last := next.(vals := next.vals + [fl.value(c)]);
    assert Step(fl, store, next, c) == Ok(last);
    assert [c][1..] == [];
    assert Feed(fl, store, next, [c]) == Ok(last);
    assert [op, c][1..] == [c];
  }

  lemma OperatorsAreNotNumbers(op: string)
    requires op in {"+", "-", "*", "/", "^", "%"}
    ensures !FloatSyntax(op)
  {
    assert op == [op[0]];
    SymbolIsNotNumber(op[0]);
  }

  lemma OperatorsAreOperators(op: string)
    requires op in {"+", "-", "*", "/", "^", "%"}
    ensures Contains(Operators, op)
  {
    if op == "+" {
      assert StartsWith(Operators, op);
    } else {
      assert Operators[1..] == "-*/^%";
      if op == "-" {
        assert StartsWith(Operators[1..], op);
      } else {
        assert Operators[2..] == "*/^%";
        if op == "*" {
          assert StartsWith(Operators[2..], op);
        } else {
          assert Operators[3..] == "/^%";
          if op == "/" {
            assert StartsWith(Operators[3..], op);
          } else {
            assert Operators[4..] == "^%";
            if op == "^" {
              assert StartsWith(Operators[4..], op);
            } else {
              assert Operators[5..] == "%";
              assert StartsWith(Operators[5..], op);
            }
          }
        }
      }
    }
  }

  // ---------------------------------------------------------------------------
  // A worked example

  /** `x + 1 + 2 - ( 3 * 4 ) / 5 ^ 6 % 7`, split into tokens. */
  const Example: seq<string> := ["x", "+", "1", "+", "2", "-", "(", "3", "*", "4", ")", "/", "5", "^", "6", "%", "7"]

  /** `fl` computes with exact reals, and `%` of a smaller non-negative operand is that
      operand, as `f32`'s remainder is. */
  ghost predicate RealArithmetic(fl: FloatOps) {
    && (forall a: real, b: real :: fl.add(a, b) == a + b)
    && (forall a: real, b: real :: fl.sub(a, b) == a - b)
    && (forall a: real, b: real :: fl.mul(a, b) == a * b)
    && (forall a: real, b: real :: b != 0.0 ==> fl.div(a, b) == a / b)
    && (forall a: real, b: real :: 0.0 <= a < b ==> fl.rem(a, b) == a)
  }

  /** The digits denote their values. */
  predicate DigitValues(fl: FloatOps) {
    && fl.value("1") == 1.0 && fl.value("2") == 2.0 && fl.value("3") == 3.0
    && fl.value("4") == 4.0 && fl.value("5") == 5.0 && fl.value("6") == 6.0
    && fl.value("7") == 7.0 && fl.value("256") == 256.0
  }

  /** With `x` bound to the `int` 256, the example is 258.92: the parenthesis gives 12,
      the operators after it are applied from the top of the stack at the end, so the
      value is `256 + (1 + (2 - 12 / ((5 * 5) * (6 % 7))))`. */
  lemma WorkedExample(fl: FloatOps)
    requires RealArithmetic(fl) && DigitValues(fl)
    ensures ShuntingYard(fl, [Variable(Int, "x", "256")], Example) == Ok(258.92)
  {
    var store := [Variable(Int, "x", "256")];
    var e := Example;
    assert e[0] == "x" && e[1] == "+" && e[2] == "1" && e[3] == "+" && e[4] == "2" && e[5] == "-";
    assert e[6] == "(" && e[7] == "3" && e[8] == "*" && e[9] == "4" && e[10] == ")" && e[11] == "/";
    assert e[12] == "5" && e[13] == "^" && e[14] == "6" && e[15] == "%" && e[16] == "7";
    calc {
      Feed(fl, store, Stacks([], []), e);
    == { ExampleName(fl, store, e); }
      Feed(fl, store, Stacks([], [256.0]), e[1..]);
    == { ExampleFirstSum(fl, store, e); }
      Feed(fl, store, Stacks(["+", "+"], [256.0, 1.0]), e[4..]);
    == { ExampleMinus(fl, store, e); }
      Feed(fl, store, Stacks(["+", "+", "-", "("], [256.0, 1.0, 2.0]), e[7..]);
    == { ExampleParenthesis(fl, store, e); }
      Feed(fl, store, Stacks(["+", "+", "-"], [256.0, 1.0, 2.0, 12.0]), e[11..]);
    == { ExampleClosing(fl, store, e); }
      Feed(fl, store, Stacks(["+", "+", "-", "/", "^"], [256.0, 1.0, 2.0, 12.0, 5.0]), e[14..]);
    == { ExampleLastOperands(fl, store, e); }
      Ok(Stacks(["+", "+", "-", "/", "^", "%"], [256.0, 1.0, 2.0, 12.0, 5.0, 6.0, 7.0]));
    }
    ExampleDrained(fl);
  }

  /** Feeding the token at `i` is one step. */
  lemma FeedAt(fl: FloatOps, store: seq<Variable>, st: Stacks, tokens: seq<string>, i: nat, next: Stacks)
    requires i < |tokens| && Step(fl, store, st, tokens[i]) == Ok(next)
    ensures Feed(fl, store, st, tokens[i..]) == Feed(fl, store, next, tokens[i + 1..])
  {
    assert tokens[i..][0] == tokens[i] && tokens[i..][1..] == tokens[i + 1..];
  }

  /** A token of digits at `i` is pushed onto the value stack. */
  lemma FeedNumberAt(fl: FloatOps, store: seq<Variable>, st: Stacks, tokens: seq<string>, i: nat, x: real)
    requires i < |tokens| && |tokens[i]| > 0 && AllDigits(tokens[i]) && fl.value(tokens[i]) == x
    ensures Feed(fl, store, st, tokens[i..]) == Feed(fl, store, Stacks(st.ops, st.vals + [x]), tokens[i + 1..])
  {
    DigitsAreNumber(tokens[i]);
    FeedAt(fl, store, st, tokens, i, Stacks(st.ops, st.vals + [x]));
  }

  /** An operator at `i` that does not force a reduction is pushed. */
  lemma FeedPushAt(fl: FloatOps, store: seq<Variable>, st: Stacks, tokens: seq<string>, i: nat, op: string)
    requires i < |tokens| && tokens[i] == op && op in {"+", "-", "*", "/", "^", "%"}
    requires |st.ops| == 0 || !Eager(op, st.ops[|st.ops| - 1])
    ensures Feed(fl, store, st, tokens[i..]) == Feed(fl, store, Stacks(st.ops + [op], st.vals), tokens[i + 1..])
  {
    OperatorsAreNotNumbers(tokens[i]);
    OperatorsAreOperators(tokens[i]);
    OperatorPushedUnlessEager(fl, store, st, tokens[i]);
    FeedAt(fl, store, st, tokens, i, Stacks(st.ops + [tokens[i]], st.vals));
  }

  /** Digits at `i` followed by an operator that does not force a reduction: both are
      pushed. */
  lemma FeedNumberPushAt(fl: FloatOps, store: seq<Variable>, st: Stacks, tokens: seq<string>, i: nat, x: real, op: string)
    requires i + 1 < |tokens| && |tokens[i]| > 0 && AllDigits(tokens[i]) && fl.value(tokens[i]) == x
    requires tokens[i + 1] == op && op in {"+", "-", "*", "/", "^", "%"}
    requires |st.ops| == 0 || !Eager(op, st.ops[|st.ops| - 1])
    ensures Feed(fl, store, st, tokens[i..]) == Feed(fl, store, Stacks(st.ops + [op], st.vals + [x]), tokens[i + 2..])
  {
    FeedNumberAt(fl, store, st, tokens, i, x);
    FeedPushAt(fl, store, Stacks(st.ops, st.vals + [x]), tokens, i + 1, op);
  }

  /** A parenthesis at `i`: `(` is pushed, `)` reduces back to the matching `(`. */
  lemma FeedParenthesisAt(fl: FloatOps, store: seq<Variable>, st: Stacks, tokens: seq<string>, i: nat)
    requires i < |tokens| && (tokens[i] == "(" || tokens[i] == ")")
    ensures tokens[i] == "(" ==>
      Feed(fl, store, st, tokens[i..]) == Feed(fl, store, Stacks(st.ops + ["("], st.vals), tokens[i + 1..])
    ensures tokens[i] == ")" && CloseParen(fl, st).Ok? ==>
      Feed(fl, store, st, tokens[i..]) == Feed(fl, store, CloseParen(fl, st).val, tokens[i + 1..])
  {
    var t := tokens[i];
    SymbolIsNotNumber(t[0]);
    assert t == [t[0]];
    ContainsChar(Operators, t[0]);
    assert tokens[i..][0] == t && tokens[i..][1..] == tokens[i + 1..];
  }

  /** `x`: bound to the `int` 256, whose payload reads as 256. */
  lemma ExampleName(fl: FloatOps, store: seq<Variable>, e: seq<string>)
    requires DigitValues(fl) && store == [Variable(Int, "x", "256")]
    requires |e| == 17 && e[0] == "x"
    ensures Feed(fl, store, Stacks([], []), e) == Feed(fl, store, Stacks([], [256.0]), e[1..])
  {
    XIsName();
    assert FloatSyntax("256") by {
      assert AllDigits("256");
      DigitsAreNumber("256");
    }
    assert Lookup(store, "x") == Some(store[0]);
    IntOperand(fl, store, Stacks([], []), "x", store[0]);
    assert [] + [fl.value("256")] == [256.0];
    assert e[0..] == e;
    FeedAt(fl, store, Stacks([], []), e, 0, Stacks([], [256.0]));
  }

  lemma XIsName()
    ensures !FloatSyntax("x") && !Contains(Operators, "x")
  {
    SymbolIsNotNumber('x');
    ContainsChar(Operators, 'x');
    assert "x" == ['x'];
  }

  /** A name bound to an `int` with a numeric payload pushes that payload's value. */
  lemma IntOperand(fl: FloatOps, store: seq<Variable>, st: Stacks, t: string, v: Variable)
    requires !FloatSyntax(t) && !Contains(Operators, t) && t != "(" && t != ")"
    requires Lookup(store, t) == Some(v) && v.kind == Int && FloatSyntax(v.payload)
    ensures Step(fl, store, st, t) == Ok(Stacks(st.ops, st.vals + [fl.value(v.payload)]))
  {
    NamedOperand(fl, store, st, t);
  }

  /** `+ 1 +`: two additions pushed. */
  lemma ExampleFirstSum(fl: FloatOps, store: seq<Variable>, e: seq<string>)
    requires DigitValues(fl)
    requires |e| == 17 && e[1] == "+" && e[2] == "1" && e[3] == "+"
    ensures Feed(fl, store, Stacks([], [256.0]), e[1..])
         == Feed(fl, store, Stacks(["+", "+"], [256.0, 1.0]), e[4..])
  {
    assert [] + ["+"] == ["+"];
    FeedPushAt(fl, store, Stacks([], [256.0]), e, 1, "+");
    assert [256.0] + [1.0] == [256.0, 1.0] && ["+"] + ["+"] == ["+", "+"];
    FeedNumberPushAt(fl, store, Stacks(["+"], [256.0]), e, 2, 1.0, "+");
  }

  /** `2 - (`: a subtraction and a parenthesis pushed. */
  lemma ExampleMinus(fl: FloatOps, store: seq<Variable>, e: seq<string>)
    requires DigitValues(fl)
    requires |e| == 17 && e[4] == "2" && e[5] == "-" && e[6] == "("
    ensures Feed(fl, store, Stacks(["+", "+"], [256.0, 1.0]), e[4..])
         == Feed(fl, store, Stacks(["+", "+", "-", "("], [256.0, 1.0, 2.0]), e[7..])
  {
    assert [256.0, 1.0] + [2.0] == [256.0, 1.0, 2.0] && ["+", "+"] + ["-"] == ["+", "+", "-"];
    FeedNumberPushAt(fl, store, Stacks(["+", "+"], [256.0, 1.0]), e, 4, 2.0, "-");
    assert ["+", "+", "-"] + ["("] == ["+", "+", "-", "("];
    FeedParenthesisAt(fl, store, Stacks(["+", "+", "-"], [256.0, 1.0, 2.0]), e, 6);
  }

  /** `3 * 4 )`: the product replaces the parenthesis. */
  lemma ExampleParenthesis(fl: FloatOps, store: seq<Variable>, e: seq<string>)
    requires RealArithmetic(fl) && DigitValues(fl)
    requires |e| == 17 && e[7] == "3" && e[8] == "*" && e[9] == "4" && e[10] == ")"
    ensures Feed(fl, store, Stacks(["+", "+", "-", "("], [256.0, 1.0, 2.0]), e[7..])
         == Feed(fl, store, Stacks(["+", "+", "-"], [256.0, 1.0, 2.0, 12.0]), e[11..])
  {
    calc {
      Feed(fl, store, Stacks(["+", "+", "-", "("], [256.0, 1.0, 2.0]), e[7..]);
    == { assert [256.0, 1.0, 2.0] + [3.0] == [256.0, 1.0, 2.0, 3.0];
         assert ["+", "+", "-", "("] + ["*"] == ["+", "+", "-", "(", "*"];
         FeedNumberPushAt(fl, store, Stacks(["+", "+", "-", "("], [256.0, 1.0, 2.0]), e, 7, 3.0, "*"); }
      Feed(fl, store, Stacks(["+", "+", "-", "(", "*"], [256.0, 1.0, 2.0, 3.0]), e[9..]);
    == { assert [256.0, 1.0, 2.0, 3.0] + [4.0] == [256.0, 1.0, 2.0, 3.0, 4.0];
         FeedNumberAt(fl, store, Stacks(["+", "+", "-", "(", "*"], [256.0, 1.0, 2.0, 3.0]), e, 9, 4.0); }
      Feed(fl, store, Stacks(["+", "+", "-", "(", "*"], [256.0, 1.0, 2.0, 3.0, 4.0]), e[10..]);
    == { ProductInParentheses(fl);
         FeedParenthesisAt(fl, store, Stacks(["+", "+", "-", "(", "*"], [256.0, 1.0, 2.0, 3.0, 4.0]), e, 10); }
      Feed(fl, store, Stacks(["+", "+", "-"], [256.0, 1.0, 2.0, 12.0]), e[11..]);
    }
  }

  lemma ProductInParentheses(fl: FloatOps)
    requires RealArithmetic(fl)
    ensures CloseParen(fl, Stacks(["+", "+", "-", "(", "*"], [256.0, 1.0, 2.0, 3.0, 4.0]))
         == Ok(Stacks(["+", "+", "-"], [256.0, 1.0, 2.0, 12.0]))
  {
    var s10 := Stacks(["+", "+", "-", "(", "*"], [256.0, 1.0, 2.0, 3.0, 4.0]);
    var inner := Stacks(["+", "+", "-", "("], [256.0, 1.0, 2.0, 12.0]);
    assert fl.mul(3.0, 4.0) == 12.0;
    assert s10.ops[..4] == inner.ops && s10.vals[..3] + [12.0] == inner.vals;
    assert ApplyTop(fl, s10) == Ok(inner);
    assert inner.ops[..3] == ["+", "+", "-"];
  }

  /** `/ 5 ^`: a division and a power pushed. */
  lemma ExampleClosing(fl: FloatOps, store: seq<Variable>, e: seq<string>)
    requires DigitValues(fl)
    requires |e| == 17 && e[11] == "/" && e[12] == "5" && e[13] == "^"
    ensures Feed(fl, store, Stacks(["+", "+", "-"], [256.0, 1.0, 2.0, 12.0]), e[11..])
         == Feed(fl, store, Stacks(["+", "+", "-", "/", "^"], [256.0, 1.0, 2.0, 12.0, 5.0]), e[14..])
  {
    assert ["+", "+", "-"] + ["/"] == ["+", "+", "-", "/"];
    FeedPushAt(fl, store, Stacks(["+", "+", "-"], [256.0, 1.0, 2.0, 12.0]), e, 11, "/");
    assert [256.0, 1.0, 2.0, 12.0] + [5.0] == [256.0, 1.0, 2.0, 12.0, 5.0];
    assert ["+", "+", "-", "/"] + ["^"] == ["+", "+", "-", "/", "^"];
    FeedNumberPushAt(fl, store, Stacks(["+", "+", "-", "/"], [256.0, 1.0, 2.0, 12.0]), e, 12, 5.0, "^");
  }

  /** `6 % 7`: the last operands and the remainder pushed; the tokens run out. */
  lemma ExampleLastOperands(fl: FloatOps, store: seq<Variable>, e: seq<string>)
    requires DigitValues(fl)
    requires |e| == 17 && e[14] == "6" && e[15] == "%" && e[16] == "7"
    ensures Feed(fl, store, Stacks(["+", "+", "-", "/", "^"], [256.0, 1.0, 2.0, 12.0, 5.0]), e[14..])
         == Ok(Stacks(["+", "+", "-", "/", "^", "%"], [256.0, 1.0, 2.0, 12.0, 5.0, 6.0, 7.0]))
  {
    assert [256.0, 1.0, 2.0, 12.0, 5.0] + [6.0] == [256.0, 1.0, 2.0, 12.0, 5.0, 6.0];
    assert ["+", "+", "-", "/", "^"] + ["%"] == ["+", "+", "-", "/", "^", "%"];
    FeedNumberPushAt(fl, store, Stacks(["+", "+", "-", "/", "^"], [256.0, 1.0, 2.0, 12.0, 5.0]), e, 14, 6.0, "%");
    assert [256.0, 1.0, 2.0, 12.0, 5.0, 6.0] + [7.0] == [256.0, 1.0, 2.0, 12.0, 5.0, 6.0, 7.0];
    FeedNumberAt(fl, store, Stacks(["+", "+", "-", "/", "^", "%"], [256.0, 1.0, 2.0, 12.0, 5.0, 6.0]), e, 16, 7.0);
    assert e[17..] == [];
  }

  /** The six operators left on the stack, applied from the top. */
  lemma ExampleDrained(fl: FloatOps)
    requires RealArithmetic(fl)
    ensures Drain(fl, Stacks(["+", "+", "-", "/", "^", "%"], [256.0, 1.0, 2.0, 12.0, 5.0, 6.0, 7.0])) == Ok(258.92)
  {
    DrainedHigh(fl);
    DrainedDivision(fl);
    DrainedLow(fl);
  }

  /** `%` and `^`: 6 % 7 is 6, then (5 * 5) * 6 is 150. */
  lemma DrainedHigh(fl: FloatOps)
    requires RealArithmetic(fl)
    ensures Drain(fl, Stacks(["+", "+", "-", "/", "^", "%"], [256.0, 1.0, 2.0, 12.0, 5.0, 6.0, 7.0]))
         == Drain(fl, Stacks(["+", "+", "-", "/"], [256.0, 1.0, 2.0, 12.0, 150.0]))
  {
    assert fl.rem(6.0, 7.0) == 6.0;
    assert ["+", "+", "-", "/", "^", "%"] == ["+", "+", "-", "/", "^"] + ["%"];
    assert [256.0, 1.0, 2.0, 12.0, 5.0, 6.0, 7.0] == [256.0, 1.0, 2.0, 12.0, 5.0] + [6.0, 7.0];
    DrainTop(fl, ["+", "+", "-", "/", "^"], "%", [256.0, 1.0, 2.0, 12.0, 5.0], 6.0, 7.0, 6.0);
    assert fl.mul(fl.mul(5.0, 5.0), 6.0) == 150.0;
    assert ["+", "+", "-", "/", "^"] == ["+", "+", "-", "/"] + ["^"];
    assert [256.0, 1.0, 2.0, 12.0, 5.0] + [6.0] == [256.0, 1.0, 2.0, 12.0] + [5.0, 6.0];
    DrainTop(fl, ["+", "+", "-", "/"], "^", [256.0, 1.0, 2.0, 12.0], 5.0, 6.0, 150.0);
    assert [256.0, 1.0, 2.0, 12.0] + [150.0] == [256.0, 1.0, 2.0, 12.0, 150.0];
  }

  /** `/`: 12 / 150 is 0.08. */
  lemma DrainedDivision(fl: FloatOps)
    requires RealArithmetic(fl)
    ensures Drain(fl, Stacks(["+", "+", "-", "/"], [256.0, 1.0, 2.0, 12.0, 150.0]))
         == Drain(fl, Stacks(["+", "+", "-"], [256.0, 1.0, 2.0, 0.08]))
  {
    assert fl.div(12.0, 150.0) == 0.08;
    assert ["+", "+", "-", "/"] == ["+", "+", "-"] + ["/"];
    assert [256.0, 1.0, 2.0, 12.0, 150.0] == [256.0, 1.0, 2.0] + [12.0, 150.0];
    DrainTop(fl, ["+", "+", "-"], "/", [256.0, 1.0, 2.0], 12.0, 150.0, 0.08);
    assert [256.0, 1.0, 2.0] + [0.08] == [256.0, 1.0, 2.0, 0.08];
  }

  /** `-`, `+` and `+`: 2 - 0.08, then 1 + 1.92, then 256 + 2.92. */
  lemma DrainedLow(fl: FloatOps)
    requires RealArithmetic(fl)
    ensures Drain(fl, Stacks(["+", "+", "-"], [256.0, 1.0, 2.0, 0.08])) == Ok(258.92)
  {
    assert fl.sub(2.0, 0.08) == 1.92;
    assert ["+", "+", "-"] == ["+", "+"] + ["-"];
    assert [256.0, 1.0, 2.0, 0.08] == [256.0, 1.0] + [2.0, 0.08];
    DrainTop(fl, ["+", "+"], "-", [256.0, 1.0], 2.0, 0.08, 1.92);
    assert fl.add(1.0, 1.92) == 2.92;
    assert ["+", "+"] == ["+"] + ["+"];
    assert [256.0, 1.0] + [1.92] == [256.0] + [1.0, 1.92];
    DrainTop(fl, ["+"], "+", [256.0], 1.0, 1.92, 2.92);
    assert fl.add(256.0, 2.92) == 258.92;
    assert ["+"] == [] + ["+"];
    assert [256.0] + [2.92] == [] + [256.0, 2.92];
    DrainTop(fl, [], "+", [], 256.0, 2.92, 258.92);
    assert [] + [258.92] == [258.92];
  }

  /** One round of the final loop: the top operator applied to the top two values. */
  lemma DrainTop(fl: FloatOps, ops: seq<string>, op: string, vals: seq<real>, a: real, b: real, x: real)
    requires op != "(" && Apply(fl, op, a, b) == Ok(x)
    ensures Drain(fl, Stacks(ops + [op], vals + [a, b])) == Drain(fl, Stacks(ops, vals + [x]))
  {
    var st := Stacks(ops + [op], vals + [a, b]);
    assert st.ops[|st.ops| - 1] == op && st.ops[..|st.ops| - 1] == ops;
    var n := |st.vals|;
    assert st.vals[n - 2] == a && st.vals[n - 1] == b && st.vals[..n - 2] == vals;
    assert ApplyTop(fl, st) == Ok(Stacks(ops, vals + [x]));
  }
}

=== FILE: builtins.dfy ===
/** The built-in functions `typeof`, `nameof`, `eq`, `ne` and `format`, and the
    placeholder substitution that `format` shares with the `formatln` command. */
module Builtins {
  import opened Text
  import opened Numbers
  import opened Values
  import opened Store
  import opened Evaluator

  /** A call's argument text starts with `(` and ends with `)` (one character will do). */
  predicate Parenthesised(s: string) {
    |s| > 0 && s[0] == '(' && s[|s| - 1] == ')'
  }

  /** The text between the parentheses: `remove(0)` then `pop()`, which leaves nothing
      of a lone `(`. */
  function Inner(s: string): (r: string)
    requires Parenthesised(s)
    ensures |s| >= 2 ==> s == "(" + r + ")"
    ensures |s| < 2 ==> r == []
  {
    if |s| < 2 then [] else s[1..|s| - 1]
  }

  /** The argument of a call written `name (...)`: the tokens after the name joined with
      single spaces, unwrapped when parenthesised. */
  function CallArgument(tokens: seq<string>): (r: Option<string>)
    ensures r.Some? <==> Parenthesised(Join(tokens, " "))
  {
    var text := Join(tokens, " ");
    if Parenthesised(text) then Some(Inner(text)) else None
  }

  /** A value returned by a built-in function. */
  function Returned(kind: DataType, payload: string): Variable {
    Variable(kind, Values.Returned, payload)
  }

  // ---------------------------------------------------------------------------
  // typeof and nameof

  /** What `typeof` and `nameof` share: the single evaluated argument. */
  function SingleArgument(fl: FloatOps, tokens: seq<string>, store: seq<Variable>): (r: Outcome<Variable>)
    ensures r.Ok? ==> tokens != [] && CallArgument(tokens).Some?
                        && ExtractData(fl, CallArgument(tokens).val, store) == Ok(Some(r.val))
    ensures tokens == [] ==> r == Err("function requires one argument")
    ensures tokens != [] && CallArgument(tokens).None? ==> r == Err("function call does not contain two parantheses")
    ensures tokens != [] && CallArgument(tokens).Some? ==>
      var x := ExtractData(fl, CallArgument(tokens).val, store);
      && (x == Ok(None) ==> r == Err("function requires one argument"))
      && (x.Err? ==> r == Err(x.msg))
      && (x.Panic? ==> r.Panic?)
  {
    if tokens == [] then Err("function requires one argument")
    else match CallArgument(tokens)
      case None => Err("function call does not contain two parantheses")
      case Some(text) =>
        match ExtractData(fl, text, store)
        case Ok(Some(v)) => Ok(v)
        case Ok(None) => Err("function requires one argument")
        case Err(e) => Err(e)
        case Panic => Panic
  }

  /** `silm_typeof`: the name of the argument's kind, as a `str`. */
  function TypeOf(fl: FloatOps, tokens: seq<string>, store: seq<Variable>): (r: Outcome<Variable>)
    ensures r.Ok? ==> r.val.kind == Str && r.val.identifier == Values.Returned
    ensures r.Ok? <==> SingleArgument(fl, tokens, store).Ok?
    ensures r.Ok? ==> r.val.payload == KindName(SingleArgument(fl, tokens, store).val.kind)
    ensures !r.Ok? ==> r == SingleArgument(fl, tokens, store)
  {
    match SingleArgument(fl, tokens, store)
    case Ok(v) => Ok(Returned(Str, KindName(v.kind)))
    case Err(e) => Err(e)
    case Panic => Panic
  }

  /** `silm_nameof`: the identifier the argument carries, as a `str`. */
  function NameOf(fl: FloatOps, tokens: seq<string>, store: seq<Variable>): (r: Outcome<Variable>)
    ensures r.Ok? ==> r.val.kind == Str && r.val.identifier == Values.Returned
    ensures r.Ok? <==> SingleArgument(fl, tokens, store).Ok?
    ensures r.Ok? ==> r.val.payload == SingleArgument(fl, tokens, store).val.identifier
    ensures !r.Ok? ==> r == SingleArgument(fl, tokens, store)
  {
    match SingleArgument(fl, tokens, store)
    case Ok(v) => Ok(Returned(Str, v.identifier))
    case Err(e) => Err(e)
    case Panic => Panic
  }

  // ---------------------------------------------------------------------------
  // eq and ne

  /** The text of two arguments, split at the last comma, evaluated left then right and
      compared by kind and payload. */
  function CompareArguments(fl: FloatOps, args: string, store: seq<Variable>): (r: Outcome<bool>)
    ensures r.Err? && r.msg == "function requires two arguments" <== ',' !in args
    ensures ',' in args ==>
      var x := ExtractData(fl, RSplitOnce(args, ',').val.0, store);
      var y := ExtractData(fl, RSplitOnce(args, ',').val.1, store);
      && (r.Ok? <==> x.Ok? && x.val.Some? && y.Ok? && y.val.Some?)
      && (r.Ok? ==> (r.val <==> x.val.val.kind == y.val.val.kind && x.val.val.payload == y.val.val.payload))
      && (x == Ok(None) ==> r == Err("first argument not given"))
      && (x.Ok? && x.val.Some? && y == Ok(None) ==> r == Err("second argument not given"))
  {
    match RSplitOnce(args, ',')
    case None => Err("function requires two arguments")
    case Some((first, second)) =>
      match ExtractData(fl, first, store)
      case Err(e) => Err(e)
      case Panic => Panic
      case Ok(None) => Err("first argument not given")
      case Ok(Some(x)) =>
        match ExtractData(fl, second, store)
        case Err(e) => Err(e)
        case Panic => Panic
        case Ok(None) => Err("second argument not given")
        case Ok(Some(y)) => Ok(x.kind == y.kind && x.payload == y.payload)
  }

  /** What `eq` and `ne` share: the checks on the call, then the comparison. */
  function Compare(fl: FloatOps, tokens: seq<string>, store: seq<Variable>): (r: Outcome<bool>)
    ensures r.Ok? ==> |tokens| >= 2 && CallArgument(tokens).Some?
                      && r == CompareArguments(fl, CallArgument(tokens).val, store)
    ensures |tokens| < 2 ==> r == Err("function requires at least two tokens")
    ensures |tokens| >= 2 && CallArgument(tokens).None? ==> r == Err("function call does not contain two parantheses")
    ensures |tokens| >= 2 && CallArgument(tokens).Some? ==> r == CompareArguments(fl, CallArgument(tokens).val, store)
  {
    if |tokens| < 2 then Err("function requires at least two tokens")
    else match CallArgument(tokens)
      case None => Err("function call does not contain two parantheses")
      case Some(args) => CompareArguments(fl, args, store)
  }

  function ShowBool(b: bool): (s: string)
    ensures ParseBool(s) == Some(b)
  {
    if b then "true" else "false"
  }

  /** `silm_eq`: a `bool` that is true exactly when both arguments have the same kind and
      the same payload. */
  function Eq(fl: FloatOps, tokens: seq<string>, store: seq<Variable>): (r: Outcome<Variable>)
    ensures r.Ok? ==> r.val.kind == Bool && r.val.identifier == Values.Returned
    ensures r.Ok? <==> Compare(fl, tokens, store).Ok?
    ensures r.Ok? ==> (r.val.payload == "true" <==> Compare(fl, tokens, store).val)
    ensures Compare(fl, tokens, store).Err? ==> r == Err(Compare(fl, tokens, store).msg)
    ensures Compare(fl, tokens, store).Panic? ==> r.Panic?
  {
    match Compare(fl, tokens, store)
    case Ok(same) => Ok(Returned(Bool, ShowBool(same)))
    case Err(e) => Err(e)
    case Panic => Panic
  }

  /** `silm_ne`: the negation of `eq`. */
  function Ne(fl: FloatOps, tokens: seq<string>, store: seq<Variable>): (r: Outcome<Variable>)
    ensures r.Ok? ==> r.val.kind == Bool && r.val.identifier == Values.Returned
    ensures r.Ok? <==> Compare(fl, tokens, store).Ok?
    ensures r.Ok? ==> (r.val.payload == "true" <==> !Compare(fl, tokens, store).val)
    ensures Compare(fl, tokens, store).Err? ==> r == Err(Compare(fl, tokens, store).msg)
    ensures Compare(fl, tokens, store).Panic? ==> r.Panic?
  {
    match Compare(fl, tokens, store)
    case Ok(same) => Ok(Returned(Bool, ShowBool(!same)))
    case Err(e) => Err(e)
    case Panic => Panic
  }

  /** `ne` answers the opposite of `eq` on every call, and fails exactly when `eq` does,
      with the same message. */
  lemma NeIsNotEq(fl: FloatOps, tokens: seq<string>, store: seq<Variable>)
    ensures Eq(fl, tokens, store).Ok? <==> Ne(fl, tokens, store).Ok?
    ensures Eq(fl, tokens, store).Ok? ==>
      ParseBool(Ne(fl, tokens, store).val.payload).val == !ParseBool(Eq(fl, tokens, store).val.payload).val
    ensures Eq(fl, tokens, store).Err? ==> Ne(fl, tokens, store) == Eq(fl, tokens, store)
    ensures Eq(fl, tokens, store).Panic? <==> Ne(fl, tokens, store).Panic?
  {
  }

  /** Comparison does not depend on the order of the arguments, as long as neither
      contains a comma. */
  lemma CompareSymmetric(fl: FloatOps, a: string, b: string, store: seq<Variable>)
    requires ',' !in a && ',' !in b
    requires ExtractData(fl, a, store).Ok? && ExtractData(fl, a, store).val.Some?
    requires ExtractData(fl, b, store).Ok? && ExtractData(fl, b, store).val.Some?
    ensures CompareArguments(fl, a + "," + b, store).Ok?
    ensures CompareArguments(fl, a + "," + b, store) == CompareArguments(fl, b + "," + a, store)
  {
    var x, y := ExtractData(fl, a, store).val.val, ExtractData(fl, b, store).val.val;
    RSplitOnceAtOnlyComma(a, b);
    assert (a + "," + b)[|a|] == ',';
    assert CompareArguments(fl, a + "," + b, store) == Ok(x.kind == y.kind && x.payload == y.payload);
    RSplitOnceAtOnlyComma(b, a);
    assert (b + "," + a)[|b|] == ',';
    assert CompareArguments(fl, b + "," + a, store) == Ok(y.kind == x.kind && y.payload == x.payload);
  }

  /** Any argument that evaluates to a value is equal to itself. */
  lemma CompareReflexive(fl: FloatOps, a: string, store: seq<Variable>)
    requires ',' !in a
    requires ExtractData(fl, a, store).Ok? && ExtractData(fl, a, store).val.Some?
    ensures CompareArguments(fl, a + "," + a, store) == Ok(true)
  {
    RSplitOnceAtOnlyComma(a, a);
  }

  lemma {:induction false} RSplitOnceAtOnlyComma(a: string, b: string)
    requires ',' !in b
    ensures RSplitOnce(a + "," + b, ',') == Some((a, b))
    decreases |b|
  {
    var s := a + "," + b;
    if b == [] {
      assert s[..|s| - 1] == a;
    } else {
      var shorter := b[..|b| - 1];
      RSplitOnceAtOnlyComma(a, shorter);
      assert s[..|s| - 1] == a + "," + shorter;
      assert s[|s| - 1] == b[|b| - 1];
      assert shorter + [b[|b| - 1]] == b;
    }
  }

  /** The parentheses of a one-token call come off again. */
  lemma InnerOfWrapped(text: string)
    ensures Join(["(" + text + ")"], " ") == "(" + text + ")"
    ensures Parenthesised("(" + text + ")") && Inner("(" + text + ")") == text
  {
    var s := "(" + text + ")";
    assert s[1..|s| - 1] == text;
  }

  /** `typeof('c')` and `typeof('')` are the name of `Char` for every character `c` other than an
      apostrophe. */
  lemma TypeOfCharLiteral(fl: FloatOps, inner: string, store: seq<Variable>)
    requires |inner| <= 1 && inner != "'"
    ensures TypeOf(fl, ["(" + ("'" + inner + "'") + ")"], store) == Ok(Returned(Str, KindName(Char)))
  {
    ShortCharLiteral(fl, inner, store);
    TypeOfWrapped(fl, "'" + inner + "'", store, Literal(Char, inner));
  }

  lemma TypeOfWrapped(fl: FloatOps, d: string, store: seq<Variable>, v: Variable)
    requires ExtractData(fl, d, store) == Ok(Some(v))
    ensures TypeOf(fl, ["(" + d + ")"], store) == Ok(Returned(Str, KindName(v.kind)))
  {
    WrappedArgument(fl, d, store, v);
  }

  /** A parenthesised argument that evaluates to `v` is the single argument `v`. */
  lemma WrappedArgument(fl: FloatOps, d: string, store: seq<Variable>, v: Variable)
    requires ExtractData(fl, d, store) == Ok(Some(v))
    ensures SingleArgument(fl, ["(" + d + ")"], store) == Ok(v)
  {
    InnerOfWrapped(d);
    assert CallArgument(["(" + d + ")"]) == Some(d);
  }

  /** `typeof` and `nameof` of a name with no binding fail with the evaluation error. */
  lemma UnboundArgumentFails(fl: FloatOps, name: string, store: seq<Variable>)
    requires |name| > 0 && NoWhitespace(name) && !IsDigit(name[0])
    requires !Quoted(name, '"') && !Quoted(name, '\'') && name != "true" && name != "false"
    requires !Bound(store, name)
    ensures TypeOf(fl, ["(" + name + ")"], store) == Err("variable '" + name + "' unrecognised")
    ensures NameOf(fl, ["(" + name + ")"], store) == Err("variable '" + name + "' unrecognised")
  {
    InnerOfWrapped(name);
    VariableReference(fl, name, store);
  }

  /** `nameof` of a literal is the marker every literal carries. */
  lemma NameOfLiteral(fl: FloatOps, s: string, store: seq<Variable>)
    requires s == [] || (s[0] != '"' && s[|s| - 1] != '"')
    ensures NameOf(fl, ["(" + "\"" + s + "\"" + ")"], store) == Ok(Returned(Str, Uninitialised))
  {
    var d := "\"" + s + "\"";
    InnerOfWrapped(d);
    assert "(" + "\"" + s + "\"" + ")" == "(" + d + ")";
    assert CallArgument(["(" + d + ")"]) == Some(d);
    StringLiteralRoundTrip(fl, s, store);
    assert SingleArgument(fl, ["(" + d + ")"], store) == Ok(Literal(Str, s));
  }

  /** `nameof` of a bound name is that name. */
  lemma NameOfVariable(fl: FloatOps, name: string, store: seq<Variable>)
    requires |name| > 0 && NoWhitespace(name) && !IsDigit(name[0])
    requires !Quoted(name, '"') && !Quoted(name, '\'') && name != "true" && name != "false"
    requires Bound(store, name)
    ensures NameOf(fl, ["(" + name + ")"], store) == Ok(Returned(Str, name))
  {
    InnerOfWrapped(name);
    VariableReference(fl, name, store);
  }

  /** `eq(a, b)` written as the two tokens `(a,` and `b)`: true exactly when both
      arguments evaluate to the same kind and payload. */
  lemma EqOfTwoTokens(fl: FloatOps, a: string, b: string, store: seq<Variable>)
    requires ',' !in b && b != [] && !IsWhitespace(b[0])
    requires ExtractData(fl, a, store).Ok? && ExtractData(fl, a, store).val.Some?
    requires ExtractData(fl, b, store).Ok? && ExtractData(fl, b, store).val.Some?
    ensures var x, y := ExtractData(fl, a, store).val.val, ExtractData(fl, b, store).val.val;
      Eq(fl, ["(" + a + ",", b + ")"], store) == Ok(Returned(Bool, ShowBool(x.kind == y.kind && x.payload == y.payload)))
  {
    var tokens := ["(" + a + ",", b + ")"];
    var args := a + "," + (" " + b);
    CallOfTwoTokens(a, b);
    assert ',' !in " " + b;
    RSplitOnceAtOnlyComma(a, " " + b);
    SpaceIgnored(fl, b, store);
    var x, y := ExtractData(fl, a, store).val.val, ExtractData(fl, b, store).val.val;
    assert CompareArguments(fl, args, store) == Ok(x.kind == y.kind && x.payload == y.payload);
    assert Compare(fl, tokens, store) == Ok(x.kind == y.kind && x.payload == y.payload);
  }

  /** The tokens `(a,` and `b)` make the argument text `a, b`. */
  lemma CallOfTwoTokens(a: string, b: string)
    ensures CallArgument(["(" + a + ",", b + ")"]) == Some(a + "," + (" " + b))
  {
    var tokens := ["(" + a + ",", b + ")"];
    var joined := "(" + a + "," + " " + b + ")";
    assert Join(tokens, " ") == joined by {
      assert tokens[1..] == [b + ")"];
      assert Join(tokens[1..], " ") == b + ")";
    }
    assert joined[1..|joined| - 1] == a + "," + (" " + b);
  }

  /** The source's own example: `eq(1, 1)` is true. */
  lemma EqOfSameNumber(fl: FloatOps, one: string)
    requires one == "1"
    ensures Eq(fl, ["(" + one + ",", one + ")"], []) == Ok(Returned(Bool, "true"))
  {
    assert AllDigits(one) && ',' !in one && !IsWhitespace(one[0]);
    assert DigitsValue(one) == 1;
    IntLiteral(fl, one, []);
    EqOfTwoTokens(fl, one, one, []);
  }

  /** `eq` of two equal string literals with one space inside, which the line splits
      into four tokens, is true. */
  lemma EqOfSameTwoWordString(fl: FloatOps, u: string, v: string, store: seq<Variable>)
    requires ',' !in u && ',' !in v
    requires u == [] || u[0] != '"'
    requires v == [] || v[|v| - 1] != '"'
    ensures Eq(fl, ["(\"" + u, v + "\",", "\"" + u, v + "\")"], store) == Ok(Returned(Bool, "true"))
  {
    var tokens := ["(\"" + u, v + "\",", "\"" + u, v + "\")"];
    var phrase := u + " " + v;
    var a := "\"" + phrase + "\"";
    FourTokensArgument(u, v);
    assert phrase[0] != '"' && phrase[|phrase| - 1] != '"' by {
      assert phrase[0] == if u == [] then ' ' else u[0];
      assert phrase[|phrase| - 1] == if v == [] then ' ' else v[|v| - 1];
    }
    SameQuotedCompare(fl, phrase, store);
    EqOfCall(fl, tokens, a + "," + (" " + a), store, true);
  }

  /** A quoted text compared with itself after `, ` is equal. */
  lemma SameQuotedCompare(fl: FloatOps, s: string, store: seq<Variable>)
    requires ',' !in s && (s == [] || (s[0] != '"' && s[|s| - 1] != '"'))
    ensures var a := "\"" + s + "\""; CompareArguments(fl, a + "," + (" " + a), store) == Ok(true)
  {
    var a := "\"" + s + "\"";
    assert ',' !in a && a[0] == '"';
    StringLiteralRoundTrip(fl, s, store);
    CompareWithSpace(fl, a, store);
  }

  /** An evaluable argument without a comma compared with itself after `, `. */
  lemma CompareWithSpace(fl: FloatOps, a: string, store: seq<Variable>)
    requires ',' !in a && a != [] && !IsWhitespace(a[0])
    requires ExtractData(fl, a, store).Ok? && ExtractData(fl, a, store).val.Some?
    ensures CompareArguments(fl, a + "," + (" " + a), store) == Ok(true)
  {
    assert ',' !in " " + a;
    RSplitOnceAtOnlyComma(a, " " + a);
    SpaceIgnored(fl, a, store);
  }

  /** `eq` of a call of at least two tokens whose argument text compares to `b`. */
  lemma EqOfCall(fl: FloatOps, tokens: seq<string>, args: string, store: seq<Variable>, b: bool)
    requires |tokens| >= 2 && CallArgument(tokens) == Some(args) && CompareArguments(fl, args, store) == Ok(b)
    ensures Eq(fl, tokens, store) == Ok(Returned(Bool, ShowBool(b)))
  {
  }

  lemma FourTokensArgument(u: string, v: string)
    ensures var a := "\"" + (u + " " + v) + "\"";
      CallArgument(["(\"" + u, v + "\",", "\"" + u, v + "\")"]) == Some(a + "," + (" " + a))
  {
    var a := "\"" + (u + " " + v) + "\"";
    var joined := "(" + (a + "," + (" " + a)) + ")";
    FourTokensJoined(u, v);
    assert joined[1..|joined| - 1] == a + "," + (" " + a);
  }

  lemma FourTokensJoined(u: string, v: string)
    ensures var a := "\"" + (u + " " + v) + "\"";
      Join(["(\"" + u, v + "\",", "\"" + u, v + "\")"], " ") == "(" + (a + "," + (" " + a)) + ")"
  {
    var tokens := ["(\"" + u, v + "\",", "\"" + u, v + "\")"];
    var t1, t2, t3 := tokens[1..], tokens[2..], tokens[3..];
    assert t1[1..] == t2 && t2[1..] == t3 && |t3| == 1;
    assert Join(t2, " ") == "\"" + u + " " + (v + "\")");
    assert Join(t1, " ") == v + "\"," + " " + ("\"" + u + " " + (v + "\")"));
  }

  /** The source's own example: `eq("same phrase", "same phrase")`, four tokens, is
      true. */
  lemma EqOfSamePhrase(fl: FloatOps, u: string, v: string)
    requires u == "same" && v == "phrase"
    ensures Eq(fl, ["(\"" + u, v + "\",", "\"" + u, v + "\")"], []) == Ok(Returned(Bool, "true"))
  {
    EqOfSameTwoWordString(fl, u, v, []);
  }

  /** The source's own example: `eq(false, true)` is false. */
  lemma EqOfDifferentBools(fl: FloatOps, f: string, t: string)
    requires f == "false" && t == "true"
    ensures Eq(fl, ["(" + f + ",", t + ")"], []) == Ok(Returned(Bool, "false"))
  {
    assert ',' !in t && !IsWhitespace(t[0]);
    BoolLiteral(fl, f, []);
    BoolLiteral(fl, t, []);
    EqOfTwoTokens(fl, f, t, []);
  }

  /** A space before an argument does not change its value. */
  lemma SpaceIgnored(fl: FloatOps, text: string, store: seq<Variable>)
    requires text != [] && !IsWhitespace(text[0])
    ensures ExtractData(fl, " " + text, store) == ExtractData(fl, text, store)
  {
    TrimLeadingSpace(text);
  }

  // ---------------------------------------------------------------------------
  // Placeholder substitution

  /** The placeholder `{name}` of an identifier. */
  function Placeholder(id: string): (p: string)
    ensures |p| == |id| + 2 && p[0] == '{'
  {
    "{" + id + "}"
  }

  /** The text after the loop's first `k` rounds: round `i` replaces the placeholder of
      the `i`-th binding's identifier with the payload `get_variable` finds for it. */
  function SubstitutedUpTo(text: string, store: seq<Variable>, k: nat): string
    requires k <= |store|
  {
    if k == 0 then text
    else
      var id := store[k - 1].identifier;
      var previous := SubstitutedUpTo(text, store, k - 1);
      match Lookup(store, id)
      case Some(found) => Replace(previous, Placeholder(id), found.payload)
      case None => previous
  }

  /** The text once every binding has had its round; a text holding no placeholder of
      a bound identifier (in particular one with no `{`) comes out as it went in. */
  function Formatted(text: string, store: seq<Variable>): (r: string)
    ensures '{' !in text ==> r == text
    ensures (forall i :: 0 <= i < |store| ==> !Contains(text, Placeholder(store[i].identifier))) ==> r == text
  {
    if forall i :: 0 <= i < |store| ==> !Contains(text, Placeholder(store[i].identifier)) then
      NoBoundPlaceholderUnchanged(text, store, |store|);
      SubstitutedUpTo(text, store, |store|)
    else
      if '{' !in text then NoPlaceholderUnchanged(text, store, |store|); SubstitutedUpTo(text, store, |store|)
      else SubstitutedUpTo(text, store, |store|)
  }

  /** The substitution loop, as the source writes it. */
  method Substitute(text: string, store: seq<Variable>) returns (result: string)
    ensures result == Formatted(text, store)
  {
    result := text;
    for index := 0 to |store|
      invariant result == SubstitutedUpTo(text, store, index)
    {
      var variable := store[index];
      var placeholder := Placeholder(variable.identifier);
      var found := Lookup(store, variable.identifier);
      if found.Some? {
        result := Replace(result, placeholder, found.val.payload);
      }
    }
  }

  /** A text without `{` is printed as it stands. */
  lemma {:induction false} NoPlaceholderUnchanged(text: string, store: seq<Variable>, k: nat)
    requires k <= |store| && '{' !in text
    ensures SubstitutedUpTo(text, store, k) == text
  {
    if k > 0 {
      NoPlaceholderUnchanged(text, store, k - 1);
      RoundKeepsBraceFree(text, store, k, text);
    }
  }

  lemma {:induction false} NoBraceNoPlaceholder(s: string, p: string)
    requires '{' !in s && |p| > 0 && p[0] == '{'
    ensures !Contains(s, p)
    decreases |s|
  {
    if s != [] {
      NoBraceNoPlaceholder(s[1..], p);
    }
  }

  /** A text holding no placeholder of any bound identifier is left as it is. */
  lemma {:induction false} NoBoundPlaceholderUnchanged(text: string, store: seq<Variable>, k: nat)
    requires k <= |store|
    requires forall i :: 0 <= i < |store| ==> !Contains(text, Placeholder(store[i].identifier))
    ensures SubstitutedUpTo(text, store, k) == text
  {
    if k > 0 {
      NoBoundPlaceholderUnchanged(text, store, k - 1);
      RoundWithoutPlaceholder(text, store, k, text);
    }
  }

  /** A round applied to a text without `{` changes nothing. */
  lemma RoundKeepsBraceFree(text: string, store: seq<Variable>, k: nat, t: string)
    requires 0 < k <= |store| && SubstitutedUpTo(text, store, k - 1) == t && '{' !in t
    ensures SubstitutedUpTo(text, store, k) == t
  {
    NoBraceNoPlaceholder(t, Placeholder(store[k - 1].identifier));
    RoundWithoutPlaceholder(text, store, k, t);
  }

  /** A round whose placeholder does not occur in the text so far changes nothing. */
  lemma RoundWithoutPlaceholder(text: string, store: seq<Variable>, k: nat, t: string)
    requires 0 < k <= |store| && SubstitutedUpTo(text, store, k - 1) == t
    requires !Contains(t, Placeholder(store[k - 1].identifier))
    ensures SubstitutedUpTo(text, store, k) == t
  {
    var id := store[k - 1].identifier;
    match Lookup(store, id)
    case Some(found) => ReplaceAbsent(t, Placeholder(id), found.payload);
    case None =>
  }

  /** Neither `{` nor `}`: what identifiers must be for placeholders not to overlap. */
  predicate Plain(s: string) {
    '{' !in s && '}' !in s
  }

  /** A text with one placeholder, of a bound identifier, and no other `{` comes out
      with the placeholder replaced by the value of that identifier's first binding,
      however many other bindings there are, provided no identifier holds a brace and
      no value a `{`. */
  lemma OnePlaceholder(before: string, id: string, after: string, store: seq<Variable>)
    requires '{' !in before && '{' !in after && Bound(store, id)
    requires forall i :: 0 <= i < |store| ==> Plain(store[i].identifier) && '{' !in store[i].payload
    ensures Formatted(before + Placeholder(id) + after, store) == before + Lookup(store, id).val.payload + after
  {
    var text := before + Placeholder(id) + after;
    var j := FindIndex(store, id).val;
    var payload := Lookup(store, id).val.payload;
    var done := before + payload + after;
    OtherRoundsKeep(before, id, after, store, j);
    assert Lookup(store, id).val in store;
    assert '{' !in payload;
    assert Replace(text, Placeholder(id), payload) == done by {
      ReplaceOnce(before, Placeholder(id), after, payload);
    }
    assert SubstitutedUpTo(text, store, j + 1) == done;
    NoPlaceholderUnchanged(done, store, j + 1);
    SameFromThereOn(text, done, store, j + 1, |store|);
    NoPlaceholderUnchanged(done, store, |store|);
  }

  /** The rounds before the first binding of `id` find none of their placeholders. */
  lemma {:induction false} OtherRoundsKeep(before: string, id: string, after: string, store: seq<Variable>, k: nat)
    requires '{' !in before && '{' !in after && Plain(id)
    requires forall i :: 0 <= i < |store| ==> Plain(store[i].identifier)
    requires k < |store| && forall i :: 0 <= i < k ==> store[i].identifier != id
    ensures SubstitutedUpTo(before + Placeholder(id) + after, store, k) == before + Placeholder(id) + after
  {
    if k > 0 {
      OtherRoundsKeep(before, id, after, store, k - 1);
      var other := store[k - 1].identifier;
      OtherPlaceholderAbsent(before, id, after, other);
      ReplaceAbsent(before + Placeholder(id) + after, Placeholder(other), Lookup(store, other).val.payload);
    }
  }

  /** Two texts that agree after `lo` rounds agree after every later round. */
  lemma {:induction false} SameFromThereOn(t1: string, t2: string, store: seq<Variable>, lo: nat, k: nat)
    requires lo <= k <= |store| && SubstitutedUpTo(t1, store, lo) == SubstitutedUpTo(t2, store, lo)
    ensures SubstitutedUpTo(t1, store, k) == SubstitutedUpTo(t2, store, k)
    decreases k
  {
    if k > lo {
      SameFromThereOn(t1, t2, store, lo, k - 1);
    }
  }

  /** The only `{` of the text opens the placeholder of `id`, so the placeholder of a
      different plain identifier does not occur. */
  lemma OtherPlaceholderAbsent(before: string, id: string, after: string, other: string)
    requires '{' !in before && '{' !in after && Plain(id) && Plain(other) && other != id
    ensures !Contains(before + Placeholder(id) + after, Placeholder(other))
  {
    var p := Placeholder(other);
    var rest := Placeholder(id) + after;
    assert before + Placeholder(id) + after == before + rest;
    ContainsPastBraceFree(before, rest, p);
    PlaceholderMismatch(id, other, after);
    assert '{' !in rest[1..] by {
      assert rest[1..] == id + "}" + after;
    }
    NoBraceNoPlaceholder(rest[1..], p);
    assert Contains(rest, p) == (StartsWith(rest, p) || Contains(rest[1..], p));
  }

  lemma {:induction false} ContainsPastBraceFree(before: string, rest: string, p: string)
    requires '{' !in before && |p| > 0 && p[0] == '{'
    ensures Contains(before + rest, p) ==> Contains(rest, p)
    decreases |before|
  {
    if before == [] {
      assert before + rest == rest;
    } else {
      assert before[0] in before;
      assert (before + rest)[0] == before[0];
      assert (before + rest)[1..] == before[1..] + rest;
      ContainsPastBraceFree(before[1..], rest, p);
    }
  }

  lemma PlaceholderMismatch(id: string, other: string, after: string)
    requires Plain(id) && Plain(other) && other != id
    ensures !StartsWith(Placeholder(id) + after, Placeholder(other))
  {
    var s, p := Placeholder(id) + after, Placeholder(other);
    if |p| <= |s| {
      if |other| < |id| {
        assert p[|other| + 1] == '}' && s[|other| + 1] == id[|other|];
      } else if |other| > |id| {
        assert s[|id| + 1] == '}' && p[|id| + 1] == other[|id|];
      } else {
        assert s[..|p|][1..|id| + 1] == id && p[1..|id| + 1] == other;
      }
    }
  }

  /** With one binding, its placeholder between two texts without `{` becomes its
      payload. */
  lemma SingleSubstitution(before: string, after: string, v: Variable)
    requires '{' !in before && '{' !in after
    ensures Formatted(before + Placeholder(v.identifier) + after, [v]) == before + v.payload + after
  {
    var p := Placeholder(v.identifier);
    var text := before + p + after;
    assert Lookup([v], v.identifier) == Some(v);
    assert SubstitutedUpTo(text, [v], 0) == text;
    assert SubstitutedUpTo(text, [v], 1) == Replace(text, p, v.payload);
    ReplaceOnce(before, p, after, v.payload);
  }

  /** `Replace` on a text holding its pattern once, after a part without the pattern's
      first character. */
  lemma {:induction false} ReplaceOnce(before: string, p: string, after: string, rep: string)
    requires |p| > 0 && p[0] !in before && '{' == p[0] && '{' !in after
    ensures Replace(before + p + after, p, rep) == before + rep + after
    decreases |before|
  {
    var s := before + p + after;
    if before == [] {
      assert s == p + after && s[..|p|] == p;
      assert s[|p|..] == after;
      NoBraceNoPlaceholder(after, p);
      ReplaceAbsent(after, p, rep);
      assert Replace(s, p, rep) == rep + Replace(after, p, rep);
    } else {
      assert !StartsWith(s, p) by {
        assert s[0] == before[0] != p[0];
      }
      assert s[1..] == before[1..] + p + after;
      ReplaceOnce(before[1..], p, after, rep);
      assert Replace(s, p, rep) == [s[0]] + Replace(s[1..], p, rep);
      assert before == [before[0]] + before[1..];
    }
  }

  /** `silm_format`: evaluate the parenthesised argument, then substitute every
      placeholder in its payload (the loop is `Substitute`, proved equal to
      `Formatted`). */
  function Format(fl: FloatOps, tokens: seq<string>, store: seq<Variable>): (r: Outcome<Variable>)
    ensures r.Ok? <==>
      && tokens != [] && CallArgument(tokens).Some?
      && ExtractData(fl, CallArgument(tokens).val, store).Ok?
      && ExtractData(fl, CallArgument(tokens).val, store).val.Some?
    ensures r.Ok? ==>
      r.val == Returned(Str, Formatted(ExtractData(fl, CallArgument(tokens).val, store).val.val.payload, store))
    ensures r.Panic? <==> tokens != [] && CallArgument(tokens).Some? && ExtractData(fl, CallArgument(tokens).val, store).Panic?
  {
    if tokens == [] then Err("command requires one argument")
    else match CallArgument(tokens)
      case None => Err("command call does not contain two parantheses")
      case Some(text) =>
        match ExtractData(fl, text, store)
        case Ok(Some(v)) => Ok(Returned(Str, Formatted(v.payload, store)))
        case Ok(None) => Err("command requires one argument")
        case Err(e) => Err(e)
        case Panic => Panic
  }
}

=== FILE: commands.dfy ===
/** The commands of `commands.rs` and the dispatcher `interpret`, as transitions of the
    interpreter's state: the variable store, the text printed so far, the lines still
    to be read from standard input, and whether the process is still running. */
module Commands {
  import opened Text
  import opened Numbers
  import opened Values
  import opened Store
  import opened Evaluator
  import opened Builtins

  /** A process that called `exit` or panicked does nothing more. */
  datatype Status = Running | Exited | Panicked

  /** Standard input is a list of lines as `read_line` returns them; `None` stands for a
      line whose reading fails. Reading past the end gives an empty line. */
  datatype State = State(variables: seq<Variable>, stdout: string, stdin: seq<Option<string>>, status: Status)

  /** What `read_to_string` gives for a file name: its text, or the error's message. */
  datatype FileRead = Contents(text: string) | Failure(message: string)

  /** The `:`-separated error line `throw_error` prints: it starts with the input's
      name and ends with the message and a line break. */
  function ErrorLine(message: string, function_name: string, input_name: string, line_number: int): (r: string)
    ensures input_name <= r
    ensures |message| + 1 <= |r| && r[|r| - |message| - 1..] == message + "\n"
  {
    input_name + ":" + ShowInt(line_number) + ": " + function_name + ": " + message + "\n"
  }

  /** `throw_error`: print the error line; nothing else changes. */
  function Throw(st: State, message: string, function_name: string, input_name: string, line_number: int): (r: State)
    ensures r.variables == st.variables && r.stdin == st.stdin && r.status == st.status
    ensures r.stdout == st.stdout + ErrorLine(message, function_name, input_name, line_number)
    ensures Advances(st, r)
  {
    st.(stdout := st.stdout + ErrorLine(message, function_name, input_name, line_number))
  }

  /** `println!`: the text and a line break. */
  function Print(st: State, text: string): (r: State)
    ensures r.variables == st.variables && r.stdin == st.stdin && r.status == st.status
    ensures r.stdout == st.stdout + text + "\n"
    ensures Advances(st, r)
  {
    st.(stdout := st.stdout + text + "\n")
  }

  /** An evaluation that failed: an error is reported under the command's name, a panic
      ends the process. */
  function Fail<T>(st: State, failure: Outcome<T>, function_name: string, input_name: string, line_number: int): (r: State)
    requires !failure.Ok?
    ensures r.variables == st.variables && r.stdin == st.stdin
    ensures failure.Panic? <==> r.status == Panicked && r.stdout == st.stdout
    ensures Advances(st, r)
  {
    if failure.Panic? then st.(status := Panicked)
    else
      var r := Throw(st, failure.msg, function_name, input_name, line_number);
      assert |r.stdout| > |st.stdout|;
      r
  }

  // ---------------------------------------------------------------------------
  // The commands

  /** `silm_let`: `let <name> = <value>` binds the evaluated value under the name. */
  function AfterLet(st: State, fl: FloatOps, tokens: seq<string>, input_name: string, line_number: int): (r: State)
    ensures r.stdin == st.stdin && st.stdout <= r.stdout
    ensures r.status == st.status || r.status == Panicked
    ensures Advances(st, r)
    ensures |tokens| < 3 ==> r == Throw(st, "improper amount of tokens (!>= 4)", "let", input_name, line_number)
    ensures |tokens| >= 3 && tokens[1] != "=" ==> r == Throw(st, "assignment operator (=) not found", "let", input_name, line_number)
    ensures |tokens| >= 3 && tokens[1] == "=" ==>
      var x := ExtractData(fl, Join(tokens[2..], " "), st.variables);
      && (x == Ok(None) ==> r == Throw(st, "empty value given", "let", input_name, line_number))
      && (x.Err? ==> r == Throw(st, x.msg, "let", input_name, line_number))
      && (x.Panic? ==> r == st.(status := Panicked))
  {
    if |tokens| < 3 then Throw(st, "improper amount of tokens (!>= 4)", "let", input_name, line_number)
    else if tokens[1] != "=" then Throw(st, "assignment operator (=) not found", "let", input_name, line_number)
    else
      var evaluated := ExtractData(fl, Join(tokens[2..], " "), st.variables);
      match evaluated
      case Ok(Some(v)) =>
        AssignAdvances(st, Variable(v.kind, tokens[0], v.payload));
        st.(variables := Assigned(st.variables, Variable(v.kind, tokens[0], v.payload)))
      case Ok(None) => Throw(st, "empty value given", "let", input_name, line_number)
      case _ => Fail(st, evaluated, "let", input_name, line_number)
  }

  /** `silm_println`: print the payload of the evaluated argument. */
  function AfterPrintln(st: State, fl: FloatOps, tokens: seq<string>, input_name: string, line_number: int): (r: State)
    ensures r.variables == st.variables && r.stdin == st.stdin && st.stdout <= r.stdout
    ensures r.status == st.status || r.status == Panicked
    ensures Advances(st, r)
    ensures tokens == [] ==> r == Throw(st, "no argument provided", "println", input_name, line_number)
    ensures tokens != [] && CallArgument(tokens).None? ==>
      r == Throw(st, "command call does not contain two parantheses", "println", input_name, line_number)
  {
    if tokens == [] then Throw(st, "no argument provided", "println", input_name, line_number)
    else match CallArgument(tokens)
      case None => Throw(st, "command call does not contain two parantheses", "println", input_name, line_number)
      case Some(argument) =>
        var evaluated := ExtractData(fl, argument, st.variables);
        match evaluated
        case Ok(Some(v)) => Print(st, v.payload)
        case Ok(None) => Print(st, "")
        case _ => Fail(st, evaluated, "println", input_name, line_number)
  }

  /** `silm_formatln`: print the payload of the evaluated argument with every
      placeholder substituted. */
  function AfterFormatln(st: State, fl: FloatOps, tokens: seq<string>, input_name: string, line_number: int): (r: State)
    ensures r.variables == st.variables && r.stdin == st.stdin && st.stdout <= r.stdout
    ensures r.status == st.status || r.status == Panicked
    ensures Advances(st, r)
    ensures tokens == [] ==> r == Throw(st, "command requires one argument", "formatln", input_name, line_number)
    ensures tokens != [] && CallArgument(tokens).None? ==>
      r == Throw(st, "command call does not contain two parantheses", "formatln", input_name, line_number)
  {
    if tokens == [] then Throw(st, "command requires one argument", "formatln", input_name, line_number)
    else match CallArgument(tokens)
      case None => Throw(st, "command call does not contain two parantheses", "formatln", input_name, line_number)
      case Some(argument) =>
        var evaluated := ExtractData(fl, argument, st.variables);
        match evaluated
        case Ok(Some(v)) => Print(st, Formatted(v.payload, st.variables))
        case Ok(None) => Throw(st, "command requires one argument", "formatln", input_name, line_number)
        case _ => Fail(st, evaluated, "formatln", input_name, line_number)
  }

  /** `read_line` then `trim_end`, assigned as a `str` to `id`; a failed read is
      reported instead. Exactly one line is consumed, if there is one. */
  function ReadInto(st: State, id: string, input_name: string, line_number: int): (r: State)
    ensures r.stdin == if st.stdin == [] then [] else st.stdin[1..]
    ensures r.status == st.status
    ensures Advances(st, r)
  {
    if st.stdin == [] then
      AssignAdvances(st, Variable(Str, id, ""));
      st.(variables := Assigned(st.variables, Variable(Str, id, "")))
    else
      assert st.stdin[1..] == st.stdin[|st.stdin| - |st.stdin[1..]|..];
      match st.stdin[0]
      case Some(text) =>
        AssignAdvances(st, Variable(Str, id, TrimEnd(text)));
        st.(stdin := st.stdin[1..], variables := Assigned(st.variables, Variable(Str, id, TrimEnd(text))))
      case None => Throw(st.(stdin := st.stdin[1..]), "invalid input", "readln", input_name, line_number)
  }

  /** The two comma-separated arguments of `readline`: a prompt and a `str` variable. */
  function ReadlnArguments(st: State, fl: FloatOps, first_str: string, second_str: string, input_name: string, line_number: int): (r: State)
    ensures r.stdin == st.stdin || (st.stdin != [] && r.stdin == st.stdin[1..])
    ensures r.status == st.status || r.status == Panicked
    ensures Advances(st, r)
    ensures var first := ExtractData(fl, first_str, st.variables);
      && (first.Err? ==> r == Throw(st, first.msg, "readln", input_name, line_number))
      && (first.Panic? ==> r == st.(status := Panicked))
      && (first == Ok(None) ==> r == Throw(st, "first argument not given", "readln", input_name, line_number))
    ensures var first := ExtractData(fl, first_str, st.variables);
            var second := ExtractData(fl, second_str, st.variables);
      first.Ok? && first.val.Some? ==>
      && (second.Err? ==> r == Throw(st, second.msg, "readln", input_name, line_number))
      && (second.Panic? ==> r == st.(status := Panicked))
      && (second == Ok(None) ==> r == Throw(st, "second argument not given", "readln", input_name, line_number))
  {
    var first := ExtractData(fl, first_str, st.variables);
    if !first.Ok? then Fail(st, first, "readln", input_name, line_number)
    else if first.val.None? then Throw(st, "first argument not given", "readln", input_name, line_number)
    else
      var second := ExtractData(fl, second_str, st.variables);
      if !second.Ok? then Fail(st, second, "readln", input_name, line_number)
      else if second.val.None? then Throw(st, "second argument not given", "readln", input_name, line_number)
      else if second.val.val.kind != Str then
        Throw(st, "invalid type: '" + first_str + "' must be a str", "readln", input_name, line_number)
      else
        var prompted := st.(stdout := st.stdout + first.val.val.payload);
        var r := ReadInto(prompted, second.val.val.identifier, input_name, line_number);
        AdvancesTransitive(st, prompted, r);
        r
  }

  /** `silm_readln`: `readline (<prompt>, <name>)` prints the prompt without a line
      break and reads a line into the `str` variable named by the second argument. */
  function AfterReadln(st: State, fl: FloatOps, tokens: seq<string>, input_name: string, line_number: int): (r: State)
    ensures r.stdin == st.stdin || (st.stdin != [] && r.stdin == st.stdin[1..])
    ensures r.status == st.status || r.status == Panicked
    ensures Advances(st, r)
    ensures |tokens| < 2 ==> r == Throw(st, "command requires at least two tokens", "readln", input_name, line_number)
    ensures |tokens| >= 2 && CallArgument(tokens).None? ==>
      r == Throw(st, "command call does not contain two parantheses", "readln", input_name, line_number)
    ensures |tokens| >= 2 && CallArgument(tokens).Some? && RSplitOnce(CallArgument(tokens).val, ',').None? ==>
      r == Throw(st, "command requires two arguments", "readln", input_name, line_number)
    ensures |tokens| >= 2 && CallArgument(tokens).Some? && RSplitOnce(CallArgument(tokens).val, ',').Some? ==>
      var (first_str, second_str) := RSplitOnce(CallArgument(tokens).val, ',').val;
      r == ReadlnArguments(st, fl, first_str, second_str, input_name, line_number)
  {
    if |tokens| < 2 then Throw(st, "command requires at least two tokens", "readln", input_name, line_number)
    else match CallArgument(tokens)
      case None => Throw(st, "command call does not contain two parantheses", "readln", input_name, line_number)
      case Some(arguments) =>
        match RSplitOnce(arguments, ',')
        case None => Throw(st, "command requires two arguments", "readln", input_name, line_number)
        case Some((first_str, second_str)) => ReadlnArguments(st, fl, first_str, second_str, input_name, line_number)
  }

  /** `silm_exit`: `exit ()` ends the process. */
  function AfterExit(st: State, tokens: seq<string>, input_name: string, line_number: int): (r: State)
    ensures r.variables == st.variables && r.stdin == st.stdin
    ensures r.status == Exited <==> (tokens != [] && tokens[0] == "()") || st.status == Exited
    ensures Advances(st, r)
  {
    if tokens == [] then Throw(st, "command call requires two parantheses", "exit", input_name, line_number)
    else if tokens[0] == "()" then st.(status := Exited)
    else Throw(st, "invalid command call", "exit", input_name, line_number)
  }

  /** The code of a block: the tokens after `()` joined with spaces, with every `\;`
      turned into a line break. */
  function BlockCode(tokens: seq<string>): (r: string)
    ensures r == Replace(Join(tokens, " "), "\\;", "\n")
  {
    JoinSplitIsReplace(Join(tokens, " "), "\\;", "\n");
    Join(Split(Join(tokens, " "), "\\;"), "\n")
  }

  /** `silm_block`: `block <name> () <code>` binds the code as a `Block` value. Reading
      `tokens[1]` of a single token panics. */
  function AfterBlock(st: State, tokens: seq<string>, input_name: string, line_number: int): (r: State)
    ensures r.stdin == st.stdin && st.stdout <= r.stdout
    ensures r.status == st.status || r.status == Panicked
    ensures Advances(st, r)
    ensures tokens == [] ==> r == Throw(st, "block can not be nameless", "block", input_name, line_number)
    ensures |tokens| == 1 ==> r == st.(status := Panicked)
    ensures |tokens| >= 2 && tokens[1] != "()" ==> r == Throw(st, "block must have two parantheses", "block", input_name, line_number)
  {
    if tokens == [] then Throw(st, "block can not be nameless", "block", input_name, line_number)
    else if |tokens| < 2 then st.(status := Panicked)
    else if tokens[1] != "()" then Throw(st, "block must have two parantheses", "block", input_name, line_number)
    else
      AssignAdvances(st, Variable(Block, tokens[0], BlockCode(tokens[2..])));
      st.(variables := Assigned(st.variables, Variable(Block, tokens[0], BlockCode(tokens[2..]))))
  }

  /** The line `interpret` prints for a command it does not know: it starts with the
      input's name and ends with the whole line, tokens joined by spaces. */
  function Unrecognised(tokens: seq<string>, input_name: string, line_number: int): (r: string)
    ensures input_name <= r
    ensures |Join(tokens, " ")| <= |r| && r[|r| - |Join(tokens, " ")|..] == Join(tokens, " ")
  {
    input_name + ":" + ShowInt(line_number) + ": unrecognised function: " + Join(tokens, " ")
  }

  /** The commands `interpret` knows by name. */
  predicate Known(command: string) {
    command == "let" || command == "println" || command == "formatln" || command == "readline" || command == "exit"
  }

  /** A known command applied to the rest of its line. */
  function Command(st: State, fl: FloatOps, command: string, arguments: seq<string>, input_name: string, line_number: int): (r: State)
    requires Known(command)
    ensures Advances(st, r)
  {
    match command
    case "let" => AfterLet(st, fl, arguments, input_name, line_number)
    case "println" => AfterPrintln(st, fl, arguments, input_name, line_number)
    case "formatln" => AfterFormatln(st, fl, arguments, input_name, line_number)
    case "readline" => AfterReadln(st, fl, arguments, input_name, line_number)
    case _ => AfterExit(st, arguments, input_name, line_number)
  }

  /** `interpret`'s match on the first token of a line: a known command runs, `#` is a
      comment, anything else is reported. */
  function Dispatch(st: State, fl: FloatOps, tokens: seq<string>, input_name: string, line_number: int): (r: State)
    ensures Advances(st, r)
  {
    if tokens == [] then st
    else if Known(tokens[0]) then Command(st, fl, tokens[0], tokens[1..], input_name, line_number)
    else if tokens[0] == "#" then st
    else Print(st, Unrecognised(tokens, input_name, line_number))
  }

  /** `interpret`: split a line at whitespace and dispatch it, unless the process has
      already halted. */
  function AfterInterpret(st: State, fl: FloatOps, line: string, input_name: string, line_number: int): (r: State)
    ensures st.status != Running ==> r == st
    ensures Advances(st, r)
  {
    if st.status != Running then st
    else Dispatch(st, fl, SplitWhitespace(line), input_name, line_number)
  }

  /** `silm_eval`: interpret the payload of a `str` argument as a line of code, under the
      caller's name and line number. */
  function AfterEval(st: State, fl: FloatOps, tokens: seq<string>, input_name: string, line_number: int): (r: State)
    ensures Advances(st, r)
    ensures tokens == [] ==> r == Throw(st, "no argument provided", "eval", input_name, line_number)
    ensures tokens != [] && CallArgument(tokens).None? ==>
      r == Throw(st, "command call does not contain two parantheses", "eval", input_name, line_number)
  {
    if tokens == [] then Throw(st, "no argument provided", "eval", input_name, line_number)
    else match CallArgument(tokens)
      case None => Throw(st, "command call does not contain two parantheses", "eval", input_name, line_number)
      case Some(argument) =>
        var evaluated := ExtractData(fl, argument, st.variables);
        match evaluated
        case Ok(Some(v)) =>
          if v.kind == Str then AfterInterpret(st, fl, v.payload, input_name, line_number)
          else Throw(st, "argument must be a str", "eval", input_name, line_number)
        case Ok(None) => Throw(st, "command requires one argument", "eval", input_name, line_number)
        case _ => Fail(st, evaluated, "eval", input_name, line_number)
  }

  /** Interpreting the lines of a file in order, numbered from 1. */
  function RunLines(st: State, fl: FloatOps, lines: seq<string>, input_name: string): (r: State)
    ensures Advances(st, r)
    decreases |lines|
  {
    if lines == [] then st
    else
      var before := RunLines(st, fl, lines[..|lines| - 1], input_name);
      var r := AfterInterpret(before, fl, lines[|lines| - 1], input_name, |lines|);
      AdvancesTransitive(st, before, r);
      r
  }

  /** The evaluated argument of `silm_interpret`: the lines of the file it names run
      under the file's name. */
  function InterpretArgument(st: State, fl: FloatOps, files: string -> FileRead, evaluated: Outcome<Option<Variable>>, input_name: string, line_number: int): (r: State)
    ensures Advances(st, r)
  {
    match evaluated
    case Ok(Some(v)) =>
      if v.kind != Str then Throw(st, "argument must be a str", "interpret", input_name, line_number)
      else (match files(v.payload)
            case Contents(code) => RunLines(st, fl, Lines(code), v.payload)
            case Failure(message) => Throw(st, message, "interpret", input_name, line_number))
    case Ok(None) => Print(st, "")
    case _ => Fail(st, evaluated, "interpret", input_name, line_number)
  }

  /** `silm_interpret`: run every line of the named file. */
  function AfterInterpretFile(st: State, fl: FloatOps, files: string -> FileRead, tokens: seq<string>, input_name: string, line_number: int): (r: State)
    ensures Advances(st, r)
    ensures tokens == [] ==> r == Throw(st, "no argument provided", "interpret", input_name, line_number)
    ensures tokens != [] && CallArgument(tokens).None? ==>
      r == Throw(st, "command call does not contain two parantheses", "interpret", input_name, line_number)
  {
    if tokens == [] then Throw(st, "no argument provided", "interpret", input_name, line_number)
    else match CallArgument(tokens)
      case None => Throw(st, "command call does not contain two parantheses", "interpret", input_name, line_number)
      case Some(argument) =>
        InterpretArgument(st, fl, files, ExtractData(fl, argument, st.variables), input_name, line_number)
  }

  /** One line of an imported file: only `let` and `block` lines take effect. */
  function ImportLine(st: State, fl: FloatOps, line: string, input_name: string, line_number: int): (r: State)
    ensures r.stdin == st.stdin
    ensures r.status == st.status || r.status == Panicked
    ensures Advances(st, r)
  {
    if st.status != Running then st
    else
      var tokens := SplitWhitespace(line);
      if tokens == [] then st
      else if tokens[0] == "let" then AfterLet(st, fl, tokens[1..], input_name, line_number)
      else if tokens[0] == "block" then AfterBlock(st, tokens[1..], input_name, line_number)
      else st
  }

  /** The lines of an imported file in order, numbered from 1. */
  function ImportLines(st: State, fl: FloatOps, lines: seq<string>, input_name: string): (r: State)
    ensures Advances(st, r)
    decreases |lines|
  {
    if lines == [] then st
    else
      var before := ImportLines(st, fl, lines[..|lines| - 1], input_name);
      var r := ImportLine(before, fl, lines[|lines| - 1], input_name, |lines|);
      AdvancesTransitive(st, before, r);
      r
  }

  /** The evaluated argument of `silm_import`: the bindings and blocks of the file it
      names are taken. */
  function ImportArgument(st: State, fl: FloatOps, files: string -> FileRead, evaluated: Outcome<Option<Variable>>, input_name: string, line_number: int): (r: State)
    ensures Advances(st, r)
  {
    match evaluated
    case Ok(Some(v)) =>
      if v.kind != Str then Throw(st, "argument must be a str", "import", input_name, line_number)
      else (match files(v.payload)
            case Contents(code) => ImportLines(st, fl, Lines(code), v.payload)
            case Failure(message) => Throw(st, message, "import", input_name, line_number))
    case Ok(None) => Throw(st, "command requires one argument", "current_function", input_name, line_number)
    case _ => Fail(st, evaluated, "import", input_name, line_number)
  }

  /** `silm_import`: take the bindings and blocks of the named file. */
  function AfterImport(st: State, fl: FloatOps, files: string -> FileRead, tokens: seq<string>, input_name: string, line_number: int): (r: State)
    ensures Advances(st, r)
    ensures tokens == [] ==> r == Throw(st, "no argument provided", "import", input_name, line_number)
    ensures tokens != [] && CallArgument(tokens).None? ==>
      r == Throw(st, "command call does not contain two parantheses", "import", input_name, line_number)
  {
    if tokens == [] then Throw(st, "no argument provided", "import", input_name, line_number)
    else match CallArgument(tokens)
      case None => Throw(st, "command call does not contain two parantheses", "import", input_name, line_number)
      case Some(argument) =>
        ImportArgument(st, fl, files, ExtractData(fl, argument, st.variables), input_name, line_number)
  }

  /** The `\;`-separated segments of an `if` body, in order, all under the `if`'s own
      line number. */
  function RunSegments(st: State, fl: FloatOps, segments: seq<string>, input_name: string, line_number: int): (r: State)
    ensures Advances(st, r)
    decreases |segments|
  {
    if segments == [] then st
    else
      var before := RunSegments(st, fl, segments[..|segments| - 1], input_name, line_number);
      var r := AfterInterpret(before, fl, segments[|segments| - 1], input_name, line_number);
      AdvancesTransitive(st, before, r);
      r
  }

  /** `silm_if`: `if (<condition>) :: <code>` runs the code when the condition is the
      `bool` true. */
  function AfterIf(st: State, fl: FloatOps, tokens: seq<string>, input_name: string, line_number: int): (r: State)
    ensures Advances(st, r)
    ensures tokens == [] ==> r == Throw(st, "no condition provided", "if", input_name, line_number)
    ensures tokens != [] && SplitOnce(Join(tokens, " "), " :: ").None? ==>
      r == Throw(st, "no condition-bound code provided", "if", input_name, line_number)
    ensures tokens != [] && SplitOnce(Join(tokens, " "), " :: ").Some? && !Parenthesised(SplitOnce(Join(tokens, " "), " :: ").val.0) ==>
      r == Throw(st, "command condition must contain two parantheses", "if", input_name, line_number)
  {
    if tokens == [] then Throw(st, "no condition provided", "if", input_name, line_number)
    else match SplitOnce(Join(tokens, " "), " :: ")
      case None => Throw(st, "no condition-bound code provided", "if", input_name, line_number)
      case Some((condition, then_code)) =>
        if !Parenthesised(condition) then
          Throw(st, "command condition must contain two parantheses", "if", input_name, line_number)
        else
          var evaluated := ExtractData(fl, Inner(condition), st.variables);
          match evaluated
          case Ok(Some(v)) =>
            if v.kind != Bool then Throw(st, "condition must be of type bool", "if", input_name, line_number)
            else if v.payload == "true" then RunSegments(st, fl, Split(then_code, "\\;"), input_name, line_number)
            else st
          case Ok(None) => st
          case _ => Fail(st, evaluated, "if", input_name, line_number)
  }

  // ---------------------------------------------------------------------------
  // What every command keeps

  /** How a state can change: output is only ever appended to, standard input is only
      ever consumed from the front, and identifiers in the store stay unique. Every
      transition above ensures it. */
  predicate Advances(before: State, after: State) {
    before.stdout <= after.stdout
    && |after.stdin| <= |before.stdin|
    && after.stdin == before.stdin[|before.stdin| - |after.stdin|..]
    && (Unique(before.variables) ==> Unique(after.variables))
  }

  lemma AdvancesTransitive(a: State, b: State, c: State)
    requires Advances(a, b) && Advances(b, c)
    ensures Advances(a, c)
  {
    assert c.stdin == a.stdin[|a.stdin| - |c.stdin|..] by {
      assert b.stdin[|b.stdin| - |c.stdin|..] == a.stdin[|a.stdin| - |b.stdin|..][|b.stdin| - |c.stdin|..];
    }
  }

  /** Binding a value keeps the store free of duplicates and touches nothing else. */
  lemma AssignAdvances(st: State, v: Variable)
    ensures Advances(st, st.(variables := Assigned(st.variables, v)))
  {
    if Unique(st.variables) {
      AssignKeepsUnique(st.variables, v);
    }
  }

  // ---------------------------------------------------------------------------
  // Halting

  /** Once the process has exited or panicked, no line has any effect. */
  lemma {:induction false} HaltedIsFinal(st: State, fl: FloatOps, lines: seq<string>, input_name: string)
    requires st.status != Running
    ensures RunLines(st, fl, lines, input_name) == st
    decreases |lines|
  {
    if lines != [] {
      HaltedIsFinal(st, fl, lines[..|lines| - 1], input_name);
    }
  }

  /** The lines after the one that halts the process are ignored. */
  lemma {:induction false} StopsWhenHalted(st: State, fl: FloatOps, lines: seq<string>, k: nat, input_name: string)
    requires k <= |lines| && RunLines(st, fl, lines[..k], input_name).status != Running
    ensures RunLines(st, fl, lines, input_name) == RunLines(st, fl, lines[..k], input_name)
    decreases |lines|
  {
    if k < |lines| {
      var init := lines[..|lines| - 1];
      assert init[..k] == lines[..k];
      StopsWhenHalted(st, fl, init, k, input_name);
    } else {
      assert lines[..k] == lines;
    }
  }

  /** `exit ()` ends the process and changes nothing else. */
  lemma ExitHalts(st: State, fl: FloatOps, tokens: seq<string>, input_name: string, line_number: int)
    requires |tokens| >= 2 && tokens[0] == "exit" && tokens[1] == "()"
    ensures Dispatch(st, fl, tokens, input_name, line_number) == st.(status := Exited)
  {
    var rest := tokens[1..];
    assert rest[0] == "()";
    assert Command(st, fl, tokens[0], rest, input_name, line_number) == AfterExit(st, rest, input_name, line_number);
  }

  // ---------------------------------------------------------------------------
  // The dispatcher

  /** A `let` line runs `silm_let` on the rest of its tokens, with the same store, input name
      and line number. */
  lemma DispatchLet(st: State, fl: FloatOps, tokens: seq<string>, input_name: string, line_number: int)
    requires tokens != [] && tokens[0] == "let"
    ensures Dispatch(st, fl, tokens, input_name, line_number) == AfterLet(st, fl, tokens[1..], input_name, line_number)
  {
    assert Command(st, fl, tokens[0], tokens[1..], input_name, line_number) == AfterLet(st, fl, tokens[1..], input_name, line_number);
  }

  /** A `println` line runs `silm_println` on the rest of its tokens, with the same store, input name
      and line number. */
  lemma DispatchPrintln(st: State, fl: FloatOps, tokens: seq<string>, input_name: string, line_number: int)
    requires tokens != [] && tokens[0] == "println"
    ensures Dispatch(st, fl, tokens, input_name, line_number) == AfterPrintln(st, fl, tokens[1..], input_name, line_number)
  {
    assert Command(st, fl, tokens[0], tokens[1..], input_name, line_number) == AfterPrintln(st, fl, tokens[1..], input_name, line_number);
  }

  /** A `formatln` line runs `silm_formatln` on the rest of its tokens, with the same store, input name
      and line number. */
  lemma DispatchFormatln(st: State, fl: FloatOps, tokens: seq<string>, input_name: string, line_number: int)
    requires tokens != [] && tokens[0] == "formatln"
    ensures Dispatch(st, fl, tokens, input_name, line_number) == AfterFormatln(st, fl, tokens[1..], input_name, line_number)
  {
    assert Command(st, fl, tokens[0], tokens[1..], input_name, line_number) == AfterFormatln(st, fl, tokens[1..], input_name, line_number);
  }

  /** A `readline` line runs `silm_readln` on the rest of its tokens, with the same store, input name
      and line number. */
  lemma DispatchReadline(st: State, fl: FloatOps, tokens: seq<string>, input_name: string, line_number: int)
    requires tokens != [] && tokens[0] == "readline"
    ensures Dispatch(st, fl, tokens, input_name, line_number) == AfterReadln(st, fl, tokens[1..], input_name, line_number)
  {
    assert Command(st, fl, tokens[0], tokens[1..], input_name, line_number) == AfterReadln(st, fl, tokens[1..], input_name, line_number);
  }

  /** Blank lines and lines whose first token is `#` do nothing. */
  lemma IgnoredLines(st: State, fl: FloatOps, tokens: seq<string>, input_name: string, line_number: int)
    requires tokens == [] || tokens[0] == "#"
    ensures Dispatch(st, fl, tokens, input_name, line_number) == st
  {
  }

  /** The commands the dispatcher does not know, among them `block`, `if`, `eval`,
      `interpret` and `import`, only print the unrecognised-function line. */
  lemma UnknownCommand(st: State, fl: FloatOps, tokens: seq<string>, input_name: string, line_number: int)
    requires tokens != [] && !Known(tokens[0]) && tokens[0] != "#"
    ensures Dispatch(st, fl, tokens, input_name, line_number).variables == st.variables
    ensures Dispatch(st, fl, tokens, input_name, line_number).stdout
         == st.stdout + input_name + ":" + ShowInt(line_number) + ": unrecognised function: " + Join(tokens, " ") + "\n"
  {
    var text := Unrecognised(tokens, input_name, line_number);
    DispatchUnknown(st, fl, tokens, input_name, line_number);
    assert st.stdout + text + "\n"
        == st.stdout + input_name + ":" + ShowInt(line_number) + ": unrecognised function: " + Join(tokens, " ") + "\n";
  }

  lemma DispatchUnknown(st: State, fl: FloatOps, tokens: seq<string>, input_name: string, line_number: int)
    requires tokens != [] && !Known(tokens[0]) && tokens[0] != "#"
    ensures Dispatch(st, fl, tokens, input_name, line_number) == Print(st, Unrecognised(tokens, input_name, line_number))
  {
  }

  // ---------------------------------------------------------------------------
  // let and block

  /** A successful `let` binds the name to the value's kind and payload, leaves every
      other binding as it was and prints nothing. */
  lemma LetBinds(st: State, fl: FloatOps, tokens: seq<string>, v: Variable, other: string, input_name: string, line_number: int)
    requires |tokens| >= 3 && tokens[1] == "="
    requires ExtractData(fl, Join(tokens[2..], " "), st.variables) == Ok(Some(v))
    requires other != tokens[0]
    ensures Lookup(AfterLet(st, fl, tokens, input_name, line_number).variables, tokens[0]) == Some(Variable(v.kind, tokens[0], v.payload))
    ensures Lookup(AfterLet(st, fl, tokens, input_name, line_number).variables, other) == Lookup(st.variables, other)
    ensures AfterLet(st, fl, tokens, input_name, line_number).stdout == st.stdout
  {
    LookupAfterAssign(st.variables, Variable(v.kind, tokens[0], v.payload));
    LookupOtherAfterAssign(st.variables, Variable(v.kind, tokens[0], v.payload), other);
  }

  /** A `let` that does not get a value leaves the store as it was and prints one error
      line, or panics. */
  lemma LetFailureKeepsStore(st: State, fl: FloatOps, tokens: seq<string>, input_name: string, line_number: int)
    requires |tokens| < 3 || tokens[1] != "=" || !ExtractData(fl, Join(tokens[2..], " "), st.variables).Ok?
             || ExtractData(fl, Join(tokens[2..], " "), st.variables).val.None?
    ensures AfterLet(st, fl, tokens, input_name, line_number).variables == st.variables
    ensures AfterLet(st, fl, tokens, input_name, line_number).status == Panicked
         || exists message :: AfterLet(st, fl, tokens, input_name, line_number).stdout == st.stdout + ErrorLine(message, "let", input_name, line_number)
  {
    var r := AfterLet(st, fl, tokens, input_name, line_number);
    if |tokens| < 3 {
      ThrowPrintsErrorLine(st, r, "improper amount of tokens (!>= 4)", "let", input_name, line_number);
    } else if tokens[1] != "=" {
      ThrowPrintsErrorLine(st, r, "assignment operator (=) not found", "let", input_name, line_number);
    } else {
      var evaluated := ExtractData(fl, Join(tokens[2..], " "), st.variables);
      if evaluated.Panic? {
        assert r == st.(status := Panicked);
      } else {
        var message := if evaluated.Err? then evaluated.msg else "empty value given";
        assert r == Throw(st, message, "let", input_name, line_number);
        ThrowPrintsErrorLine(st, r, message, "let", input_name, line_number);
      }
    }
  }

  /** A state that `Throw` produced keeps the store and carries one error line more. */
  lemma ThrowPrintsErrorLine(st: State, r: State, message: string, function_name: string, input_name: string, line_number: int)
    requires r == Throw(st, message, function_name, input_name, line_number)
    ensures r.variables == st.variables
    ensures exists m :: r.stdout == st.stdout + ErrorLine(m, function_name, input_name, line_number)
  {
    assert r.stdout == st.stdout + ErrorLine(message, function_name, input_name, line_number);
  }

  /** A block's code is the text after `()` with every `\;` replaced by a line break,
      bound under the block's name. */
  lemma BlockStoresCode(st: State, tokens: seq<string>, input_name: string, line_number: int)
    requires |tokens| >= 2 && tokens[1] == "()"
    ensures Lookup(AfterBlock(st, tokens, input_name, line_number).variables, tokens[0])
         == Some(Variable(Block, tokens[0], Replace(Join(tokens[2..], " "), "\\;", "\n")))
    ensures AfterBlock(st, tokens, input_name, line_number).stdout == st.stdout
  {
    JoinSplitIsReplace(Join(tokens[2..], " "), "\\;", "\n");
    LookupAfterAssign(st.variables, Variable(Block, tokens[0], BlockCode(tokens[2..])));
  }

  /** `block` with a name and nothing after it reads past the end of its tokens. */
  lemma BlockWithoutParenthesesPanics(st: State, tokens: seq<string>, input_name: string, line_number: int)
    requires |tokens| == 1
    ensures AfterBlock(st, tokens, input_name, line_number) == st.(status := Panicked)
  {
  }

  // ---------------------------------------------------------------------------
  // readline

  /** With a prompt and a `str` variable, `readline` prints the prompt, consumes one line
      of input and binds it, without trailing whitespace, to the variable. */
  lemma ReadlnReadsLine(st: State, fl: FloatOps, first_str: string, second_str: string, prompt: Variable, target: Variable, text: string, input_name: string, line_number: int)
    requires ExtractData(fl, first_str, st.variables) == Ok(Some(prompt))
    requires ExtractData(fl, second_str, st.variables) == Ok(Some(target)) && target.kind == Str
    requires st.stdin != [] && st.stdin[0] == Some(text)
    ensures ReadlnArguments(st, fl, first_str, second_str, input_name, line_number).stdout == st.stdout + prompt.payload
    ensures ReadlnArguments(st, fl, first_str, second_str, input_name, line_number).stdin == st.stdin[1..]
    ensures Lookup(ReadlnArguments(st, fl, first_str, second_str, input_name, line_number).variables, target.identifier)
         == Some(Variable(Str, target.identifier, TrimEnd(text)))
  {
    LookupAfterAssign(st.variables, Variable(Str, target.identifier, TrimEnd(text)));
  }

  /** At the end of input `readline` binds the empty string. */
  lemma ReadlnAtEndOfInput(st: State, fl: FloatOps, first_str: string, second_str: string, prompt: Variable, target: Variable, input_name: string, line_number: int)
    requires ExtractData(fl, first_str, st.variables) == Ok(Some(prompt))
    requires ExtractData(fl, second_str, st.variables) == Ok(Some(target)) && target.kind == Str
    requires st.stdin == []
    ensures ReadlnArguments(st, fl, first_str, second_str, input_name, line_number).stdin == []
    ensures Lookup(ReadlnArguments(st, fl, first_str, second_str, input_name, line_number).variables, target.identifier)
         == Some(Variable(Str, target.identifier, ""))
  {
    LookupAfterAssign(st.variables, Variable(Str, target.identifier, ""));
  }

  /** A line that cannot be read is reported after the prompt, and nothing is bound. */
  lemma ReadlnFailedRead(st: State, fl: FloatOps, first_str: string, second_str: string, prompt: Variable, target: Variable, input_name: string, line_number: int)
    requires ExtractData(fl, first_str, st.variables) == Ok(Some(prompt))
    requires ExtractData(fl, second_str, st.variables) == Ok(Some(target)) && target.kind == Str
    requires st.stdin != [] && st.stdin[0].None?
    ensures ReadlnArguments(st, fl, first_str, second_str, input_name, line_number)
         == st.(stdin := st.stdin[1..], stdout := st.stdout + prompt.payload + ErrorLine("invalid input", "readln", input_name, line_number))
  {
  }

  /** A target that is not a `str` is refused, naming the first argument as written,
      before anything is printed or read. */
  lemma ReadlnNeedsString(st: State, fl: FloatOps, first_str: string, second_str: string, prompt: Variable, target: Variable, input_name: string, line_number: int)
    requires ExtractData(fl, first_str, st.variables) == Ok(Some(prompt))
    requires ExtractData(fl, second_str, st.variables) == Ok(Some(target)) && target.kind != Str
    ensures ReadlnArguments(st, fl, first_str, second_str, input_name, line_number)
         == Throw(st, "invalid type: '" + first_str + "' must be a str", "readln", input_name, line_number)
  {
  }

  /** The arguments are split at the last comma: without one, `readline` is refused. */
  lemma ReadlnWithoutComma(st: State, fl: FloatOps, tokens: seq<string>, arguments: string, input_name: string, line_number: int)
    requires |tokens| >= 2 && CallArgument(tokens) == Some(arguments) && ',' !in arguments
    ensures AfterReadln(st, fl, tokens, input_name, line_number)
         == Throw(st, "command requires two arguments", "readln", input_name, line_number)
  {
  }

  // ---------------------------------------------------------------------------
  // if

  /** A condition that is the `bool` false, or empty, leaves everything as it was. */
  lemma IfFalseDoesNothing(st: State, fl: FloatOps, tokens: seq<string>, condition: string, then_code: string, input_name: string, line_number: int)
    requires tokens != [] && SplitOnce(Join(tokens, " "), " :: ") == Some((condition, then_code))
    requires Parenthesised(condition)
    requires ExtractData(fl, Inner(condition), st.variables).Ok?
    requires ExtractData(fl, Inner(condition), st.variables).val.Some? ==>
               ExtractData(fl, Inner(condition), st.variables).val.val.kind == Bool
               && ExtractData(fl, Inner(condition), st.variables).val.val.payload != "true"
    ensures AfterIf(st, fl, tokens, input_name, line_number) == st
  {
  }

  /** A condition that evaluates to the `bool` true runs each `\;`-separated part of the
      code in order, under the `if`'s own line number. */
  lemma IfTrueRunsCode(st: State, fl: FloatOps, tokens: seq<string>, condition: string, then_code: string, v: Variable, input_name: string, line_number: int)
    requires tokens != [] && SplitOnce(Join(tokens, " "), " :: ") == Some((condition, then_code))
    requires Parenthesised(condition) && ExtractData(fl, Inner(condition), st.variables) == Ok(Some(v))
    requires v.kind == Bool && v.payload == "true"
    ensures AfterIf(st, fl, tokens, input_name, line_number) == RunSegments(st, fl, Split(then_code, "\\;"), input_name, line_number)
  {
  }

  /** In particular the literal condition `(true)`. */
  lemma IfTrueLiteralRunsCode(st: State, fl: FloatOps, tokens: seq<string>, condition: string, then_code: string, input_name: string, line_number: int)
    requires tokens != [] && SplitOnce(Join(tokens, " "), " :: ") == Some((condition, then_code))
    requires condition == "(true)"
    ensures AfterIf(st, fl, tokens, input_name, line_number) == RunSegments(st, fl, Split(then_code, "\\;"), input_name, line_number)
  {
    var inner := Inner(condition);
    assert inner == "true";
    BoolLiteral(fl, inner, st.variables);
    IfTrueRunsCode(st, fl, tokens, condition, then_code, Literal(Bool, "true"), input_name, line_number);
  }

  /** A condition of any other kind is refused. */
  lemma IfNeedsBool(st: State, fl: FloatOps, tokens: seq<string>, condition: string, then_code: string, v: Variable, input_name: string, line_number: int)
    requires tokens != [] && SplitOnce(Join(tokens, " "), " :: ") == Some((condition, then_code))
    requires Parenthesised(condition) && ExtractData(fl, Inner(condition), st.variables) == Ok(Some(v)) && v.kind != Bool
    ensures AfterIf(st, fl, tokens, input_name, line_number) == Throw(st, "condition must be of type bool", "if", input_name, line_number)
  {
  }

  // ---------------------------------------------------------------------------
  // eval, interpret and import

  /** `eval ("<code>")` interprets the code as if it were the calling line. */
  lemma EvalRunsCode(st: State, fl: FloatOps, tokens: seq<string>, code: string, input_name: string, line_number: int)
    requires tokens != [] && CallArgument(tokens) == Some("\"" + code + "\"")
    requires code == [] || (code[0] != '"' && code[|code| - 1] != '"')
    ensures AfterEval(st, fl, tokens, input_name, line_number) == AfterInterpret(st, fl, code, input_name, line_number)
  {
    StringLiteralRoundTrip(fl, code, st.variables);
  }

  /** `interpret ("<file>")` runs the file's lines under the file's name, or reports why
      it could not be read. */
  lemma InterpretRunsFile(st: State, fl: FloatOps, files: string -> FileRead, tokens: seq<string>, filename: string, input_name: string, line_number: int)
    requires tokens != [] && CallArgument(tokens) == Some("\"" + filename + "\"")
    requires filename == [] || (filename[0] != '"' && filename[|filename| - 1] != '"')
    ensures files(filename).Contents? ==>
      AfterInterpretFile(st, fl, files, tokens, input_name, line_number) == RunLines(st, fl, Lines(files(filename).text), filename)
    ensures files(filename).Failure? ==>
      AfterInterpretFile(st, fl, files, tokens, input_name, line_number) == Throw(st, files(filename).message, "interpret", input_name, line_number)
  {
    StringLiteralRoundTrip(fl, filename, st.variables);
  }

  /** `eval` on any parenthesised argument: a `str` value is interpreted as the calling
      line; any other value, no value, or a failed evaluation is reported. */
  lemma EvalOfArgument(st: State, fl: FloatOps, tokens: seq<string>, a: string, input_name: string, line_number: int)
    requires tokens != [] && CallArgument(tokens) == Some(a)
    ensures var x := ExtractData(fl, a, st.variables);
      && (x.Ok? && x.val.Some? && x.val.val.kind == Str ==>
            AfterEval(st, fl, tokens, input_name, line_number) == AfterInterpret(st, fl, x.val.val.payload, input_name, line_number))
      && (x.Ok? && x.val.Some? && x.val.val.kind != Str ==>
            AfterEval(st, fl, tokens, input_name, line_number) == Throw(st, "argument must be a str", "eval", input_name, line_number))
      && (x == Ok(None) ==>
            AfterEval(st, fl, tokens, input_name, line_number) == Throw(st, "command requires one argument", "eval", input_name, line_number))
      && (x.Err? ==> AfterEval(st, fl, tokens, input_name, line_number) == Throw(st, x.msg, "eval", input_name, line_number))
      && (x.Panic? ==> AfterEval(st, fl, tokens, input_name, line_number) == st.(status := Panicked))
  {
  }

  /** `interpret` on any parenthesised argument: a `str` value names the file whose
      lines run under that name; a read error, any other value or a failed evaluation
      is reported, and no value prints an empty line. */
  lemma InterpretOfArgument(st: State, fl: FloatOps, files: string -> FileRead, tokens: seq<string>, a: string, input_name: string, line_number: int)
    requires tokens != [] && CallArgument(tokens) == Some(a)
    ensures var x := ExtractData(fl, a, st.variables);
            var r := AfterInterpretFile(st, fl, files, tokens, input_name, line_number);
      && (x.Ok? && x.val.Some? && x.val.val.kind == Str && files(x.val.val.payload).Contents? ==>
            r == RunLines(st, fl, Lines(files(x.val.val.payload).text), x.val.val.payload))
      && (x.Ok? && x.val.Some? && x.val.val.kind == Str && files(x.val.val.payload).Failure? ==>
            r == Throw(st, files(x.val.val.payload).message, "interpret", input_name, line_number))
      && (x.Ok? && x.val.Some? && x.val.val.kind != Str ==> r == Throw(st, "argument must be a str", "interpret", input_name, line_number))
      && (x == Ok(None) ==> r == Print(st, ""))
      && (x.Err? ==> r == Throw(st, x.msg, "interpret", input_name, line_number))
      && (x.Panic? ==> r == st.(status := Panicked))
  {
  }

  /** `import` on any parenthesised argument: a `str` value names the file whose `let`
      and `block` lines are taken under that name; a read error, any other value or a
      failed evaluation is reported, and no value is reported under the name
      `current_function`. */
  lemma ImportOfArgument(st: State, fl: FloatOps, files: string -> FileRead, tokens: seq<string>, a: string, input_name: string, line_number: int)
    requires tokens != [] && CallArgument(tokens) == Some(a)
    ensures var x := ExtractData(fl, a, st.variables);
            var r := AfterImport(st, fl, files, tokens, input_name, line_number);
      && (x.Ok? && x.val.Some? && x.val.val.kind == Str && files(x.val.val.payload).Contents? ==>
            r == ImportLines(st, fl, Lines(files(x.val.val.payload).text), x.val.val.payload))
      && (x.Ok? && x.val.Some? && x.val.val.kind == Str && files(x.val.val.payload).Failure? ==>
            r == Throw(st, files(x.val.val.payload).message, "import", input_name, line_number))
      && (x.Ok? && x.val.Some? && x.val.val.kind != Str ==> r == Throw(st, "argument must be a str", "import", input_name, line_number))
      && (x == Ok(None) ==> r == Throw(st, "command requires one argument", "current_function", input_name, line_number))
      && (x.Err? ==> r == Throw(st, x.msg, "import", input_name, line_number))
      && (x.Panic? ==> r == st.(status := Panicked))
  {
  }

  /** `import ("<file>")` takes the file's bindings and blocks under its name, or
      reports why it could not be read. */
  lemma ImportRunsFile(st: State, fl: FloatOps, files: string -> FileRead, tokens: seq<string>, filename: string, input_name: string, line_number: int)
    requires tokens != [] && CallArgument(tokens) == Some("\"" + filename + "\"")
    requires filename == [] || (filename[0] != '"' && filename[|filename| - 1] != '"')
    ensures files(filename).Contents? ==>
      AfterImport(st, fl, files, tokens, input_name, line_number) == ImportLines(st, fl, Lines(files(filename).text), filename)
    ensures files(filename).Failure? ==>
      AfterImport(st, fl, files, tokens, input_name, line_number) == Throw(st, files(filename).message, "import", input_name, line_number)
  {
    StringLiteralRoundTrip(fl, filename, st.variables);
    ImportOfArgument(st, fl, files, tokens, "\"" + filename + "\"", input_name, line_number);
  }

  /** Importing never reads input and never exits; it prints only error lines. */
  lemma {:induction false} ImportLinesKeepInput(st: State, fl: FloatOps, lines: seq<string>, input_name: string)
    ensures ImportLines(st, fl, lines, input_name).stdin == st.stdin
    ensures ImportLines(st, fl, lines, input_name).status == st.status || ImportLines(st, fl, lines, input_name).status == Panicked
    decreases |lines|
  {
    if lines != [] {
      ImportLinesKeepInput(st, fl, lines[..|lines| - 1], input_name);
    }
  }

  /** The line at index `k` of an imported file, when it is a `let` or a `block` line,
      runs that command on the state the earlier lines left, under the file's name and
      the line's 1-based number. */
  lemma ImportRunsLetAndBlock(st: State, fl: FloatOps, lines: seq<string>, k: nat, input_name: string)
    requires k < |lines|
    requires ImportLines(st, fl, lines[..k], input_name).status == Running
    ensures var before := ImportLines(st, fl, lines[..k], input_name);
            var tokens := SplitWhitespace(lines[k]);
            tokens != [] && tokens[0] == "let" ==>
              ImportLines(st, fl, lines[..k + 1], input_name) == AfterLet(before, fl, tokens[1..], input_name, k + 1)
    ensures var before := ImportLines(st, fl, lines[..k], input_name);
            var tokens := SplitWhitespace(lines[k]);
            tokens != [] && tokens[0] == "block" ==>
              ImportLines(st, fl, lines[..k + 1], input_name) == AfterBlock(before, tokens[1..], input_name, k + 1)
  {
    ImportLinesStep(st, fl, lines, k, input_name);
  }

  /** Running the first `k + 1` lines is running the first `k`, then line `k` as line
      number `k + 1`. */
  lemma RunLinesStep(st: State, fl: FloatOps, lines: seq<string>, k: nat, input_name: string)
    requires k < |lines|
    ensures RunLines(st, fl, lines[..k + 1], input_name)
         == AfterInterpret(RunLines(st, fl, lines[..k], input_name), fl, lines[k], input_name, k + 1)
  {
    var prefix := lines[..k + 1];
    assert prefix[..|prefix| - 1] == lines[..k];
    assert prefix[|prefix| - 1] == lines[k];
  }

  /** Running the first `k + 1` segments is running the first `k`, then segment `k`. */
  lemma RunSegmentsStep(st: State, fl: FloatOps, segments: seq<string>, k: nat, input_name: string, line_number: int)
    requires k < |segments|
    ensures RunSegments(st, fl, segments[..k + 1], input_name, line_number)
         == AfterInterpret(RunSegments(st, fl, segments[..k], input_name, line_number), fl, segments[k], input_name, line_number)
  {
    var prefix := segments[..k + 1];
    assert prefix[..|prefix| - 1] == segments[..k];
    assert prefix[|prefix| - 1] == segments[k];
  }

  /** The first `k + 1` lines are the first `k` followed by line `k`, numbered `k + 1`. */
  lemma ImportLinesStep(st: State, fl: FloatOps, lines: seq<string>, k: nat, input_name: string)
    requires k < |lines|
    ensures ImportLines(st, fl, lines[..k + 1], input_name)
         == ImportLine(ImportLines(st, fl, lines[..k], input_name), fl, lines[k], input_name, k + 1)
  {
    var prefix := lines[..k + 1];
    assert prefix[..|prefix| - 1] == lines[..k];
    assert prefix[|prefix| - 1] == lines[k];
  }

  /** Lines other than `let` and `block` lines have no effect when imported. */
  lemma {:induction false} ImportSkipsOtherLines(st: State, fl: FloatOps, lines: seq<string>, input_name: string)
    requires forall i :: 0 <= i < |lines| ==> SplitWhitespace(lines[i]) == [] || SplitWhitespace(lines[i])[0] !in ["let", "block"]
    ensures ImportLines(st, fl, lines, input_name) == st
    decreases |lines|
  {
    if lines != [] {
      ImportSkipsOtherLines(st, fl, lines[..|lines| - 1], input_name);
      var last := SplitWhitespace(lines[|lines| - 1]);
      assert last == [] || last[0] !in ["let", "block"];
    }
  }

  // ---------------------------------------------------------------------------
  // println and formatln

  /** `println` on any parenthesised argument prints the value's payload, or an empty
      line when there is no value; a failed evaluation is reported. */
  lemma PrintlnOfArgument(st: State, fl: FloatOps, tokens: seq<string>, a: string, input_name: string, line_number: int)
    requires tokens != [] && CallArgument(tokens) == Some(a)
    ensures var x := ExtractData(fl, a, st.variables);
            var r := AfterPrintln(st, fl, tokens, input_name, line_number);
      && (x.Ok? && x.val.Some? ==> r == Print(st, x.val.val.payload))
      && (x == Ok(None) ==> r == Print(st, ""))
      && (x.Err? ==> r == Throw(st, x.msg, "println", input_name, line_number))
      && (x.Panic? ==> r == st.(status := Panicked))
  {
  }

  /** `formatln` on any parenthesised argument prints the value's payload with every
      placeholder substituted from the store; no value or a failed evaluation is
      reported. */
  lemma FormatlnOfArgument(st: State, fl: FloatOps, tokens: seq<string>, a: string, input_name: string, line_number: int)
    requires tokens != [] && CallArgument(tokens) == Some(a)
    ensures var x := ExtractData(fl, a, st.variables);
            var r := AfterFormatln(st, fl, tokens, input_name, line_number);
      && (x.Ok? && x.val.Some? ==> r == Print(st, Formatted(x.val.val.payload, st.variables)))
      && (x == Ok(None) ==> r == Throw(st, "command requires one argument", "formatln", input_name, line_number))
      && (x.Err? ==> r == Throw(st, x.msg, "formatln", input_name, line_number))
      && (x.Panic? ==> r == st.(status := Panicked))
  {
  }

  /** `println ("<text>")` prints the text and a line break. */
  lemma PrintlnPrintsString(st: State, fl: FloatOps, tokens: seq<string>, text: string, input_name: string, line_number: int)
    requires tokens != [] && CallArgument(tokens) == Some("\"" + text + "\"")
    requires text == [] || (text[0] != '"' && text[|text| - 1] != '"')
    ensures AfterPrintln(st, fl, tokens, input_name, line_number) == st.(stdout := st.stdout + text + "\n")
  {
    StringLiteralRoundTrip(fl, text, st.variables);
  }

  /** `formatln ("<text>")` prints the text with its placeholders substituted; a text
      without `{` is printed as it stands. */
  lemma FormatlnPrintsString(st: State, fl: FloatOps, tokens: seq<string>, text: string, input_name: string, line_number: int)
    requires tokens != [] && CallArgument(tokens) == Some("\"" + text + "\"")
    requires text == [] || (text[0] != '"' && text[|text| - 1] != '"')
    ensures AfterFormatln(st, fl, tokens, input_name, line_number) == st.(stdout := st.stdout + Formatted(text, st.variables) + "\n")
    ensures '{' !in text ==> AfterFormatln(st, fl, tokens, input_name, line_number) == st.(stdout := st.stdout + text + "\n")
  {
    StringLiteralRoundTrip(fl, text, st.variables);
    if '{' !in text {
      NoPlaceholderUnchanged(text, st.variables, |st.variables|);
    }
  }
}

=== FILE: evaluator.dfy ===
/** `extract_data`: the evaluation of an argument or right-hand side to a value. */
module Evaluator {
  import opened Text
  import opened Numbers
  import opened Values
  import opened Store
  import opened Arithmetic

  /** A value computed from a literal or an expression. */
  function Literal(kind: DataType, payload: string): Variable {
    Variable(kind, Uninitialised, payload)
  }

  /** The value of an arithmetic expression, rendered by `f32::to_string`, or the
      shunting yard's error with a prefix. */
  function Expression(fl: FloatOps, store: seq<Variable>, tokens: seq<string>): (r: Outcome<Option<Variable>>)
    ensures r.Ok? ==> r.val.Some? && r.val.val.kind == Float && r.val.val.identifier == Uninitialised
    ensures r.Err? ==> StartsWith(r.msg, "shunting yard algorithm: ")
    ensures r.Panic? <==> ShuntingYard(fl, store, tokens).Panic?
  {
    match ShuntingYard(fl, store, tokens)
    case Ok(x) => Ok(Some(Literal(Float, fl.show(x))))
    case Err(e) => Err("shunting yard algorithm: " + e)
    case Panic => Panic
  }

  /** Text that starts and ends with the quote character `q` (one character will do). */
  predicate Quoted(d: string, q: char) {
    |d| > 0 && d[0] == q && d[|d| - 1] == q
  }

  /** The `'...'` branch: what is left once every leading and every trailing
      apostrophe is stripped is the character; an empty one is allowed, more than one
      character is not. */
  function CharLiteral(d: string): (r: Outcome<Option<Variable>>)
    ensures var v := TrimEndMatches(TrimStartMatches(d, '\''), '\'');
      && (r.Ok? <==> |v| <= 1)
      && (r.Ok? ==> r == Ok(Some(Literal(Char, v))))
      && (r.Err? ==> r.msg == "invalid char assignment")
  {
    var v := TrimEndMatches(TrimStartMatches(d, '\''), '\'');
    if v == [] then Ok(Some(Literal(Char, "")))
    else if IsOneChar(v) then Ok(Some(Literal(Char, v)))
    else Err("invalid char assignment")
  }

  /** The branch for text starting with a digit: several tokens are an expression,
      one token with a `.` is an `f32`, any other single token an `i32`; the value is
      stored as the canonical text of the number. */
  function Numeral(fl: FloatOps, store: seq<Variable>, tokens: seq<string>): (r: Outcome<Option<Variable>>)
    requires |tokens| > 0
    ensures r.Ok? ==> r.val.Some? && r.val.val.identifier == Uninitialised
    ensures r.Panic? ==> |tokens| > 1
    ensures |tokens| > 1 ==> r == Expression(fl, store, tokens)
    ensures |tokens| == 1 && '.' in tokens[0] ==>
      && (r.Ok? <==> FloatSyntax(tokens[0]))
      && (r.Ok? ==> r.val.val == Literal(Float, fl.show(fl.value(tokens[0]))))
      && (r.Err? ==> r.msg == "invalid float assignment")
    ensures |tokens| == 1 && '.' !in tokens[0] ==>
      && (r.Ok? <==> Decimal(tokens[0]) && InI32(SignedValue(tokens[0])))
      && (r.Ok? ==> r.val.val == Literal(Int, ShowInt(SignedValue(tokens[0]))))
      && (r.Err? ==> r.msg == "invalid int assignment")
  {
    if |tokens| > 1 then Expression(fl, store, tokens)
    else if '.' in tokens[0] then
      match ParseF32(fl, tokens[0])
      case Some(x) => Ok(Some(Literal(Float, fl.show(x))))
      case None => Err("invalid float assignment")
    else
      match ParseI32(tokens[0])
      case Some(n) => Ok(Some(Literal(Int, ShowInt(n))))
      case None => Err("invalid int assignment")
  }

  /** A lone name: a copy of its first binding, or an error naming it. */
  function Reference(store: seq<Variable>, d: string): (r: Outcome<Option<Variable>>)
    ensures r.Ok? ==> r.val.Some? && r.val.val.identifier == d && Lookup(store, d) == Some(r.val.val)
    ensures r.Err? <==> !Bound(store, d)
    ensures r.Err? ==> r.msg == "variable '" + d + "' unrecognised"
    ensures !r.Panic?
  {
    match Lookup(store, d)
    case Some(v) => Ok(Some(v))
    case None => Err("variable '" + d + "' unrecognised")
  }

  /** The branches of `extract_data`, in the source's order, on text already trimmed. */
  function Evaluate(fl: FloatOps, d: string, store: seq<Variable>): (r: Outcome<Option<Variable>>)
    requires d == [] || !IsWhitespace(d[0])
    ensures r.Ok? && r.val.None? <==> d == []
    ensures r.Ok? && r.val.Some? ==>
      r.val.val.identifier == Uninitialised || Lookup(store, r.val.val.identifier) == Some(r.val.val)
    ensures r.Panic? ==> !NoWhitespace(d)
  {
    OneWordTokens(d);
    if d == [] then Ok(None)
    else if Quoted(d, '"') then Ok(Some(Literal(Str, TrimEndMatches(TrimStartMatches(d, '"'), '"'))))
    else if Quoted(d, '\'') then CharLiteral(d)
    else if d == "true" || d == "false" then Ok(Some(Literal(Bool, d)))
    else if IsDigit(d[0]) then Numeral(fl, store, SplitWhitespace(d))
    else if |SplitWhitespace(d)| == 1 then Reference(store, d)
    else Expression(fl, store, SplitWhitespace(d))
  }

  lemma OneWordTokens(d: string)
    ensures d != [] && NoWhitespace(d) ==> SplitWhitespace(d) == [d]
  {
    if d != [] && NoWhitespace(d) {
      SplitWhitespaceOfWord(d);
    }
  }

  /** `extract_data`: evaluate the trimmed text. */
  function ExtractData(fl: FloatOps, data: string, store: seq<Variable>): (r: Outcome<Option<Variable>>)
    ensures r.Ok? && r.val.None? <==> Trim(data) == []
    ensures r.Ok? && r.val.Some? ==>
      r.val.val.identifier == Uninitialised || Lookup(store, r.val.val.identifier) == Some(r.val.val)
    ensures r.Panic? ==> !NoWhitespace(Trim(data))
  {
    Evaluate(fl, Trim(data), store)
  }

  // ---------------------------------------------------------------------------
  // Facts about the branches

  /** A string whose ends are not whitespace is its own trim. */
  lemma TrimmedAlready(s: string)
    requires s != [] && !IsWhitespace(s[0]) && !IsWhitespace(s[|s| - 1])
    ensures Trim(s) == s
  {
  }

  /** Quoting a text that neither starts nor ends with a quote and extracting it gives
      the text back as a `str`. */
  lemma StringLiteralRoundTrip(fl: FloatOps, s: string, store: seq<Variable>)
    requires s == [] || (s[0] != '"' && s[|s| - 1] != '"')
    ensures ExtractData(fl, "\"" + s + "\"", store) == Ok(Some(Literal(Str, s)))
  {
    var quote := seq(1, _ => '"');
    assert quote == "\"";
    StringLiteralStripsQuotes(fl, 1, s, 1, store);
    assert "\"" + s + "\"" == quote + s + quote;
  }

  /** Every leading and every trailing quote is stripped from a string literal, so
      `""a""` is the string `a`. */
  lemma StringLiteralStripsQuotes(fl: FloatOps, m: nat, s: string, n: nat, store: seq<Variable>)
    requires m > 0 && n > 0
    requires s == [] || (s[0] != '"' && s[|s| - 1] != '"')
    ensures ExtractData(fl, seq(m, _ => '"') + s + seq(n, _ => '"'), store) == Ok(Some(Literal(Str, s)))
  {
    var d := seq(m, _ => '"') + s + seq(n, _ => '"');
    assert d[0] == '"' && d[|d| - 1] == '"';
    StringLiteral(fl, d, store);
    QuoteRunsStripped('"', m, s, n);
  }

  /** Runs of the quote character `c` around a text that neither starts nor ends with
      `c` are exactly what the two trims remove. */
  lemma QuoteRunsStripped(c: char, m: nat, s: string, n: nat)
    requires m > 0 && n > 0
    requires s == [] || (s[0] != c && s[|s| - 1] != c)
    ensures TrimEndMatches(TrimStartMatches(seq(m, _ => c) + s + seq(n, _ => c), c), c) == s
  {
    var d := seq(m, _ => c) + s + seq(n, _ => c);
    if s == [] {
      assert d == seq(m + n, _ => c) + [];
      TrimStartMatchesRun(c, m + n, []);
    } else {
      var tail := s + seq(n, _ => c);
      assert d == seq(m, _ => c) + tail;
      assert tail[0] == s[0];
      TrimStartMatchesRun(c, m, tail);
      TrimEndMatchesRun(c, n, s);
    }
  }

  /** Text that starts and ends with `"` is a `str` with the quotes stripped. */
  lemma StringLiteral(fl: FloatOps, d: string, store: seq<Variable>)
    requires Quoted(d, '"')
    ensures ExtractData(fl, d, store) == Ok(Some(Literal(Str, TrimEndMatches(TrimStartMatches(d, '"'), '"'))))
  {
    TrimmedAlready(d);
  }

  /** Text between single apostrophes is a `char` when it is at most one character
      long, and an `invalid char assignment` otherwise. */
  lemma CharLiteralText(fl: FloatOps, inner: string, store: seq<Variable>)
    requires inner == [] || (inner[0] != '\'' && inner[|inner| - 1] != '\'')
    ensures ExtractData(fl, "'" + inner + "'", store) ==
      if |inner| <= 1 then Ok(Some(Literal(Char, inner))) else Err("invalid char assignment")
  {
    var d := "'" + inner + "'";
    assert d == seq(1, _ => '\'') + inner + seq(1, _ => '\'');
    QuoteRunsStripped('\'', 1, inner, 1);
    assert d[0] == '\'' && d[|d| - 1] == '\'';
    TrimmedAlready(d);
    assert Quoted(d, '\'') && !Quoted(d, '"');
  }

  /** No character, or one other than an apostrophe, between apostrophes is that
      `char`. */
  lemma ShortCharLiteral(fl: FloatOps, inner: string, store: seq<Variable>)
    requires |inner| <= 1 && inner != "'"
    ensures ExtractData(fl, "'" + inner + "'", store) == Ok(Some(Literal(Char, inner)))
  {
    CharLiteralText(fl, inner, store);
  }

  /** A single token that starts with a digit and has a `.` in it is an `f32`: the
      value of the literal rendered by `f32::to_string`, or an error when it is not
      `f32` syntax. */
  lemma FloatLiteral(fl: FloatOps, s: string, store: seq<Variable>)
    requires |s| > 0 && IsDigit(s[0]) && NoWhitespace(s) && '.' in s
    ensures ExtractData(fl, s, store) ==
      if FloatSyntax(s) then Ok(Some(Literal(Float, fl.show(fl.value(s)))))
      else Err("invalid float assignment")
  {
    TrimmedAlready(s);
    SplitWhitespaceOfWord(s);
    assert !Quoted(s, '"') && !Quoted(s, '\'');
    assert s != "true" && s != "false" by {
      assert !IsDigit('t') && !IsDigit('f');
    }
    assert Evaluate(fl, s, store) == Numeral(fl, store, [s]);
  }

  /** `1.0` is a `float`. */
  lemma FloatLiteralOnePointZero(fl: FloatOps, store: seq<Variable>)
    ensures ExtractData(fl, "1.0", store) == Ok(Some(Literal(Float, fl.show(fl.value("1.0")))))
  {
    assert "1.0"[1] == '.';
    OnePointZero();
    FloatLiteral(fl, "1.0", store);
  }

  /** `1.2.3` is refused. */
  lemma FloatLiteralTwoPoints(fl: FloatOps, store: seq<Variable>)
    ensures ExtractData(fl, "1.2.3", store) == Err("invalid float assignment")
  {
    assert "1.2.3"[1] == '.';
    TwoPoints();
    FloatLiteral(fl, "1.2.3", store);
  }

  lemma OnePointZero()
    ensures FloatSyntax("1.0")
  {
    assert FloatSyntax("1.0") by {
      assert ExponentMark("1.0") == 3 by {
        assert "1.0"[1..] == ".0" && ".0"[1..] == "0" && "0"[1..] == [];
      }
      assert "1.0"[..3] == "1.0";
      assert RSplitOnce("1.0", '.') == Some(("1", "0")) by {
        assert "1.0"[..2] == "1.";
        assert "1."[..1] == "1";
      }
    }
  }

  lemma TwoPoints()
    ensures !FloatSyntax("1.2.3")
  {
    NoExponentInTwoPoints();
    NoMantissaOfTwoPoints();
    PlainMantissaRejected("1.2.3");
  }

  /** Without a sign, an exponent or a length of a special name, a text is an `f32`
      literal only through its mantissa. */
  lemma PlainMantissaRejected(s: string)
    requires |s| > 0 && s[0] != '+' && s[0] != '-' && |s| != 3 && |s| != 8
    requires ExponentMark(s) == |s| && !Mantissa(s)
    ensures !FloatSyntax(s)
  {
    assert s[..|s|] == s;
  }

  lemma NoMantissaOfTwoPoints()
    ensures !Mantissa("1.2.3")
  {
    LastPointOfTwoPoints();
    assert "1.2"[1] == '.';
  }

  lemma NoExponentInTwoPoints()
    ensures ExponentMark("1.2.3") == 5
  {
    assert "1.2.3"[1..] == ".2.3" && ".2.3"[1..] == "2.3" && "2.3"[1..] == ".3";
    assert ".3"[1..] == "3" && "3"[1..] == [];
  }

  lemma LastPointOfTwoPoints()
    ensures RSplitOnce("1.2.3", '.') == Some(("1.2", "3"))
  {
    assert "1.2.3"[..4] == "1.2.";
    assert "1.2."[..3] == "1.2";
  }

  /** `true` and `false` are the `bool` literals. */
  lemma BoolLiteral(fl: FloatOps, d: string, store: seq<Variable>)
    requires d == "true" || d == "false"
    ensures ExtractData(fl, d, store) == Ok(Some(Literal(Bool, d)))
  {
    TrimmedAlready(d);
  }

  /** A single token of digits is an `int` whose payload is the canonical form of its
      value; one that does not fit in 32 bits is an error. */
  lemma IntLiteral(fl: FloatOps, s: string, store: seq<Variable>)
    requires |s| > 0 && AllDigits(s)
    ensures ExtractData(fl, s, store) ==
      if DigitsValue(s) <= I32Max then Ok(Some(Literal(Int, ShowInt(DigitsValue(s)))))
      else Err("invalid int assignment")
  {
    assert IsDigit(s[0]) && IsDigit(s[|s| - 1]);
    TrimmedAlready(s);
    EvaluateDigits(fl, s, store);
    NumeralOfDigits(fl, s, store);
  }

  /** Trimmed digits take the numeric branch as a single token. */
  lemma EvaluateDigits(fl: FloatOps, s: string, store: seq<Variable>)
    requires |s| > 0 && AllDigits(s)
    ensures Evaluate(fl, s, store) == Numeral(fl, store, [s])
  {
    NoWhitespaceDigits(s);
    SplitWhitespaceOfWord(s);
    assert IsDigit(s[0]) && IsDigit(s[|s| - 1]);
    assert !Quoted(s, '"') && !Quoted(s, '\'');
    assert s != "true" && s != "false" by {
      assert !IsDigit('t') && !IsDigit('f');
    }
  }

  /** A single token of digits is an `int` if it fits in 32 bits. */
  lemma NumeralOfDigits(fl: FloatOps, s: string, store: seq<Variable>)
    requires |s| > 0 && AllDigits(s)
    ensures Numeral(fl, store, [s]) ==
      if DigitsValue(s) <= I32Max then Ok(Some(Literal(Int, ShowInt(DigitsValue(s)))))
      else Err("invalid int assignment")
  {
    DigitsAreDecimal(s);
    assert InI32(DigitsValue(s)) <==> DigitsValue(s) <= I32Max;
    assert [s][0] == s;
  }

  lemma DigitsAreDecimal(s: string)
    requires |s| > 0 && AllDigits(s)
    ensures '.' !in s && Decimal(s) && SignedValue(s) == DigitsValue(s)
  {
    assert IsDigit(s[0]) && Unsigned(s) == s;
  }

  lemma NoWhitespaceDigits(s: string)
    requires AllDigits(s)
    ensures NoWhitespace(s)
  {
  }

  /** An `int` payload read back by `str::parse::<i32>` gives the value it was printed
      from, so integer literals are stored in a canonical, re-parsable form. */
  lemma IntPayloadReparses(fl: FloatOps, s: string, store: seq<Variable>)
    requires |s| > 0 && AllDigits(s) && DigitsValue(s) <= I32Max
    ensures ExtractData(fl, s, store).Ok? && ExtractData(fl, s, store).val.Some?
    ensures ParseI32(ExtractData(fl, s, store).val.val.payload) == Some(DigitsValue(s))
  {
    IntLiteral(fl, s, store);
    ParseShowInt(DigitsValue(s));
  }

  /** A single token that is not a literal names a variable: the result is a copy of
      the first binding of that name, or an error naming it. */
  lemma VariableReference(fl: FloatOps, name: string, store: seq<Variable>)
    requires |name| > 0 && NoWhitespace(name) && !IsDigit(name[0])
    requires !Quoted(name, '"') && !Quoted(name, '\'')
    requires name != "true" && name != "false"
    ensures ExtractData(fl, name, store) ==
      match Lookup(store, name)
      case Some(v) => Ok(Some(v))
      case None => Err("variable '" + name + "' unrecognised")
  {
    TrimmedAlready(name);
    SplitWhitespaceOfWord(name);
    assert Evaluate(fl, name, store) == Reference(store, name);
  }

  /** A leading minus sign is not part of any literal: `-` followed by digits is looked
      up as a variable name. */
  lemma NegativeNumberIsAName(fl: FloatOps, name: string, digits: string, store: seq<Variable>)
    requires |digits| > 0 && AllDigits(digits) && name == "-" + digits
    ensures ExtractData(fl, name, store) ==
      match Lookup(store, name)
      case Some(v) => Ok(Some(v))
      case None => Err("variable '" + name + "' unrecognised")
  {
    NoWhitespaceDigits(digits);
    assert name[0] == '-' && !IsDigit(name[0]);
    assert name[|name| - 1] == digits[|digits| - 1];
    assert !IsWhitespace(name[|name| - 1]);
    assert NoWhitespace(name) by {
      forall i | 0 <= i < |name|
        ensures !IsWhitespace(name[i])
      {
        if i > 0 {
          assert name[i] == digits[i - 1];
        }
      }
    }
    assert !Quoted(name, '"') && !Quoted(name, '\'');
    assert name != "true" && name != "false" by {
      assert name[0] != 't' && name[0] != 'f';
    }
    VariableReference(fl, name, store);
  }

  /** Text of several whitespace-separated tokens that is no string or char literal is
      evaluated as an arithmetic expression and yields a `float`. */
  lemma ExpressionIsFloat(fl: FloatOps, data: string, store: seq<Variable>)
    requires var d := Trim(data);
      !NoWhitespace(d) && !Quoted(d, '"') && !Quoted(d, '\'')
    ensures ExtractData(fl, data, store) == Expression(fl, store, SplitWhitespace(Trim(data)))
  {
    ExpressionText(Trim(data));
    EvaluateExpression(fl, Trim(data), store);
  }

  /** Trimmed text with whitespace inside is no boolean literal and has several tokens. */
  lemma ExpressionText(d: string)
    requires d == [] || (!IsWhitespace(d[0]) && !IsWhitespace(d[|d| - 1]))
    requires !NoWhitespace(d)
    ensures d != [] && d != "true" && d != "false" && |SplitWhitespace(d)| > 1
  {
    NotBooleanLiteral(d);
    MultipleTokens(d);
  }

  lemma NotBooleanLiteral(d: string)
    requires !NoWhitespace(d)
    ensures d != "true" && d != "false"
  {
    var i :| 0 <= i < |d| && IsWhitespace(d[i]);
    assert d[i] != 't' && d[i] != 'r' && d[i] != 'u' && d[i] != 'e';
    assert d[i] != 'f' && d[i] != 'a' && d[i] != 'l' && d[i] != 's';
  }

  /** `Evaluate` on trimmed text of several tokens that is no literal. */
  lemma EvaluateExpression(fl: FloatOps, d: string, store: seq<Variable>)
    requires d != [] && !IsWhitespace(d[0]) && |SplitWhitespace(d)| > 1
    requires !Quoted(d, '"') && !Quoted(d, '\'') && d != "true" && d != "false"
    ensures Evaluate(fl, d, store) == Expression(fl, store, SplitWhitespace(d))
  {
    if IsDigit(d[0]) {
      assert Numeral(fl, store, SplitWhitespace(d)) == Expression(fl, store, SplitWhitespace(d));
    }
  }

  /** Trimmed text with whitespace inside has more than one token. */
  lemma MultipleTokens(d: string)
    requires d != [] && !IsWhitespace(d[0]) && !IsWhitespace(d[|d| - 1]) && !NoWhitespace(d)
    ensures |SplitWhitespace(d)| > 1
  {
    var k := WordLength(d);
    assert k < |d|;
    var rest := TrimStart(d[k..]);
    assert rest != [] by {
      assert !IsWhitespace(d[|d| - 1]);
      assert d[|d| - 1] == d[k..][|d[k..]| - 1];
    }
    assert SplitWhitespace(d) == [d[..k]] + SplitWhitespace(d[k..]);
    assert |SplitWhitespace(d[k..])| > 0 by {
      assert SplitWhitespace(d[k..]) == [rest[..WordLength(rest)]] + SplitWhitespace(rest[WordLength(rest)..]);
    }
  }
}

=== FILE: legacy.dfy ===
/** The older single-file interpreter of `main.rs`: typed declarations (`int x = 10;`),
    `println`, `formatln`, `typeof`, `readline` and `exit`, over a store whose `assign`
    keeps the kind a name was first declared with. */
module Legacy {
  import opened Text
  import opened Numbers
  import Values
  import Store
  import Builtins
  import Commands

  /** `main.rs`'s `DataType`: five kinds. */
  datatype Kind = Int | Float | Str | Char | Bool

  /** `main.rs`'s `Variable`. */
  datatype Binding = Binding(kind: Kind, identifier: string, value: string)

  /** The process: the store, the output so far, the input still to be read, and whether
      `exit` was called. */
  datatype Process = Process(variables: seq<Binding>, stdout: string, stdin: seq<Option<string>>, exited: bool)

  /** `represent_datatype`. */
  function KindName(kind: Kind): (r: string)
    ensures r in {"int", "float", "str", "char", "bool"}
  {
    match kind
    case Bool => "bool"
    case Float => "float"
    case Int => "int"
    case Str => "str"
    case Char => "char"
  }

  /** Distinct kinds are shown differently. */
  lemma KindNameInjective(a: Kind, b: Kind)
    ensures KindName(a) == KindName(b) <==> a == b
  {
  }

  function AsDataType(kind: Kind): Values.DataType {
    match kind
    case Int => Values.Int
    case Float => Values.Float
    case Str => Values.Str
    case Char => Values.Char
    case Bool => Values.Bool
  }

  /** The store seen as the newer interpreter's bindings, for the searches and the
      placeholder substitution the two interpreters share. */
  function Lift(store: seq<Binding>): (r: seq<Values.Variable>)
    ensures |r| == |store|
    ensures forall i :: 0 <= i < |store| ==> r[i].identifier == store[i].identifier && r[i].payload == store[i].value
  {
    seq(|store|, i requires 0 <= i < |store| => Values.Variable(AsDataType(store[i].kind), store[i].identifier, store[i].value))
  }

  /** `find_var`: a copy of the first binding named `id`. */
  function FindVar(store: seq<Binding>, id: string): (r: Option<Binding>)
    ensures r.Some? ==> r.val.identifier == id && r.val in store
    ensures r.None? ==> forall i :: 0 <= i < |store| ==> store[i].identifier != id
  {
    match Store.FindIndex(Lift(store), id)
    case Some(i) => Some(store[i])
    case None => None
  }

  /** `main.rs`'s `assign`: an existing binding takes the new value and keeps its kind; a
      new identifier is appended. */
  function Assign(store: seq<Binding>, b: Binding): (r: seq<Binding>)
    ensures |r| == if FindVar(store, b.identifier).Some? then |store| else |store| + 1
    ensures forall i :: 0 <= i < |store| ==> r[i].identifier == store[i].identifier && r[i].kind == store[i].kind
    ensures forall i :: 0 <= i < |store| && store[i].identifier != b.identifier ==> r[i] == store[i]
    ensures |r| > |store| ==> r[|store|] == b
  {
    match Store.FindIndex(Lift(store), b.identifier)
    case Some(i) => store[i := store[i].(value := b.value)]
    case None => store + [b]
  }

  /** After `assign` the name has the new value under the kind it was first given. */
  lemma AssignKeepsKind(store: seq<Binding>, b: Binding)
    ensures FindVar(Assign(store, b), b.identifier)
         == Some(Binding(if FindVar(store, b.identifier).Some? then FindVar(store, b.identifier).val.kind else b.kind, b.identifier, b.value))
  {
    var s := Assign(store, b);
    match Store.FindIndex(Lift(store), b.identifier)
    case Some(i) =>
      Store.FindIndexIsFirst(Lift(s), b.identifier, i);
    case None =>
      Store.FindIndexIsFirst(Lift(s), b.identifier, |store|);
  }

  /** `assign` leaves every other name's binding as it was. */
  lemma AssignKeepsOthers(store: seq<Binding>, b: Binding, id: string)
    requires id != b.identifier
    ensures FindVar(Assign(store, b), id) == FindVar(store, id)
  {
    var s := Assign(store, b);
    match Store.FindIndex(Lift(store), id)
    case Some(i) =>
      Store.FindIndexIsFirst(Lift(s), id, i);
    case None =>
      assert !Store.Bound(Lift(s), id);
  }

  /** Every name other than `id` is bound as before. */
  ghost predicate KeepsOthers(before: seq<Binding>, after: seq<Binding>, id: string) {
    forall other :: other != id ==> FindVar(after, other) == FindVar(before, other)
  }

  lemma AssignKeepsAllOthers(store: seq<Binding>, b: Binding)
    ensures KeepsOthers(store, Assign(store, b), b.identifier)
  {
    forall other | other != b.identifier
      ensures FindVar(Assign(store, b), other) == FindVar(store, other)
    {
      AssignKeepsOthers(store, b, other);
    }
  }

  /** How one line can change the process: output is only appended to, at most the
      first input line is consumed, and an exit is never undone. */
  predicate Advances(before: Process, after: Process) {
    && before.stdout <= after.stdout
    && (after.stdin == before.stdin || (before.stdin != [] && after.stdin == before.stdin[1..]))
    && (before.exited ==> after.exited)
  }

  // ---------------------------------------------------------------------------
  // Output

  function Throw(st: Process, message: string, function_name: string, input_name: string, line_number: int): (r: Process)
    ensures r.variables == st.variables && r.stdin == st.stdin && r.exited == st.exited
    ensures r.stdout == st.stdout + Commands.ErrorLine(message, function_name, input_name, line_number)
    ensures |r.stdout| > |st.stdout| && Advances(st, r)
  {
    st.(stdout := st.stdout + Commands.ErrorLine(message, function_name, input_name, line_number))
  }

  function Print(st: Process, text: string): (r: Process)
    ensures r.variables == st.variables && r.stdin == st.stdin && r.exited == st.exited
    ensures r.stdout == st.stdout + text + "\n"
    ensures Advances(st, r)
  {
    st.(stdout := st.stdout + text + "\n")
  }

  /** Binding prints nothing, reads nothing, gives the name the new value and keeps
      every other name. */
  function Bind(st: Process, b: Binding): (r: Process)
    ensures r.stdout == st.stdout && r.stdin == st.stdin && r.exited == st.exited
    ensures FindVar(r.variables, b.identifier).Some? && FindVar(r.variables, b.identifier).val.value == b.value
    ensures KeepsOthers(st.variables, r.variables, b.identifier)
  {
    AssignKeepsKind(st.variables, b);
    AssignKeepsAllOthers(st.variables, b);
    st.(variables := Assign(st.variables, b))
  }

  // ---------------------------------------------------------------------------
  // Declarations

  /** The value of `int x = <v>;`: the last token without its trailing semicolons. */
  function Value(tokens: seq<string>): string
    requires |tokens| == 4
  {
    TrimEndMatches(tokens[3], ';')
  }

  /** `int <name> = <value>;`: stored as written if it parses as an `i32`. */
  function DeclareInt(st: Process, tokens: seq<string>, input_name: string, line_number: int): (r: Process)
    ensures r.stdin == st.stdin && r.exited == st.exited && Advances(st, r)
    ensures |tokens| >= 2 ==> KeepsOthers(st.variables, r.variables, tokens[1])
    ensures r.stdout == st.stdout <==> |tokens| == 4 && tokens[2] == "=" && ParseI32(Value(tokens)).Some?
    ensures r.stdout == st.stdout ==> FindVar(r.variables, tokens[1]).Some? && FindVar(r.variables, tokens[1]).val.value == Value(tokens)
    ensures r.stdout != st.stdout ==> r.variables == st.variables
    ensures |tokens| != 4 ==> r == Throw(st, "improper amount of tokens (!= 4)", "int", input_name, line_number)
    ensures |tokens| == 4 && tokens[2] != "=" ==> r == Throw(st, "assignment operator (=) not found", "int", input_name, line_number)
    ensures |tokens| == 4 && tokens[2] == "=" && ParseI32(Value(tokens)).None? ==> r == Throw(st, "'" + Value(tokens) + "' is not an integer", "int", input_name, line_number)
  {
    if |tokens| != 4 then Throw(st, "improper amount of tokens (!= 4)", "int", input_name, line_number)
    else if tokens[2] != "=" then Throw(st, "assignment operator (=) not found", "int", input_name, line_number)
    else if ParseI32(Value(tokens)).Some? then Bind(st, Binding(Int, tokens[1], Value(tokens)))
    else Throw(st, "'" + Value(tokens) + "' is not an integer", "int", input_name, line_number)
  }

  /** `float <name> = <value>;`: stored as written if it parses as an `f32` and contains a
      decimal point. */
  function DeclareFloat(st: Process, tokens: seq<string>, input_name: string, line_number: int): (r: Process)
    ensures r.stdin == st.stdin && r.exited == st.exited && Advances(st, r)
    ensures |tokens| >= 2 ==> KeepsOthers(st.variables, r.variables, tokens[1])
    ensures r.stdout == st.stdout <==> |tokens| == 4 && tokens[2] == "=" && FloatSyntax(Value(tokens)) && '.' in Value(tokens)
    ensures r.stdout == st.stdout ==> FindVar(r.variables, tokens[1]).Some? && FindVar(r.variables, tokens[1]).val.value == Value(tokens)
    ensures r.stdout != st.stdout ==> r.variables == st.variables
    ensures |tokens| != 4 ==> r == Throw(st, "improper amount of tokens (!= 4)", "float", input_name, line_number)
    ensures |tokens| == 4 && tokens[2] != "=" ==> r == Throw(st, "assignment operator (=) not found", "float", input_name, line_number)
    ensures |tokens| == 4 && tokens[2] == "=" && !FloatSyntax(Value(tokens)) ==>
      r == Throw(st, "'" + Value(tokens) + "' is not a float", "float", input_name, line_number)
    ensures |tokens| == 4 && tokens[2] == "=" && FloatSyntax(Value(tokens)) && '.' !in Value(tokens) ==>
      r == Throw(st, "'" + tokens[1] + "' does not contain a floating point", "float", input_name, line_number)
  {
    if |tokens| != 4 then Throw(st, "improper amount of tokens (!= 4)", "float", input_name, line_number)
    else if tokens[2] != "=" then Throw(st, "assignment operator (=) not found", "float", input_name, line_number)
    else if !FloatSyntax(Value(tokens)) then Throw(st, "'" + Value(tokens) + "' is not a float", "float", input_name, line_number)
    else if '.' in Value(tokens) then Bind(st, Binding(Float, tokens[1], Value(tokens)))
    else Throw(st, "'" + tokens[1] + "' does not contain a floating point", "float", input_name, line_number)
  }

  /** The text of `str <name> = "<text>";`: leading `"` and trailing `";` removed. */
  function StrValue(tokens: seq<string>): string
    requires |tokens| >= 4
  {
    TrimEndMatchesStr(TrimStartMatches(Join(tokens[3..], " "), '"'), "\";")
  }

  /** `str <name> = "<text>";`. */
  function DeclareStr(st: Process, tokens: seq<string>, input_name: string, line_number: int): (r: Process)
    ensures r.stdin == st.stdin && r.exited == st.exited && Advances(st, r)
    ensures |tokens| >= 2 ==> KeepsOthers(st.variables, r.variables, tokens[1])
    ensures r.stdout == st.stdout <==> |tokens| >= 4 && tokens[2] == "="
    ensures r.stdout == st.stdout ==> FindVar(r.variables, tokens[1]).Some? && FindVar(r.variables, tokens[1]).val.value == StrValue(tokens)
    ensures r.stdout != st.stdout ==> r.variables == st.variables
    ensures |tokens| < 4 ==> r == Throw(st, "improper amount of tokens (!>= 4)", "str", input_name, line_number)
    ensures |tokens| >= 4 && tokens[2] != "=" ==> r == Throw(st, "assignment operator (=) not found", "str", input_name, line_number)
  {
    if |tokens| < 4 then Throw(st, "improper amount of tokens (!>= 4)", "str", input_name, line_number)
    else if tokens[2] != "=" then Throw(st, "assignment operator (=) not found", "str", input_name, line_number)
    else Bind(st, Binding(Str, tokens[1], StrValue(tokens)))
  }

  /** The text of `char <name> = '<c>';`: leading `'` and trailing `';` removed. */
  function CharValue(tokens: seq<string>): string
    requires |tokens| == 4
  {
    TrimEndMatchesStr(TrimStartMatches(tokens[3], '\''), "';")
  }

  /** `char <name> = '<c>';`: stored if exactly one character is left. */
  function DeclareChar(st: Process, tokens: seq<string>, input_name: string, line_number: int): (r: Process)
    ensures r.stdin == st.stdin && r.exited == st.exited && Advances(st, r)
    ensures |tokens| >= 2 ==> KeepsOthers(st.variables, r.variables, tokens[1])
    ensures r.stdout == st.stdout <==> |tokens| == 4 && tokens[2] == "=" && IsOneChar(CharValue(tokens))
    ensures r.stdout == st.stdout ==> FindVar(r.variables, tokens[1]).Some? && FindVar(r.variables, tokens[1]).val.value == CharValue(tokens)
    ensures r.stdout != st.stdout ==> r.variables == st.variables
    ensures |tokens| != 4 ==> r == Throw(st, "improper amount of tokens (!= 4)", "char", input_name, line_number)
    ensures |tokens| == 4 && tokens[2] != "=" ==> r == Throw(st, "assignment operator (=) not found", "char", input_name, line_number)
    ensures |tokens| == 4 && tokens[2] == "=" && !IsOneChar(CharValue(tokens)) ==> r == Throw(st, "'" + CharValue(tokens) + "' is not a char", "char", input_name, line_number)
  {
    if |tokens| != 4 then Throw(st, "improper amount of tokens (!= 4)", "char", input_name, line_number)
    else if tokens[2] != "=" then Throw(st, "assignment operator (=) not found", "char", input_name, line_number)
    else if IsOneChar(CharValue(tokens)) then Bind(st, Binding(Char, tokens[1], CharValue(tokens)))
    else Throw(st, "'" + CharValue(tokens) + "' is not a char", "char", input_name, line_number)
  }

  /** `bool <name> = <value>;`: stored if the value is `true` or `false`. */
  function DeclareBool(st: Process, tokens: seq<string>, input_name: string, line_number: int): (r: Process)
    ensures r.stdin == st.stdin && r.exited == st.exited && Advances(st, r)
    ensures |tokens| >= 2 ==> KeepsOthers(st.variables, r.variables, tokens[1])
    ensures r.stdout == st.stdout <==> |tokens| == 4 && tokens[2] == "=" && ParseBool(Value(tokens)).Some?
    ensures r.stdout == st.stdout ==> FindVar(r.variables, tokens[1]).Some? && FindVar(r.variables, tokens[1]).val.value == Value(tokens)
    ensures r.stdout != st.stdout ==> r.variables == st.variables
    ensures |tokens| != 4 ==> r == Throw(st, "improper amount of tokens (!= 4)", "bool", input_name, line_number)
    ensures |tokens| == 4 && tokens[2] != "=" ==> r == Throw(st, "assignment operator (=) not found", "bool", input_name, line_number)
    ensures |tokens| == 4 && tokens[2] == "=" && ParseBool(Value(tokens)).None? ==> r == Throw(st, "'" + Value(tokens) + "' is not a boolean", "bool", input_name, line_number)
  {
    if |tokens| != 4 then Throw(st, "improper amount of tokens (!= 4)", "bool", input_name, line_number)
    else if tokens[2] != "=" then Throw(st, "assignment operator (=) not found", "bool", input_name, line_number)
    else if ParseBool(Value(tokens)).Some? then Bind(st, Binding(Bool, tokens[1], Value(tokens)))
    else Throw(st, "'" + Value(tokens) + "' is not a boolean", "bool", input_name, line_number)
  }

  // ---------------------------------------------------------------------------
  // Output commands

  /** The name inside `(<name>);`. */
  function Argument(token: string): string {
    TrimEndMatchesStr(TrimStartMatches(token, '('), ");")
  }

  /** `println (<name>);`: print a variable's value; `println ();` prints an empty line. */
  function Println(st: Process, tokens: seq<string>, input_name: string, line_number: int): (r: Process)
    ensures r.variables == st.variables && r.stdin == st.stdin && r.exited == st.exited && Advances(st, r)
    ensures |tokens| != 2 ==> r == Throw(st, "no argument provided", "println", input_name, line_number)
    ensures |tokens| == 2 && Argument(tokens[1]) == [] ==> r == Print(st, "")
    ensures |tokens| == 2 && Argument(tokens[1]) != [] ==>
      var found := FindVar(st.variables, Argument(tokens[1]));
      && (found.Some? ==> r == Print(st, found.val.value))
      && (found.None? ==> r == Throw(st, "variable '" + Argument(tokens[1]) + "' unrecognised", "println", input_name, line_number))
  {
    if |tokens| != 2 then Throw(st, "no argument provided", "println", input_name, line_number)
    else if Argument(tokens[1]) == [] then Print(st, "")
    else match FindVar(st.variables, Argument(tokens[1]))
      case Some(v) => Print(st, v.value)
      case None => Throw(st, "variable '" + Argument(tokens[1]) + "' unrecognised", "println", input_name, line_number)
  }

  /** The text of `formatln ("<text>");`. */
  function FormatText(tokens: seq<string>): string
    requires |tokens| >= 2
  {
    TrimEndMatchesStr(TrimStartMatchesStr(Join(tokens[1..], " "), "(\""), "\");")
  }

  /** `formatln ("<text>");`: print the text with each `{name}` replaced by the value. */
  function Formatln(st: Process, tokens: seq<string>, input_name: string, line_number: int): (r: Process)
    ensures r.variables == st.variables && r.stdin == st.stdin && r.exited == st.exited && Advances(st, r)
    ensures |tokens| < 2 ==> r == Throw(st, "improper amount of tokens (!>= 2)", "formatln", input_name, line_number)
    ensures |tokens| >= 2 ==> r == Print(st, Builtins.Formatted(FormatText(tokens), Lift(st.variables)))
  {
    if |tokens| < 2 then Throw(st, "improper amount of tokens (!>= 2)", "formatln", input_name, line_number)
    else Print(st, Builtins.Formatted(FormatText(tokens), Lift(st.variables)))
  }

  /** `typeof (<name>);`: print a variable's kind. */
  function TypeOf(st: Process, tokens: seq<string>, input_name: string, line_number: int): (r: Process)
    ensures r.variables == st.variables && r.stdin == st.stdin && r.exited == st.exited && Advances(st, r)
    ensures |tokens| != 2 ==> r == Throw(st, "no argument provided", "typeof", input_name, line_number)
    ensures |tokens| == 2 && Argument(tokens[1]) == [] ==>
      r == Throw(st, "improper amount of tokens (!= 2)", "typeof", input_name, line_number)
    ensures |tokens| == 2 && Argument(tokens[1]) != [] ==>
      var found := FindVar(st.variables, Argument(tokens[1]));
      && (found.Some? ==> r == Print(st, KindName(found.val.kind)))
      && (found.None? ==> r == Throw(st, "variable '" + Argument(tokens[1]) + "' unrecognised", "typeof", input_name, line_number))
  {
    if |tokens| != 2 then Throw(st, "no argument provided", "typeof", input_name, line_number)
    else if Argument(tokens[1]) == [] then Throw(st, "improper amount of tokens (!= 2)", "typeof", input_name, line_number)
    else match FindVar(st.variables, Argument(tokens[1]))
      case Some(v) => Print(st, KindName(v.kind))
      case None => Throw(st, "variable '" + Argument(tokens[1]) + "' unrecognised", "typeof", input_name, line_number)
  }

  /** One line of input into the `str` variable `id`; past the end of input the line is
      empty. */
  function ReadInto(st: Process, id: string, input_name: string, line_number: int): (r: Process)
    ensures r.stdin == if st.stdin == [] then [] else st.stdin[1..]
    ensures r.exited == st.exited && Advances(st, r)
    ensures KeepsOthers(st.variables, r.variables, id)
  {
    if st.stdin == [] then Bind(st, Binding(Str, id, ""))
    else match st.stdin[0]
      case Some(text) => Bind(st.(stdin := st.stdin[1..]), Binding(Str, id, TrimEnd(text)))
      case None => Throw(st.(stdin := st.stdin[1..]), "invalid input", "readline", input_name, line_number)
  }

  /** The first argument of `readline (<prompt>, <name>);`. */
  function FirstName(tokens: seq<string>): string
    requires |tokens| == 3
  {
    TrimEndMatches(TrimStartMatches(tokens[1], '('), ',')
  }

  /** The second argument of `readline (<prompt>, <name>);`. */
  function SecondName(tokens: seq<string>): string
    requires |tokens| == 3
  {
    TrimEndMatchesStr(tokens[2], ");")
  }

  /** `readline (<prompt>, <name>);`: both must name `str` variables; the prompt's value
      is printed and a line read into the second. */
  function Readline(st: Process, tokens: seq<string>, input_name: string, line_number: int): (r: Process)
    ensures r.exited == st.exited && Advances(st, r)
    ensures |tokens| == 3 ==> KeepsOthers(st.variables, r.variables, SecondName(tokens))
    ensures |tokens| != 3 ==> r.variables == st.variables && r.stdin == st.stdin
  {
    if |tokens| != 3 then Throw(st, "improper amount of tokens (!= 3)", "readline", input_name, line_number)
    else ReadNamed(st, FirstName(tokens), SecondName(tokens), input_name, line_number)
  }

  /** `readline` once its two arguments are known. */
  function ReadNamed(st: Process, first: string, second: string, input_name: string, line_number: int): (r: Process)
    ensures r.exited == st.exited && Advances(st, r)
    ensures KeepsOthers(st.variables, r.variables, second)
    ensures r.stdin != st.stdin ==>
      FindVar(st.variables, first).Some? && FindVar(st.variables, first).val.kind == Str
      && FindVar(st.variables, second).Some? && FindVar(st.variables, second).val.kind == Str
  {
    match FindVar(st.variables, first)
    case None => Throw(st, "variable '" + first + "' unrecognised", "readline", input_name, line_number)
    case Some(prompt) =>
      if prompt.kind != Str then
        Throw(st, "invalid type: '" + first + "' must be a str", "readline", input_name, line_number)
      else match FindVar(st.variables, second)
        case None => Throw(st, "variable '" + first + "' unrecognised", "readline", input_name, line_number)
        case Some(target) =>
          if target.kind != Str then
            Throw(st, "invalid type: '" + second + "' must be a str", "readline", input_name, line_number)
          else ReadInto(st.(stdout := st.stdout + prompt.value), target.identifier, input_name, line_number)
  }

  /** `exit ();`. */
  function Exit(st: Process, tokens: seq<string>, input_name: string, line_number: int): (r: Process)
    ensures r.variables == st.variables && r.stdin == st.stdin && Advances(st, r)
    ensures r.exited <==> st.exited || (|tokens| == 2 && tokens[1] == "();")
  {
    if |tokens| != 2 then Throw(st, "improper amount of tokens (!= 2)", "exit", input_name, line_number)
    else if tokens[1] == "();" then st.(exited := true)
    else Throw(st, "invalid function call", "exit", input_name, line_number)
  }

  // ---------------------------------------------------------------------------
  // The dispatcher

  /** The commands the legacy `interpret` knows by name. */
  predicate Known(command: string) {
    command in {"int", "float", "str", "char", "bool", "println", "formatln", "typeof", "readline", "exit"}
  }

  function Command(st: Process, tokens: seq<string>, input_name: string, line_number: int): (r: Process)
    requires tokens != [] && Known(tokens[0])
    ensures Advances(st, r)
  {
    match tokens[0]
    case "int" => DeclareInt(st, tokens, input_name, line_number)
    case "float" => DeclareFloat(st, tokens, input_name, line_number)
    case "str" => DeclareStr(st, tokens, input_name, line_number)
    case "char" => DeclareChar(st, tokens, input_name, line_number)
    case "bool" => DeclareBool(st, tokens, input_name, line_number)
    case "println" => Println(st, tokens, input_name, line_number)
    case "formatln" => Formatln(st, tokens, input_name, line_number)
    case "typeof" => TypeOf(st, tokens, input_name, line_number)
    case "readline" => Readline(st, tokens, input_name, line_number)
    case _ => Exit(st, tokens, input_name, line_number)
  }

  /** The line `interpret` prints for a command it does not know: it starts with the
      input's name and ends with the whole line. */
  function Unknown(tokens: seq<string>, input_name: string, line_number: int): (r: string)
    ensures input_name <= r
    ensures |Join(tokens, " ")| <= |r| && r[|r| - |Join(tokens, " ")|..] == Join(tokens, " ")
  {
    input_name + ":" + ShowInt(line_number) + ": unknown function: " + Join(tokens, " ")
  }

  /** The legacy `match tokens[0]`: the tokens keep the whole line, command included. */
  function Dispatch(st: Process, tokens: seq<string>, input_name: string, line_number: int): (r: Process)
    requires tokens != []
    ensures Advances(st, r)
  {
    if Known(tokens[0]) then Command(st, tokens, input_name, line_number)
    else if tokens[0] == "" || tokens[0] == "#" then st
    else Print(st, Unknown(tokens, input_name, line_number))
  }

  /** The legacy `interpret`: the trimmed line split at single spaces, then dispatched,
      unless the process has exited. */
  function AfterInterpret(st: Process, line: string, input_name: string, line_number: int): (r: Process)
    ensures st.exited ==> r == st
    ensures Advances(st, r)
  {
    if st.exited then st
    else Dispatch(st, Split(Trim(line), " "), input_name, line_number)
  }

  // ---------------------------------------------------------------------------
  // Properties

  /** A declared `int` keeps the text as written (a leading `+` or zeros included), not
      the number it denotes. */
  lemma IntStoredVerbatim(st: Process, tokens: seq<string>, input_name: string, line_number: int)
    requires |tokens| == 4 && tokens[2] == "=" && ParseI32(Value(tokens)).Some?
    requires FindVar(st.variables, tokens[1]).None?
    ensures FindVar(DeclareInt(st, tokens, input_name, line_number).variables, tokens[1]) == Some(Binding(Int, tokens[1], Value(tokens)))
    ensures DeclareInt(st, tokens, input_name, line_number).stdout == st.stdout
  {
    AssignKeepsKind(st.variables, Binding(Int, tokens[1], Value(tokens)));
  }

  /** A declaration that does not parse leaves the store as it was. */
  lemma RejectedDeclarationKeepsStore(st: Process, tokens: seq<string>, input_name: string, line_number: int)
    requires |tokens| == 4 && tokens[2] == "="
    ensures ParseI32(Value(tokens)).None? ==> (DeclareInt(st, tokens, input_name, line_number)
         == Throw(st, "'" + Value(tokens) + "' is not an integer", "int", input_name, line_number))
    ensures !FloatSyntax(Value(tokens)) ==> (DeclareFloat(st, tokens, input_name, line_number)
         == Throw(st, "'" + Value(tokens) + "' is not a float", "float", input_name, line_number))
    ensures ParseBool(Value(tokens)).None? ==> (DeclareBool(st, tokens, input_name, line_number)
         == Throw(st, "'" + Value(tokens) + "' is not a boolean", "bool", input_name, line_number))
    ensures !IsOneChar(CharValue(tokens)) ==> (DeclareChar(st, tokens, input_name, line_number)
         == Throw(st, "'" + CharValue(tokens) + "' is not a char", "char", input_name, line_number))
  {
  }

  /** A `float` must contain a decimal point even when it parses; the error names the
      variable, not the value. */
  lemma FloatNeedsPoint(st: Process, tokens: seq<string>, input_name: string, line_number: int)
    requires |tokens| == 4 && tokens[2] == "="
    ensures FloatSyntax(Value(tokens)) && '.' in Value(tokens) ==>
      DeclareFloat(st, tokens, input_name, line_number).variables == Assign(st.variables, Binding(Float, tokens[1], Value(tokens)))
    ensures FloatSyntax(Value(tokens)) && '.' !in Value(tokens) ==>
      DeclareFloat(st, tokens, input_name, line_number)
      == Throw(st, "'" + tokens[1] + "' does not contain a floating point", "float", input_name, line_number)
  {
  }

  /** A `bool` declaration takes exactly the texts `true` and `false`. */
  lemma BoolDeclaration(st: Process, tokens: seq<string>, input_name: string, line_number: int)
    requires |tokens| == 4 && tokens[2] == "="
    ensures DeclareBool(st, tokens, input_name, line_number).stdout == st.stdout
        <==> Value(tokens) == "true" || Value(tokens) == "false"
  {
    if Value(tokens) != "true" && Value(tokens) != "false" {
      assert DeclareBool(st, tokens, input_name, line_number).stdout
          == st.stdout + Commands.ErrorLine("'" + Value(tokens) + "' is not a boolean", "bool", input_name, line_number);
    }
  }

  /** A `char` declaration takes exactly one character between the quotes. */
  lemma CharDeclaration(st: Process, tokens: seq<string>, input_name: string, line_number: int)
    requires |tokens| == 4 && tokens[2] == "="
    ensures DeclareChar(st, tokens, input_name, line_number).stdout == st.stdout <==> |CharValue(tokens)| == 1
  {
    if |CharValue(tokens)| != 1 {
      assert DeclareChar(st, tokens, input_name, line_number).stdout
          == st.stdout + Commands.ErrorLine("'" + CharValue(tokens) + "' is not a char", "char", input_name, line_number);
    }
  }

  /** Once `=` is in place, a `str` declaration always binds its text. */
  lemma StrNeverFails(st: Process, tokens: seq<string>, input_name: string, line_number: int)
    requires |tokens| >= 4 && tokens[2] == "="
    ensures FindVar(DeclareStr(st, tokens, input_name, line_number).variables, tokens[1]).Some?
    ensures FindVar(DeclareStr(st, tokens, input_name, line_number).variables, tokens[1]).val.value == StrValue(tokens)
    ensures DeclareStr(st, tokens, input_name, line_number).stdout == st.stdout
  {
    AssignKeepsKind(st.variables, Binding(Str, tokens[1], StrValue(tokens)));
  }

  /** Redeclaring a name under another kind changes its value and keeps the first kind. */
  lemma RedeclarationKeepsKind(st: Process, tokens: seq<string>, previous: Binding, input_name: string, line_number: int)
    requires |tokens| >= 4 && tokens[2] == "="
    requires FindVar(st.variables, tokens[1]) == Some(previous)
    ensures FindVar(DeclareStr(st, tokens, input_name, line_number).variables, tokens[1])
         == Some(Binding(previous.kind, tokens[1], StrValue(tokens)))
  {
    AssignKeepsKind(st.variables, Binding(Str, tokens[1], StrValue(tokens)));
  }

  /** `typeof` prints the kind name of a declared variable. */
  lemma TypeOfPrintsKind(st: Process, tokens: seq<string>, v: Binding, input_name: string, line_number: int)
    requires |tokens| == 2 && Argument(tokens[1]) != [] && FindVar(st.variables, Argument(tokens[1])) == Some(v)
    ensures TypeOf(st, tokens, input_name, line_number) == st.(stdout := st.stdout + KindName(v.kind) + "\n")
  {
  }

  /** When the second `readline` argument is not declared, the message names the first
      argument. */
  lemma ReadlineNamesFirstArgument(st: Process, tokens: seq<string>, prompt: Binding, input_name: string, line_number: int)
    requires |tokens| == 3
    requires FindVar(st.variables, FirstName(tokens)) == Some(prompt) && prompt.kind == Str
    requires FindVar(st.variables, SecondName(tokens)).None?
    ensures Readline(st, tokens, input_name, line_number)
         == Throw(st, "variable '" + FirstName(tokens) + "' unrecognised", "readline", input_name, line_number)
  {
  }

  /** With two `str` variables, `readline` prints the first's value and stores the line
      read, without trailing whitespace, in the second. */
  lemma ReadlineReadsLine(st: Process, tokens: seq<string>, prompt: Binding, target: Binding, text: string, input_name: string, line_number: int)
    requires |tokens| == 3
    requires FindVar(st.variables, FirstName(tokens)) == Some(prompt) && prompt.kind == Str
    requires FindVar(st.variables, SecondName(tokens)) == Some(target) && target.kind == Str
    requires st.stdin != [] && st.stdin[0] == Some(text)
    ensures Readline(st, tokens, input_name, line_number).stdout == st.stdout + prompt.value
    ensures Readline(st, tokens, input_name, line_number).stdin == st.stdin[1..]
    ensures FindVar(Readline(st, tokens, input_name, line_number).variables, target.identifier)
         == Some(Binding(Str, target.identifier, TrimEnd(text)))
  {
    AssignKeepsKind(st.variables, Binding(Str, target.identifier, TrimEnd(text)));
  }

  /** `exit ();` ends the process; after it no line has an effect. */
  lemma ExitEnds(st: Process, tokens: seq<string>, line: string, input_name: string, line_number: int)
    requires |tokens| == 2 && tokens[1] == "();"
    ensures Exit(st, tokens, input_name, line_number) == st.(exited := true)
    ensures AfterInterpret(st.(exited := true), line, input_name, line_number) == st.(exited := true)
  {
  }

  /** Each known command runs its own handler on the whole line, command included,
      with the same store, input name and line number. */
  lemma DispatchRoutes(st: Process, tokens: seq<string>, input_name: string, line_number: int)
    requires tokens != []
    ensures tokens[0] == "int" ==> Dispatch(st, tokens, input_name, line_number) == DeclareInt(st, tokens, input_name, line_number)
    ensures tokens[0] == "float" ==> Dispatch(st, tokens, input_name, line_number) == DeclareFloat(st, tokens, input_name, line_number)
    ensures tokens[0] == "str" ==> Dispatch(st, tokens, input_name, line_number) == DeclareStr(st, tokens, input_name, line_number)
    ensures tokens[0] == "char" ==> Dispatch(st, tokens, input_name, line_number) == DeclareChar(st, tokens, input_name, line_number)
    ensures tokens[0] == "bool" ==> Dispatch(st, tokens, input_name, line_number) == DeclareBool(st, tokens, input_name, line_number)
    ensures tokens[0] == "println" ==> Dispatch(st, tokens, input_name, line_number) == Println(st, tokens, input_name, line_number)
    ensures tokens[0] == "formatln" ==> Dispatch(st, tokens, input_name, line_number) == Formatln(st, tokens, input_name, line_number)
    ensures tokens[0] == "typeof" ==> Dispatch(st, tokens, input_name, line_number) == TypeOf(st, tokens, input_name, line_number)
    ensures tokens[0] == "readline" ==> Dispatch(st, tokens, input_name, line_number) == Readline(st, tokens, input_name, line_number)
    ensures tokens[0] == "exit" ==> Dispatch(st, tokens, input_name, line_number) == Exit(st, tokens, input_name, line_number)
  {
    if tokens[0] == "int" {
      assert Command(st, tokens, input_name, line_number) == DeclareInt(st, tokens, input_name, line_number);
    } else if tokens[0] == "float" {
      assert Command(st, tokens, input_name, line_number) == DeclareFloat(st, tokens, input_name, line_number);
    } else if tokens[0] == "str" {
      assert Command(st, tokens, input_name, line_number) == DeclareStr(st, tokens, input_name, line_number);
    } else if tokens[0] == "char" {
      assert Command(st, tokens, input_name, line_number) == DeclareChar(st, tokens, input_name, line_number);
    } else if tokens[0] == "bool" {
      assert Command(st, tokens, input_name, line_number) == DeclareBool(st, tokens, input_name, line_number);
    } else if tokens[0] == "println" {
      assert Command(st, tokens, input_name, line_number) == Println(st, tokens, input_name, line_number);
    } else if tokens[0] == "formatln" {
      assert Command(st, tokens, input_name, line_number) == Formatln(st, tokens, input_name, line_number);
    } else if tokens[0] == "typeof" {
      assert Command(st, tokens, input_name, line_number) == TypeOf(st, tokens, input_name, line_number);
    } else if tokens[0] == "readline" {
      assert Command(st, tokens, input_name, line_number) == Readline(st, tokens, input_name, line_number);
    } else if tokens[0] == "exit" {
      assert Command(st, tokens, input_name, line_number) == Exit(st, tokens, input_name, line_number);
    }
  }

  /** An empty first token or `#` does nothing; any other unknown command is reported
      and changes nothing else. */
  lemma UnknownCommand(st: Process, tokens: seq<string>, input_name: string, line_number: int)
    requires tokens != [] && !Known(tokens[0])
    ensures tokens[0] == "" || tokens[0] == "#" ==> Dispatch(st, tokens, input_name, line_number) == st
    ensures tokens[0] != "" && tokens[0] != "#" ==>
      Dispatch(st, tokens, input_name, line_number).variables == st.variables
      && Dispatch(st, tokens, input_name, line_number).stdout
         == st.stdout + input_name + ":" + ShowInt(line_number) + ": unknown function: " + Join(tokens, " ") + "\n"
  {
    var r := Dispatch(st, tokens, input_name, line_number);
    if tokens[0] == "" || tokens[0] == "#" {
      assert r == st;
    } else {
      var text := Unknown(tokens, input_name, line_number);
      assert r == Print(st, text);
      MessageAppended(st.stdout, input_name, ShowInt(line_number), Join(tokens, " "));
    }
  }

  lemma MessageAppended(out: string, input_name: string, line: string, text: string)
    ensures out + (input_name + ":" + line + ": unknown function: " + text) + "\n"
         == out + input_name + ":" + line + ": unknown function: " + text + "\n"
  {
  }

  /** `formatln` without a placeholder prints its text as it stands. */
  lemma FormatlnPlainText(st: Process, tokens: seq<string>, input_name: string, line_number: int)
    requires |tokens| >= 2 && '{' !in FormatText(tokens)
    ensures Formatln(st, tokens, input_name, line_number) == st.(stdout := st.stdout + FormatText(tokens) + "\n")
  {
    Builtins.NoPlaceholderUnchanged(FormatText(tokens), Lift(st.variables), |st.variables|);
  }

  // ---------------------------------------------------------------------------
  // The interpreter as the source runs it

  class Interpreter {
    var variables: seq<Binding>
    var stdout: string
    var stdin: seq<Option<string>>
    var exited: bool

    function Snapshot(): Process
      reads this
    {
      Process(variables, stdout, stdin, exited)
    }

    constructor(input: seq<Option<string>>)
      ensures Snapshot() == Process([], "", input, false)
    {
      variables := [];
      stdout := "";
      stdin := input;
      exited := false;
    }

    /** `assign`: `iter_mut().find`, then overwrite the value or push. */
    method Assign(b: Binding)
      modifies this
      ensures Snapshot() == Bind(old(Snapshot()), b)
    {
      var i := 0;
      while i < |variables| && variables[i].identifier != b.identifier
        invariant 0 <= i <= |variables|
        invariant forall j :: 0 <= j < i ==> variables[j].identifier != b.identifier
      {
        i := i + 1;
      }
      if i < |variables| {
        Store.FindIndexIsFirst(Lift(variables), b.identifier, i);
        variables := variables[i := variables[i].(value := b.value)];
      } else {
        assert !Store.Bound(Lift(variables), b.identifier);
        variables := variables + [b];
      }
    }

    method ThrowError(message: string, function_name: string, input_name: string, line_number: int)
      modifies this
      ensures Snapshot() == Throw(old(Snapshot()), message, function_name, input_name, line_number)
    {
      stdout := stdout + Commands.ErrorLine(message, function_name, input_name, line_number);
    }

    method PrintLine(text: string)
      modifies this
      ensures Snapshot() == Print(old(Snapshot()), text)
    {
      stdout := stdout + text + "\n";
    }

    /** The `int`, `float`, `char` and `bool` declarations. */
    method Declare(tokens: seq<string>, input_name: string, line_number: int)
      requires tokens != [] && tokens[0] in {"int", "float", "char", "bool"}
      modifies this
      ensures tokens[0] == "int" ==> Snapshot() == DeclareInt(old(Snapshot()), tokens, input_name, line_number)
      ensures tokens[0] == "float" ==> Snapshot() == DeclareFloat(old(Snapshot()), tokens, input_name, line_number)
      ensures tokens[0] == "char" ==> Snapshot() == DeclareChar(old(Snapshot()), tokens, input_name, line_number)
      ensures tokens[0] == "bool" ==> Snapshot() == DeclareBool(old(Snapshot()), tokens, input_name, line_number)
    {
      var command := tokens[0];
      if |tokens| != 4 {
        ThrowError("improper amount of tokens (!= 4)", command, input_name, line_number);
        return;
      }
      if tokens[2] != "=" {
        ThrowError("assignment operator (=) not found", command, input_name, line_number);
        return;
      }
      var identifier := tokens[1];
      if command == "char" {
        var value := CharValue(tokens);
        if IsOneChar(value) {
          Assign(Binding(Char, identifier, value));
        } else {
          ThrowError("'" + value + "' is not a char", "char", input_name, line_number);
        }
        return;
      }
      var value := TrimEndMatches(tokens[3], ';');
      if command == "int" {
        if ParseI32(value).Some? {
          Assign(Binding(Int, identifier, value));
        } else {
          ThrowError("'" + value + "' is not an integer", "int", input_name, line_number);
        }
      } else if command == "float" {
        if !FloatSyntax(value) {
          ThrowError("'" + value + "' is not a float", "float", input_name, line_number);
        } else if '.' in value {
          Assign(Binding(Float, identifier, value));
        } else {
          ThrowError("'" + identifier + "' does not contain a floating point", "float", input_name, line_number);
        }
      } else {
        if ParseBool(value).Some? {
          Assign(Binding(Bool, identifier, value));
        } else {
          ThrowError("'" + value + "' is not a boolean", "bool", input_name, line_number);
        }
      }
    }

    /** `str <name> = "<text>";`. */
    method DeclareString(tokens: seq<string>, input_name: string, line_number: int)
      modifies this
      ensures Snapshot() == DeclareStr(old(Snapshot()), tokens, input_name, line_number)
    {
      if |tokens| < 4 {
        ThrowError("improper amount of tokens (!>= 4)", "str", input_name, line_number);
      } else if tokens[2] != "=" {
        ThrowError("assignment operator (=) not found", "str", input_name, line_number);
      } else {
        Assign(Binding(Str, tokens[1], StrValue(tokens)));
      }
    }

    /** `formatln`, with the placeholder loop. */
    method FormatLine(tokens: seq<string>, input_name: string, line_number: int)
      modifies this
      ensures Snapshot() == Formatln(old(Snapshot()), tokens, input_name, line_number)
    {
      if |tokens| < 2 {
        ThrowError("improper amount of tokens (!>= 2)", "formatln", input_name, line_number);
      } else {
        var result := Builtins.Substitute(FormatText(tokens), Lift(variables));
        PrintLine(result);
      }
    }

    /** `readline`, reading one line of input. */
    method ReadLine(tokens: seq<string>, input_name: string, line_number: int)
      modifies this
      ensures Snapshot() == Readline(old(Snapshot()), tokens, input_name, line_number)
    {
      if |tokens| != 3 {
        ThrowError("improper amount of tokens (!= 3)", "readline", input_name, line_number);
        return;
      }
      ReadArguments(FirstName(tokens), SecondName(tokens), input_name, line_number);
    }

    /** `readline` once its two arguments are known. */
    method ReadArguments(first: string, second: string, input_name: string, line_number: int)
      modifies this
      ensures Snapshot() == ReadNamed(old(Snapshot()), first, second, input_name, line_number)
    {
      var prompt := FindVar(variables, first);
      if prompt.None? {
        ThrowError("variable '" + first + "' unrecognised", "readline", input_name, line_number);
        return;
      }
      if prompt.val.kind != Str {
        ThrowError("invalid type: '" + first + "' must be a str", "readline", input_name, line_number);
        return;
      }
      var target := FindVar(variables, second);
      if target.None? {
        ThrowError("variable '" + first + "' unrecognised", "readline", input_name, line_number);
        return;
      }
      if target.val.kind != Str {
        ThrowError("invalid type: '" + second + "' must be a str", "readline", input_name, line_number);
        return;
      }
      stdout := stdout + prompt.val.value;
      Read(target.val.identifier, input_name, line_number);
    }

    /** One line of input into the `str` variable `id`. */
    method Read(id: string, input_name: string, line_number: int)
      modifies this
      ensures Snapshot() == ReadInto(old(Snapshot()), id, input_name, line_number)
    {
      if stdin == [] {
        Assign(Binding(Str, id, ""));
        return;
      }
      var read := stdin[0];
      stdin := stdin[1..];
      match read
      case Some(text) => Assign(Binding(Str, id, TrimEnd(text)));
      case None => ThrowError("invalid input", "readline", input_name, line_number);
    }

    /** `println` and `typeof`: look up the argument and print its value or its kind. */
    method Show(tokens: seq<string>, input_name: string, line_number: int)
      requires tokens != [] && tokens[0] in {"println", "typeof"}
      modifies this
      ensures tokens[0] == "println" ==> Snapshot() == Println(old(Snapshot()), tokens, input_name, line_number)
      ensures tokens[0] == "typeof" ==> Snapshot() == TypeOf(old(Snapshot()), tokens, input_name, line_number)
    {
      var command := tokens[0];
      if |tokens| != 2 {
        ThrowError("no argument provided", command, input_name, line_number);
        return;
      }
      var argument := Argument(tokens[1]);
      if argument == [] {
        if command == "println" {
          PrintLine("");
        } else {
          ThrowError("improper amount of tokens (!= 2)", "typeof", input_name, line_number);
        }
        return;
      }
      var found := FindVar(variables, argument);
      match found
      case Some(v) =>
        if command == "println" {
          PrintLine(v.value);
        } else {
          PrintLine(KindName(v.kind));
        }
      case None =>
        ThrowError("variable '" + argument + "' unrecognised", command, input_name, line_number);
    }

    /** `exit ();`. */
    method Stop(tokens: seq<string>, input_name: string, line_number: int)
      modifies this
      ensures Snapshot() == Exit(old(Snapshot()), tokens, input_name, line_number)
    {
      if |tokens| != 2 {
        ThrowError("improper amount of tokens (!= 2)", "exit", input_name, line_number);
      } else if tokens[1] == "();" {
        exited := true;
      } else {
        ThrowError("invalid function call", "exit", input_name, line_number);
      }
    }

    /** The legacy `interpret`. */
    method Interpret(line: string, input_name: string, line_number: int)
      modifies this
      ensures Snapshot() == AfterInterpret(old(Snapshot()), line, input_name, line_number)
    {
      if exited {
        return;
      }
      var tokens := Split(Trim(line), " ");
      ghost var before := Snapshot();
      match tokens[0]
      case "int" => Declare(tokens, input_name, line_number);
      case "float" => Declare(tokens, input_name, line_number);
      case "str" => DeclareString(tokens, input_name, line_number);
      case "char" => Declare(tokens, input_name, line_number);
      case "bool" => Declare(tokens, input_name, line_number);
      case "println" => Show(tokens, input_name, line_number);
      case "formatln" => FormatLine(tokens, input_name, line_number);
      case "typeof" => Show(tokens, input_name, line_number);
      case "readline" => ReadLine(tokens, input_name, line_number);
      case "exit" => Stop(tokens, input_name, line_number);
      case _ =>
        if tokens[0] != "" && tokens[0] != "#" {
          PrintLine(Unknown(tokens, input_name, line_number));
        }
        assert Snapshot() == Dispatch(before, tokens, input_name, line_number);
    }
  }
}

=== FILE: numbers.dfy ===
/** Number syntax: Rust's `i32` parsing and printing, exactly, and Rust's `f32`
    parsing with its syntax exact and its value abstract. */
module Numbers {
  import opened Text

  const I32Min: int := -0x8000_0000
  const I32Max: int := 0x7fff_ffff

  predicate IsDigit(c: char) {
    '0' <= c <= '9'
  }

  predicate AllDigits(s: string) {
    forall i :: 0 <= i < |s| ==> IsDigit(s[i])
  }

  /** The value of a string of decimal digits. */
  function DigitsValue(s: string): (n: nat)
    requires AllDigits(s)
  {
    if s == [] then 0 else 10 * DigitsValue(s[..|s| - 1]) + (s[|s| - 1] as int - '0' as int)
  }

  predicate InI32(n: int) {
    I32Min <= n <= I32Max
  }

  function Signed(negative: bool, n: int): int {
    if negative then -n else n
  }

  /** The text after an optional leading `+` or `-`. */
  function Unsigned(s: string): (u: string)
    ensures |u| <= |s| && u == s[|s| - |u|..]
  {
    if |s| > 0 && (s[0] == '+' || s[0] == '-') then s[1..] else s
  }

  /** The syntax `i32::from_str` accepts: an optional sign, then one or more decimal
      digits. */
  predicate Decimal(s: string) {
    |Unsigned(s)| > 0 && AllDigits(Unsigned(s))
  }

  /** The integer a `Decimal` text denotes. */
  function SignedValue(s: string): int
    requires Decimal(s)
  {
    Signed(s[0] == '-', DigitsValue(Unsigned(s)))
  }

  /** The digit loop of `i32::from_str`: each digit multiplies the value so far by 10
      and adds (or, after a `-`, subtracts) the digit, with a checked operation that
      fails on leaving the 32-bit range; any other character fails. */
  function Accumulate(acc: int, digits: string, negative: bool): Option<int>
    decreases |digits|
  {
    if digits == [] then Some(acc)
    else if !IsDigit(digits[0]) then None
    else
      var d := digits[0] as int - '0' as int;
      var next := if negative then 10 * acc - d else 10 * acc + d;
      if !InI32(next) then None else Accumulate(next, digits[1..], negative)
  }

  /** `str::parse::<i32>`: `Some` exactly for the `Decimal` texts whose value fits in
      32 bits, and then that value. An empty text and a lone sign are rejected. */
  function ParseI32(s: string): (r: Option<int>)
    ensures r.Some? <==> Decimal(s) && InI32(SignedValue(s))
    ensures r.Some? ==> r.val == SignedValue(s)
  {
    if s == [] then None
    else if (s[0] == '+' || s[0] == '-') && |s| == 1 then None
    else
      AccumulateFromZero(s);
      Accumulate(0, Unsigned(s), s[0] == '-')
  }

  /** The digit loop started at zero on the unsigned part of a text with at least one
      character after its sign computes exactly the text's value, when it fits. */
  lemma AccumulateFromZero(s: string)
    requires s != [] && !((s[0] == '+' || s[0] == '-') && |s| == 1)
    ensures Accumulate(0, Unsigned(s), s[0] == '-') ==
      if Decimal(s) && InI32(SignedValue(s)) then Some(SignedValue(s)) else None
  {
    var u, negative := Unsigned(s), s[0] == '-';
    assert |u| > 0;
    assert DigitsValue([]) == 0 && Signed(negative, 0) == 0 && [] + u == u;
    AccumulateValue([], u, negative);
  }

  /** Running the digit loop on `rest` after the digits `p` have been read gives the
      value of `p + rest`, or `None` when `rest` has a non-digit or the value leaves
      the range. */
  lemma {:induction false} AccumulateValue(p: string, rest: string, negative: bool)
    requires AllDigits(p) && InI32(Signed(negative, DigitsValue(p)))
    ensures Accumulate(Signed(negative, DigitsValue(p)), rest, negative) ==
      if AllDigits(p + rest) && InI32(Signed(negative, DigitsValue(p + rest)))
      then Some(Signed(negative, DigitsValue(p + rest))) else None
    decreases |rest|
  {
    if rest == [] {
      assert p + rest == p;
    } else if !IsDigit(rest[0]) {
      assert (p + rest)[|p|] == rest[0];
    } else {
      var q := p + [rest[0]];
      DigitStep(p, rest[0], negative);
      assert Accumulate(Signed(negative, DigitsValue(p)), rest, negative) ==
        if !InI32(Signed(negative, DigitsValue(q))) then None
        else Accumulate(Signed(negative, DigitsValue(q)), rest[1..], negative);
      assert p + rest == q + rest[1..];
      if InI32(Signed(negative, DigitsValue(q))) {
        AccumulateValue(q, rest[1..], negative);
      } else if AllDigits(p + rest) {
        assert (p + rest)[..|q|] == q;
        DigitsValuePrefix(p + rest, |q|);
      }
    }
  }

  /** One round of the digit loop: appending digit `c` to `p`. */
  lemma DigitStep(p: string, c: char, negative: bool)
    requires AllDigits(p) && IsDigit(c)
    ensures AllDigits(p + [c]) && (p + [c])[..|p|] == p
    ensures var d := c as int - '0' as int;
            var acc := Signed(negative, DigitsValue(p));
            Signed(negative, DigitsValue(p + [c])) == if negative then 10 * acc - d else 10 * acc + d
  {
    var q := p + [c];
    assert q[..|q| - 1] == p && q[|q| - 1] == c;
  }

  /** A prefix of a digit string has no larger value. */
  lemma {:induction false} DigitsValuePrefix(s: string, k: nat)
    requires AllDigits(s) && k <= |s|
    ensures DigitsValue(s[..k]) <= DigitsValue(s)
    decreases |s| - k
  {
    if k < |s| {
      DigitsValuePrefix(s[..|s| - 1], k);
      assert s[..|s| - 1][..k] == s[..k];
    } else {
      assert s[..k] == s;
    }
  }

  /** `bool::from_str`: exactly "true" or "false". */
  function ParseBool(s: string): Option<bool> {
    if s == "true" then Some(true) else if s == "false" then Some(false) else None
  }

  /** `char::from_str`: exactly one character. */
  predicate IsOneChar(s: string) {
    |s| == 1
  }

  /** The decimal digits of a natural number, without leading zeros. */
  function ShowNat(n: nat): (s: string)
    ensures |s| > 0 && AllDigits(s)
  {
    if n < 10 then [('0' as int + n) as char]
    else ShowNat(n / 10) + [('0' as int + n % 10) as char]
  }

  /** `i32::to_string`: the canonical decimal form. */
  function ShowInt(n: int): (s: string)
    ensures |s| > 0
  {
    if n < 0 then "-" + ShowNat(-n) else ShowNat(n)
  }

  lemma {:induction false} DigitsValueOfShowNat(n: nat)
    ensures DigitsValue(ShowNat(n)) == n
  {
    var s := ShowNat(n);
    if n >= 10 {
      DigitsValueOfShowNat(n / 10);
      assert s[..|s| - 1] == ShowNat(n / 10);
    }
  }

  /** Printing an `i32` and parsing it back gives the same number. */
  lemma ParseShowInt(n: int)
    requires I32Min <= n <= I32Max
    ensures ParseI32(ShowInt(n)) == Some(n)
  {
    var s := ShowInt(n);
    if n < 0 {
      DigitsValueOfShowNat(-n);
      assert s[0] == '-' && Unsigned(s) == ShowNat(-n);
    } else {
      DigitsValueOfShowNat(n);
      assert IsDigit(s[0]);
      assert Unsigned(s) == s;
    }
    assert Decimal(s) && SignedValue(s) == n;
  }

  /** A parsed `i32` printed again is canonical: leading zeros disappear. */
  lemma LeadingZerosDropped()
    ensures ParseI32("007") == Some(7) && ShowInt(7) == "7"
  {
    assert AllDigits("007");
    assert DigitsValue("007") == 7 by {
      assert "007"[..2] == "00" && "00"[..1] == "0" && "0"[..0] == "";
    }
  }

  // ---------------------------------------------------------------------------
  // f32

  function LowerAscii(s: string): (r: string)
    ensures |r| == |s|
  {
    if s == [] then []
    else [if 'A' <= s[0] <= 'Z' then (s[0] as int + 32) as char else s[0]] + LowerAscii(s[1..])
  }

  /** A decimal mantissa: digits with at most one `.`, at least one digit in all. */
  predicate Mantissa(m: string) {
    match RSplitOnce(m, '.')
    case None => |m| > 0 && AllDigits(m)
    case Some((whole, fraction)) =>
      AllDigits(whole) && AllDigits(fraction) && |whole| + |fraction| > 0
  }

  /** An exponent after `e` or `E`: an optional sign and at least one digit. */
  predicate Exponent(x: string) {
    var digits := if |x| > 0 && (x[0] == '+' || x[0] == '-') then x[1..] else x;
    |digits| > 0 && AllDigits(digits)
  }

  /** Index of the first `e` or `E`, or the length when there is none. */
  function ExponentMark(s: string): (i: nat)
    ensures i <= |s|
    ensures forall j :: 0 <= j < i ==> s[j] != 'e' && s[j] != 'E'
    ensures i < |s| ==> s[i] == 'e' || s[i] == 'E'
  {
    if s == [] || s[0] == 'e' || s[0] == 'E' then 0 else 1 + ExponentMark(s[1..])
  }

  /** The strings `str::parse::<f32>` accepts: an optional sign, then `inf`,
      `infinity` or `nan` in any letter case, or a mantissa with an optional exponent. */
  predicate FloatSyntax(s: string) {
    var body := if |s| > 0 && (s[0] == '+' || s[0] == '-') then s[1..] else s;
    var e := ExponentMark(body);
    LowerAscii(body) in {"inf", "infinity", "nan"}
    || (Mantissa(body[..e]) && (e == |body| || Exponent(body[e + 1..])))
  }

  /** What the interpreter needs of `f32` and cannot be stated exactly here: the value a
      literal denotes, the text `f32::to_string` prints, and the five operations. */
  datatype FloatOps = FloatOps(
    value: string -> real,
    show: real -> string,
    add: (real, real) -> real,
    sub: (real, real) -> real,
    mul: (real, real) -> real,
    div: (real, real) -> real,
    rem: (real, real) -> real)

  /** `str::parse::<f32>` */
  function ParseF32(fl: FloatOps, s: string): (r: Option<real>)
    ensures r.Some? <==> FloatSyntax(s)
    ensures r.Some? ==> r.val == fl.value(s)
  {
    if FloatSyntax(s) then Some(fl.value(s)) else None
  }
}

=== FILE: runtime.dfy ===
/** The interpreter as the source runs it: one mutable store (`&mut Vec<Variable>`)
    threaded through the commands, output written as it goes, input read a line at a
    time. Every method is proved to leave the state the corresponding transition of
    `Commands` describes. */
module Runtime {
  import opened Text
  import opened Numbers
  import opened Values
  import opened Store
  import opened Evaluator
  import opened Builtins
  import opened Commands

  class Interpreter {
    var variables: seq<Variable>
    var stdout: string
    var stdin: seq<Option<string>>
    var status: Status
    const fl: FloatOps
    const files: string -> FileRead

    /** The whole mutable state as a value. */
    function Snapshot(): State
      reads this
    {
      State(variables, stdout, stdin, status)
    }

    /** A fresh process: no variables, nothing printed yet, `input` still to be read. */
    constructor(fl: FloatOps, files: string -> FileRead, input: seq<Option<string>>)
      ensures Snapshot() == State([], "", input, Running)
      ensures this.fl == fl && this.files == files
    {
      variables := [];
      stdout := "";
      stdin := input;
      status := Running;
      this.fl := fl;
      this.files := files;
    }

    /** `assign`: overwrite the first binding with the same identifier, or append. */
    method Assign(v: Variable)
      modifies this
      ensures Snapshot() == old(Snapshot()).(variables := Assigned(old(variables), v))
    {
      var i := 0;
      while i < |variables| && variables[i].identifier != v.identifier
        invariant 0 <= i <= |variables|
        invariant forall j :: 0 <= j < i ==> variables[j].identifier != v.identifier
      {
        i := i + 1;
      }
      if i < |variables| {
        FindIndexIsFirst(variables, v.identifier, i);
        variables := variables[i := variables[i].(kind := v.kind, payload := v.payload)];
      } else {
        assert !Bound(variables, v.identifier);
        variables := variables + [v];
      }
    }

    /** `throw_error`. */
    method ThrowError(message: string, function_name: string, input_name: string, line_number: int)
      modifies this
      ensures Snapshot() == Throw(old(Snapshot()), message, function_name, input_name, line_number)
    {
      stdout := stdout + ErrorLine(message, function_name, input_name, line_number);
    }

    /** `println!`. */
    method PrintLine(text: string)
      modifies this
      ensures Snapshot() == Print(old(Snapshot()), text)
    {
      stdout := stdout + text + "\n";
    }

    /** An evaluation error reported under the command's name, or a panic. */
    method Report<T>(failure: Outcome<T>, function_name: string, input_name: string, line_number: int)
      requires !failure.Ok?
      modifies this
      ensures Snapshot() == Fail(old(Snapshot()), failure, function_name, input_name, line_number)
    {
      if failure.Panic? {
        status := Panicked;
      } else {
        ThrowError(failure.msg, function_name, input_name, line_number);
      }
    }

    /** `silm_let`. */
    method Let(tokens: seq<string>, input_name: string, line_number: int)
      modifies this
      ensures Snapshot() == AfterLet(old(Snapshot()), fl, tokens, input_name, line_number)
    {
      if |tokens| < 3 {
        ThrowError("improper amount of tokens (!>= 4)", "let", input_name, line_number);
      } else if tokens[1] != "=" {
        ThrowError("assignment operator (=) not found", "let", input_name, line_number);
      } else {
        var evaluated := ExtractData(fl, Join(tokens[2..], " "), variables);
        match evaluated
        case Ok(Some(v)) => Assign(Variable(v.kind, tokens[0], v.payload));
        case Ok(None) => ThrowError("empty value given", "let", input_name, line_number);
        case _ => Report(evaluated, "let", input_name, line_number);
      }
    }

    /** `silm_println`. */
    method Println(tokens: seq<string>, input_name: string, line_number: int)
      modifies this
      ensures Snapshot() == AfterPrintln(old(Snapshot()), fl, tokens, input_name, line_number)
    {
      if tokens == [] {
        ThrowError("no argument provided", "println", input_name, line_number);
        return;
      }
      var argument := CallArgument(tokens);
      if argument.None? {
        ThrowError("command call does not contain two parantheses", "println", input_name, line_number);
        return;
      }
      var evaluated := ExtractData(fl, argument.val, variables);
      match evaluated
      case Ok(Some(v)) => PrintLine(v.payload);
      case Ok(None) => PrintLine("");
      case _ => Report(evaluated, "println", input_name, line_number);
    }

    /** `silm_formatln`, with the placeholder loop. */
    method Formatln(tokens: seq<string>, input_name: string, line_number: int)
      modifies this
      ensures Snapshot() == AfterFormatln(old(Snapshot()), fl, tokens, input_name, line_number)
    {
      if tokens == [] {
        ThrowError("command requires one argument", "formatln", input_name, line_number);
        return;
      }
      var argument := CallArgument(tokens);
      if argument.None? {
        ThrowError("command call does not contain two parantheses", "formatln", input_name, line_number);
        return;
      }
      var evaluated := ExtractData(fl, argument.val, variables);
      match evaluated
      case Ok(Some(v)) =>
        var result := Substitute(v.payload, variables);
        PrintLine(result);
      case Ok(None) => ThrowError("command requires one argument", "formatln", input_name, line_number);
      case _ => Report(evaluated, "formatln", input_name, line_number);
    }

    /** `read_line` into the `str` variable `id`. */
    method ReadLine(id: string, input_name: string, line_number: int)
      modifies this
      ensures Snapshot() == ReadInto(old(Snapshot()), id, input_name, line_number)
    {
      if stdin == [] {
        Assign(Variable(Str, id, ""));
        return;
      }
      var read := stdin[0];
      stdin := stdin[1..];
      match read
      case Some(text) => Assign(Variable(Str, id, TrimEnd(text)));
      case None => ThrowError("invalid input", "readln", input_name, line_number);
    }

    /** The two arguments of `silm_readln`. */
    method ReadlnWith(first_str: string, second_str: string, input_name: string, line_number: int)
      modifies this
      ensures Snapshot() == ReadlnArguments(old(Snapshot()), fl, first_str, second_str, input_name, line_number)
    {
      ghost var before := Snapshot();
      var first := ExtractData(fl, first_str, variables);
      if !first.Ok? {
        Report(first, "readln", input_name, line_number);
        return;
      }
      if first.val.None? {
        ThrowError("first argument not given", "readln", input_name, line_number);
        return;
      }
      var second := ExtractData(fl, second_str, variables);
      if !second.Ok? {
        Report(second, "readln", input_name, line_number);
      } else if second.val.None? {
        ThrowError("second argument not given", "readln", input_name, line_number);
      } else if second.val.val.kind != Str {
        ThrowError("invalid type: '" + first_str + "' must be a str", "readln", input_name, line_number);
      } else {
        stdout := stdout + first.val.val.payload;
        ghost var prompted := Snapshot();
        assert ReadlnArguments(before, fl, first_str, second_str, input_name, line_number)
            == ReadInto(prompted, second.val.val.identifier, input_name, line_number);
        ReadLine(second.val.val.identifier, input_name, line_number);
      }
    }

    /** `silm_readln`. */
    method Readln(tokens: seq<string>, input_name: string, line_number: int)
      modifies this
      ensures Snapshot() == AfterReadln(old(Snapshot()), fl, tokens, input_name, line_number)
    {
      if |tokens| < 2 {
        ThrowError("command requires at least two tokens", "readln", input_name, line_number);
        return;
      }
      var arguments := CallArgument(tokens);
      if arguments.None? {
        ThrowError("command call does not contain two parantheses", "readln", input_name, line_number);
        return;
      }
      match RSplitOnce(arguments.val, ',')
      case None => ThrowError("command requires two arguments", "readln", input_name, line_number);
      case Some((first_str, second_str)) => ReadlnWith(first_str, second_str, input_name, line_number);
    }

    /** `silm_exit`. */
    method Exit(tokens: seq<string>, input_name: string, line_number: int)
      modifies this
      ensures Snapshot() == AfterExit(old(Snapshot()), tokens, input_name, line_number)
    {
      if tokens == [] {
        ThrowError("command call requires two parantheses", "exit", input_name, line_number);
      } else if tokens[0] == "()" {
        status := Exited;
      } else {
        ThrowError("invalid command call", "exit", input_name, line_number);
      }
    }

    /** `silm_block`. */
    method Block(tokens: seq<string>, input_name: string, line_number: int)
      modifies this
      ensures Snapshot() == AfterBlock(old(Snapshot()), tokens, input_name, line_number)
    {
      if tokens == [] {
        ThrowError("block can not be nameless", "block", input_name, line_number);
      } else if |tokens| < 2 {
        status := Panicked;
      } else if tokens[1] != "()" {
        ThrowError("block must have two parantheses", "block", input_name, line_number);
      } else {
        Assign(Variable(Values.Block, tokens[0], BlockCode(tokens[2..])));
      }
    }

    /** `interpret`: one line through the dispatcher. */
    method Interpret(line: string, input_name: string, line_number: int)
      modifies this
      ensures Snapshot() == AfterInterpret(old(Snapshot()), fl, line, input_name, line_number)
    {
      if status != Running {
        return;
      }
      var tokens := SplitWhitespace(line);
      Run(tokens, input_name, line_number);
    }

    /** The dispatcher's `match` on the first token. */
    method Run(tokens: seq<string>, input_name: string, line_number: int)
      modifies this
      ensures Snapshot() == Dispatch(old(Snapshot()), fl, tokens, input_name, line_number)
    {
      if tokens == [] {
        return;
      }
      var rest := tokens[1..];
      match tokens[0]
      case "let" => Let(rest, input_name, line_number);
      case "println" => Println(rest, input_name, line_number);
      case "formatln" => Formatln(rest, input_name, line_number);
      case "readline" => Readln(rest, input_name, line_number);
      case "exit" => Exit(rest, input_name, line_number);
      case "#" =>
      case _ => PrintLine(Unrecognised(tokens, input_name, line_number));
    }

    /** `silm_eval`. */
    method Eval(tokens: seq<string>, input_name: string, line_number: int)
      modifies this
      ensures Snapshot() == AfterEval(old(Snapshot()), fl, tokens, input_name, line_number)
    {
      if tokens == [] {
        ThrowError("no argument provided", "eval", input_name, line_number);
        return;
      }
      var argument := CallArgument(tokens);
      if argument.None? {
        ThrowError("command call does not contain two parantheses", "eval", input_name, line_number);
        return;
      }
      var evaluated := ExtractData(fl, argument.val, variables);
      match evaluated
      case Ok(Some(v)) =>
        if v.kind == Str {
          Interpret(v.payload, input_name, line_number);
        } else {
          ThrowError("argument must be a str", "eval", input_name, line_number);
        }
      case Ok(None) => ThrowError("command requires one argument", "eval", input_name, line_number);
      case _ => Report(evaluated, "eval", input_name, line_number);
    }

    /** The line loop of `silm_interpret`, counting lines from 1. */
    method RunFileLines(lines: seq<string>, filename: string)
      modifies this
      ensures Snapshot() == RunLines(old(Snapshot()), fl, lines, filename)
    {
      ghost var start := Snapshot();
      var current_line := 0;
      while current_line < |lines|
        invariant 0 <= current_line <= |lines|
        invariant Snapshot() == RunLines(start, fl, lines[..current_line], filename)
      {
        var line := lines[current_line];
        RunLinesStep(start, fl, lines, current_line, filename);
        current_line := current_line + 1;
        Interpret(line, filename, current_line);
      }
      assert lines[..current_line] == lines;
    }

    /** `silm_interpret`. */
    method InterpretFile(tokens: seq<string>, input_name: string, line_number: int)
      modifies this
      ensures Snapshot() == AfterInterpretFile(old(Snapshot()), fl, files, tokens, input_name, line_number)
    {
      if tokens == [] {
        ThrowError("no argument provided", "interpret", input_name, line_number);
        return;
      }
      var argument := CallArgument(tokens);
      if argument.None? {
        ThrowError("command call does not contain two parantheses", "interpret", input_name, line_number);
        return;
      }
      var evaluated := ExtractData(fl, argument.val, variables);
      match evaluated
      case Ok(Some(v)) =>
        if v.kind != Str {
          ThrowError("argument must be a str", "interpret", input_name, line_number);
        } else {
          match files(v.payload)
          case Contents(code) => RunFileLines(Lines(code), v.payload);
          case Failure(message) => ThrowError(message, "interpret", input_name, line_number);
        }
      case Ok(None) => PrintLine("");
      case _ => Report(evaluated, "interpret", input_name, line_number);
    }

    /** One line of an imported file. */
    method ImportLineOf(line: string, input_name: string, line_number: int)
      modifies this
      ensures Snapshot() == ImportLine(old(Snapshot()), fl, line, input_name, line_number)
    {
      if status != Running {
        return;
      }
      var tokens := SplitWhitespace(line);
      if tokens == [] {
        return;
      }
      if tokens[0] == "let" {
        Let(tokens[1..], input_name, line_number);
      } else if tokens[0] == "block" {
        Block(tokens[1..], input_name, line_number);
      }
    }

    /** The line loop of `silm_import`. */
    method ImportFileLines(lines: seq<string>, filename: string)
      modifies this
      ensures Snapshot() == ImportLines(old(Snapshot()), fl, lines, filename)
    {
      ghost var start := Snapshot();
      var current_line := 0;
      while current_line < |lines|
        invariant 0 <= current_line <= |lines|
        invariant Snapshot() == ImportLines(start, fl, lines[..current_line], filename)
      {
        var line := lines[current_line];
        ImportLinesStep(start, fl, lines, current_line, filename);
        current_line := current_line + 1;
        ImportLineOf(line, filename, current_line);
      }
      assert lines[..current_line] == lines;
    }

    /** `silm_import`. */
    method Import(tokens: seq<string>, input_name: string, line_number: int)
      modifies this
      ensures Snapshot() == AfterImport(old(Snapshot()), fl, files, tokens, input_name, line_number)
    {
      if tokens == [] {
        ThrowError("no argument provided", "import", input_name, line_number);
        return;
      }
      var argument := CallArgument(tokens);
      if argument.None? {
        ThrowError("command call does not contain two parantheses", "import", input_name, line_number);
        return;
      }
      var evaluated := ExtractData(fl, argument.val, variables);
      match evaluated
      case Ok(Some(v)) =>
        if v.kind != Str {
          ThrowError("argument must be a str", "import", input_name, line_number);
        } else {
          match files(v.payload)
          case Contents(code) => ImportFileLines(Lines(code), v.payload);
          case Failure(message) => ThrowError(message, "import", input_name, line_number);
        }
      case Ok(None) => ThrowError("command requires one argument", "current_function", input_name, line_number);
      case _ => Report(evaluated, "import", input_name, line_number);
    }

    /** The segment loop of `silm_if`. */
    method RunThen(segments: seq<string>, input_name: string, line_number: int)
      modifies this
      ensures Snapshot() == RunSegments(old(Snapshot()), fl, segments, input_name, line_number)
    {
      ghost var start := Snapshot();
      for i := 0 to |segments|
        invariant Snapshot() == RunSegments(start, fl, segments[..i], input_name, line_number)
      {
        RunSegmentsStep(start, fl, segments, i, input_name, line_number);
        Interpret(segments[i], input_name, line_number);
      }
      assert segments[..|segments|] == segments;
    }

    /** `silm_if`. */
    method If(tokens: seq<string>, input_name: string, line_number: int)
      modifies this
      ensures Snapshot() == AfterIf(old(Snapshot()), fl, tokens, input_name, line_number)
    {
      if tokens == [] {
        ThrowError("no condition provided", "if", input_name, line_number);
        return;
      }
      match SplitOnce(Join(tokens, " "), " :: ")
      case None => ThrowError("no condition-bound code provided", "if", input_name, line_number);
      case Some((condition, then_code)) =>
        if !Parenthesised(condition) {
          ThrowError("command condition must contain two parantheses", "if", input_name, line_number);
          return;
        }
        var evaluated := ExtractData(fl, Inner(condition), variables);
        match evaluated
        case Ok(Some(v)) =>
          if v.kind != Bool {
            ThrowError("condition must be of type bool", "if", input_name, line_number);
          } else if v.payload == "true" {
            RunThen(Split(then_code, "\\;"), input_name, line_number);
          }
        case Ok(None) =>
        case _ => Report(evaluated, "if", input_name, line_number);
    }
  }
}

=== FILE: store.dfy ===
/** The variable store: an insertion-ordered sequence of bindings, searched from the
    front (`get_variable`) and updated by overwrite-or-append (`assign`). */
module Store {
  import opened Text
  import opened Values

  /** Identifiers occur at most once: no binding repeats the identifier of one before
      it. */
  predicate Unique(store: seq<Variable>)
    decreases |store|
  {
    store == [] || (Unique(store[..|store| - 1]) && !Bound(store[..|store| - 1], store[|store| - 1].identifier))
  }

  /** In a store without repeated identifiers, two different positions hold different
      identifiers. */
  lemma {:induction false} UniqueDistinct(store: seq<Variable>, i: nat, j: nat)
    requires Unique(store) && i < j < |store|
    ensures store[i].identifier != store[j].identifier
    decreases |store|
  {
    var front := store[..|store| - 1];
    if j < |store| - 1 {
      UniqueDistinct(front, i, j);
    } else {
      assert front[i] == store[i];
    }
  }

  predicate Bound(store: seq<Variable>, id: string) {
    exists i :: 0 <= i < |store| && store[i].identifier == id
  }

  /** The position of the first binding with identifier `id`: what `find` stops at. */
  function FindIndex(store: seq<Variable>, id: string): (r: Option<nat>)
    ensures r.Some? ==> r.val < |store| && store[r.val].identifier == id
    ensures r.Some? ==> forall j :: 0 <= j < r.val ==> store[j].identifier != id
    ensures r.None? <==> !Bound(store, id)
  {
    if store == [] then None
    else if store[0].identifier == id then Some(0)
    else match FindIndex(store[1..], id)
      case Some(i) => Some(i + 1)
      case None => None
  }

  /** `get_variable`: a copy of the first binding with identifier `id`, if any. */
  function Lookup(store: seq<Variable>, id: string): (r: Option<Variable>)
    ensures r.Some? <==> Bound(store, id)
    ensures r.Some? ==> r.val.identifier == id && r.val in store
    ensures r.Some? ==> FindIndex(store, id).Some? && r.val == store[FindIndex(store, id).val]
  {
    match FindIndex(store, id)
    case Some(i) => Some(store[i])
    case None => None
  }

  /** What `get_variable` finds is the binding at the first position holding `id`. */
  lemma LookupFindsFirst(store: seq<Variable>, id: string)
    requires Bound(store, id)
    ensures exists i :: 0 <= i < |store| && store[i] == Lookup(store, id).val
                        && forall j :: 0 <= j < i ==> store[j].identifier != id
  {
    var i := FindIndex(store, id).val;
    assert store[i] == Lookup(store, id).val;
  }

  /** `assign`: the first binding with the value's identifier takes the value's kind and
      payload; a new identifier is appended. */
  function Assigned(store: seq<Variable>, v: Variable): (r: seq<Variable>)
    ensures |r| == if Bound(store, v.identifier) then |store| else |store| + 1
    ensures forall i :: 0 <= i < |store| ==> r[i].identifier == store[i].identifier
    ensures forall i :: 0 <= i < |store| && store[i].identifier != v.identifier ==> r[i] == store[i]
    ensures !Bound(store, v.identifier) ==> r[|store|] == v
  {
    match FindIndex(store, v.identifier)
    case Some(i) => store[i := store[i].(kind := v.kind, payload := v.payload)]
    case None => store + [v]
  }

  /** Rebinding an identifier overwrites kind and payload in place: same length, same
      position, every other entry untouched. */
  lemma AssignOverwrites(store: seq<Variable>, v: Variable, i: nat)
    requires i < |store| && store[i].identifier == v.identifier
    requires forall j :: 0 <= j < i ==> store[j].identifier != v.identifier
    ensures |Assigned(store, v)| == |store|
    ensures Assigned(store, v)[i] == v
    ensures forall j :: 0 <= j < |store| && j != i ==> Assigned(store, v)[j] == store[j]
  {
    FindIndexIsFirst(store, v.identifier, i);
  }

  /** A new identifier is appended at the end. */
  lemma AssignAppends(store: seq<Variable>, v: Variable)
    requires !Bound(store, v.identifier)
    ensures Assigned(store, v) == store + [v]
  {
  }

  /** After `assign`, looking the identifier up finds exactly the assigned value. */
  lemma LookupAfterAssign(store: seq<Variable>, v: Variable)
    ensures Lookup(Assigned(store, v), v.identifier) == Some(v)
  {
    var s := Assigned(store, v);
    match FindIndex(store, v.identifier)
    case Some(i) =>
      FindIndexIsFirst(s, v.identifier, i);
    case None =>
      FindIndexIsFirst(s, v.identifier, |store|);
  }

  /** `assign` leaves every other identifier's binding as it was. */
  lemma LookupOtherAfterAssign(store: seq<Variable>, v: Variable, id: string)
    requires id != v.identifier
    ensures Lookup(Assigned(store, v), id) == Lookup(store, id)
  {
    var s := Assigned(store, v);
    match FindIndex(store, id)
    case Some(i) =>
      FindIndexIsFirst(s, id, i);
    case None =>
      assert !Bound(s, id);
  }

  /** `assign` keeps identifiers unique. */
  lemma AssignKeepsUnique(store: seq<Variable>, v: Variable)
    requires Unique(store)
    ensures Unique(Assigned(store, v))
  {
    var r := Assigned(store, v);
    if Bound(store, v.identifier) {
      SameIdentifiersUnique(store, r);
    } else {
      assert r == store + [v];
      assert r[..|r| - 1] == store;
    }
  }

  /** Uniqueness depends on the identifiers alone. */
  lemma {:induction false} SameIdentifiersUnique(a: seq<Variable>, b: seq<Variable>)
    requires |a| == |b| && forall i :: 0 <= i < |a| ==> a[i].identifier == b[i].identifier
    requires Unique(a)
    ensures Unique(b)
    decreases |a|
  {
    if a != [] {
      var a', b' := a[..|a| - 1], b[..|b| - 1];
      SameIdentifiersUnique(a', b');
      forall k | 0 <= k < |b'|
        ensures b'[k].identifier != b[|b| - 1].identifier
      {
        assert a'[k] == a[k] && b'[k] == b[k];
      }
    }
  }

  /** Repeating the same `assign` changes nothing further. */
  lemma AssignIdempotent(store: seq<Variable>, v: Variable)
    ensures Assigned(Assigned(store, v), v) == Assigned(store, v)
  {
    var s := Assigned(store, v);
    match FindIndex(store, v.identifier)
    case Some(i) =>
      FindIndexIsFirst(s, v.identifier, i);
    case None =>
      FindIndexIsFirst(s, v.identifier, |store|);
  }

  /** `FindIndex` stops at the first match and only there. */
  lemma FindIndexIsFirst(store: seq<Variable>, id: string, i: nat)
    requires i < |store| && store[i].identifier == id
    requires forall j :: 0 <= j < i ==> store[j].identifier != id
    ensures FindIndex(store, id) == Some(i)
  {
  }
}

=== FILE: text.dfy ===
/** String operations of Rust's `str` that the interpreter relies on, stated over
    `seq<char>` (a Dafny `char` is a Unicode scalar value, like a Rust `char`). */
module Text {

  datatype Option<+T> = None | Some(val: T)

  /** Rust's `char::is_whitespace`: the Unicode White_Space property. */
  predicate IsWhitespace(c: char) {
    c == ' ' || ('\t' <= c <= '\r') || c == '\U{85}' || c == '\U{A0}' || c == '\U{1680}'
    || ('\U{2000}' <= c <= '\U{200A}') || c == '\U{2028}' || c == '\U{2029}'
    || c == '\U{202F}' || c == '\U{205F}' || c == '\U{3000}'
  }

  predicate NoWhitespace(s: string) {
    forall i :: 0 <= i < |s| ==> !IsWhitespace(s[i])
  }

  /** `str::trim_start` */
  function TrimStart(s: string): (r: string)
    ensures |r| <= |s| && r == s[|s| - |r|..]
    ensures r == [] || !IsWhitespace(r[0])
    ensures forall i :: 0 <= i < |s| - |r| ==> IsWhitespace(s[i])
  {
    if s != [] && IsWhitespace(s[0]) then TrimStart(s[1..]) else s
  }

  /** `str::trim_end` */
  function TrimEnd(s: string): (r: string)
    ensures |r| <= |s| && r == s[..|r|]
    ensures r == [] || !IsWhitespace(r[|r| - 1])
    ensures forall i :: |r| <= i < |s| ==> IsWhitespace(s[i])
  {
    if s != [] && IsWhitespace(s[|s| - 1]) then TrimEnd(s[..|s| - 1]) else s
  }

  /** `str::trim`: the middle of `s`, from its first to its last non-whitespace
      character; `k` below is the number of characters removed at the front. */
  function Trim(s: string): (r: string)
    ensures r == [] || (!IsWhitespace(r[0]) && !IsWhitespace(r[|r| - 1]))
    ensures var k := |s| - |TrimStart(s)|; k + |r| <= |s| && r == s[k..k + |r|]
    ensures forall i :: 0 <= i < |s| - |TrimStart(s)| ==> IsWhitespace(s[i])
    ensures forall i :: |s| - |TrimStart(s)| + |r| <= i < |s| ==> IsWhitespace(s[i])
  {
    var t := TrimStart(s);
    var r := TrimEnd(t);
    TrimmedEnd(s, t, r);
    r
  }

  /** A leading space makes no difference to the trim. */
  lemma TrimLeadingSpace(t: string)
    ensures Trim(" " + t) == Trim(t)
  {
    var s := " " + t;
    assert s[0] == ' ' && s[1..] == t;
    assert TrimStart(s) == TrimStart(t);
  }

  lemma TrimmedEnd(s: string, t: string, r: string)
    requires |t| <= |s| && t == s[|s| - |t|..]
    requires |r| <= |t| && r == t[..|r|]
    requires forall i :: |r| <= i < |t| ==> IsWhitespace(t[i])
    ensures var k := |s| - |t|; k + |r| <= |s| && r == s[k..k + |r|]
    ensures forall i :: |s| - |t| + |r| <= i < |s| ==> IsWhitespace(s[i])
  {
    var k := |s| - |t|;
    forall i | k + |r| <= i < |s|
      ensures IsWhitespace(s[i])
    {
      assert s[i] == t[i - k];
    }
  }

  /** `str::trim_start_matches` with a character pattern: only leading `c` are
      removed, and all of them. */
  function TrimStartMatches(s: string, c: char): (r: string)
    ensures |r| <= |s| && r == s[|s| - |r|..]
    ensures r == [] || r[0] != c
    ensures forall i :: 0 <= i < |s| - |r| ==> s[i] == c
  {
    if s != [] && s[0] == c then TrimStartMatches(s[1..], c) else s
  }

  /** `str::trim_end_matches` with a character pattern: only trailing `c` are
      removed, and all of them. */
  function TrimEndMatches(s: string, c: char): (r: string)
    ensures |r| <= |s| && r == s[..|r|]
    ensures r == [] || r[|r| - 1] != c
    ensures forall i :: |r| <= i < |s| ==> s[i] == c
  {
    if s != [] && s[|s| - 1] == c then TrimEndMatches(s[..|s| - 1], c) else s
  }

  predicate StartsWith(s: string, p: string) {
    |p| <= |s| && s[..|p|] == p
  }

  predicate EndsWith(s: string, p: string) {
    |p| <= |s| && s[|s| - |p|..] == p
  }

  /** `t` is `p` written some number of times, zero included. */
  predicate Repetition(t: string, p: string)
    requires |p| > 0
    decreases |t|
  {
    t == [] || (StartsWith(t, p) && Repetition(t[|p|..], p))
  }

  /** `str::trim_start_matches` with a string pattern: what is removed is copies of
      `p`, and no copy is left at the front. */
  function TrimStartMatchesStr(s: string, p: string): (r: string)
    requires |p| > 0
    ensures |r| <= |s| && r == s[|s| - |r|..]
    ensures !StartsWith(r, p)
    ensures Repetition(s[..|s| - |r|], p)
    decreases |s|
  {
    if StartsWith(s, p) then
      var rest := TrimStartMatchesStr(s[|p|..], p);
      var t := s[..|s| - |rest|];
      assert t[..|p|] == p && t[|p|..] == s[|p|..][..|s| - |p| - |rest|];
      RepetitionPrepend(t, p);
      rest
    else s
  }

  /** `str::trim_end_matches` with a string pattern: what is removed is copies of
      `p`, and no copy is left at the end. */
  function TrimEndMatchesStr(s: string, p: string): (r: string)
    requires |p| > 0
    ensures |r| <= |s| && r == s[..|r|]
    ensures !EndsWith(r, p)
    ensures Repetition(s[|r|..], p)
    decreases |s|
  {
    if EndsWith(s, p) then
      var rest := TrimEndMatchesStr(s[..|s| - |p|], p);
      RepetitionAppend(s[..|s| - |p|][|rest|..], p);
      assert s[|rest|..] == s[..|s| - |p|][|rest|..] + p;
      rest
    else s
  }

  lemma RepetitionPrepend(t: string, p: string)
    requires |p| > 0 && StartsWith(t, p) && Repetition(t[|p|..], p)
    ensures Repetition(t, p)
  {
  }

  /** One more copy of `p` after a repetition of `p` is still a repetition. */
  lemma {:induction false} RepetitionAppend(t: string, p: string)
    requires |p| > 0 && Repetition(t, p)
    ensures Repetition(t + p, p)
    decreases |t|
  {
    if t == [] {
      assert (t + p)[|p|..] == [];
    } else {
      RepetitionAppend(t[|p|..], p);
      assert (t + p)[..|p|] == t[..|p|];
      assert (t + p)[|p|..] == t[|p|..] + p;
    }
  }

  /** `str::contains` with a string pattern */
  predicate Contains(s: string, p: string)
    decreases |s|
  {
    StartsWith(s, p) || (s != [] && Contains(s[1..], p))
  }

  /** A one-character pattern occurs exactly when the character does. */
  lemma {:induction false} ContainsChar(s: string, c: char)
    ensures Contains(s, [c]) <==> c in s
    decreases |s|
  {
    if s != [] {
      ContainsChar(s[1..], c);
      assert s == [s[0]] + s[1..];
    }
  }

  /** `[&str]::join` */
  function Join(parts: seq<string>, sep: string): string {
    if parts == [] then []
    else if |parts| == 1 then parts[0]
    else parts[0] + sep + Join(parts[1..], sep)
  }

  /** `str::replace`: every leftmost non-overlapping occurrence of `p` becomes `rep`. */
  function Replace(s: string, p: string, rep: string): (r: string)
    requires |p| > 0
    decreases |s|
  {
    if s == [] then []
    else if StartsWith(s, p) then rep + Replace(s[|p|..], p, rep)
    else [s[0]] + Replace(s[1..], p, rep)
  }

  /** `str::split` with a string pattern: the pieces between leftmost non-overlapping
      occurrences of `sep`, empty pieces included. */
  function Split(s: string, sep: string): (r: seq<string>)
    requires |sep| > 0
    ensures |r| > 0
    ensures |r[0]| <= |s| && r[0] == s[..|r[0]|]
    ensures forall i :: 0 <= i < |r| ==> !Contains(r[i], sep)
    decreases |s|
  {
    if StartsWith(s, sep) then
      var rest := Split(s[|sep|..], sep);
      assert !Contains([], sep);
      assert forall i :: 1 <= i < |rest| + 1 ==> ([[]] + rest)[i] == rest[i - 1];
      [[]] + rest
    else if s == [] then [[]]
    else
      var rest := Split(s[1..], sep);
      var first := [s[0]] + rest[0];
      assert first[1..] == rest[0];
      assert first == s[..|first|];
      assert |sep| <= |first| ==> s[..|sep|] == first[..|sep|];
      assert forall i :: 1 <= i < |rest| ==> ([first] + rest[1..])[i] == rest[i];
      [first] + rest[1..]
  }

  /** `str::split_once` with a string pattern: the split around the first occurrence. */
  function SplitOnce(s: string, sep: string): (r: Option<(string, string)>)
    requires |sep| > 0
    ensures r.Some? ==> s == r.val.0 + sep + r.val.1 && !Contains(r.val.0, sep)
    ensures r.None? <==> !Contains(s, sep)
    decreases |s|
  {
    if StartsWith(s, sep) then Some(([], s[|sep|..]))
    else if s == [] then None
    else match SplitOnce(s[1..], sep)
      case Some((a, b)) => Some(([s[0]] + a, b))
      case None => None
  }

  /** `str::rsplit_once` with a character pattern: the split around the last occurrence. */
  function RSplitOnce(s: string, c: char): (r: Option<(string, string)>)
    ensures r.Some? ==> s == r.val.0 + [c] + r.val.1 && c !in r.val.1
    ensures r.None? <==> c !in s
  {
    if s == [] then None
    else if s[|s| - 1] == c then Some((s[..|s| - 1], []))
    else match RSplitOnce(s[..|s| - 1], c)
      case Some((a, b)) =>
        assert s == s[..|s| - 1] + [s[|s| - 1]];
        Some((a, b + [s[|s| - 1]]))
      case None => None
  }

  /** Length of the leading run of non-whitespace characters. */
  function WordLength(s: string): (k: nat)
    ensures k <= |s| && NoWhitespace(s[..k])
    ensures k < |s| ==> IsWhitespace(s[k])
  {
    if s == [] || IsWhitespace(s[0]) then 0 else 1 + WordLength(s[1..])
  }

  /** `str::split_whitespace`: the maximal runs of non-whitespace characters. */
  function SplitWhitespace(s: string): (r: seq<string>)
    ensures Words(r)
    ensures |s| > 0 && !IsWhitespace(s[0]) ==> |r| > 0 && r[0] == s[..WordLength(s)]
    decreases |s|
  {
    var t := TrimStart(s);
    if t == [] then []
    else
      var k := WordLength(t);
      var rest := SplitWhitespace(t[k..]);
      WordsCons(t[..k], rest);
      [t[..k]] + rest
  }

  /** Every part is non-empty and free of whitespace. */
  predicate Words(parts: seq<string>) {
    forall i :: 0 <= i < |parts| ==> |parts[i]| > 0 && NoWhitespace(parts[i])
  }

  lemma WordsCons(w: string, rest: seq<string>)
    requires |w| > 0 && NoWhitespace(w) && Words(rest)
    ensures Words([w] + rest)
  {
    var r := [w] + rest;
    forall i | 0 <= i < |r|
      ensures |r[i]| > 0 && NoWhitespace(r[i])
    {
      if i > 0 {
        assert r[i] == rest[i - 1];
      }
    }
  }

  /** `str::lines`: lines end at "\n" or "\r\n"; a final line ending adds no empty line. */
  function Lines(s: string): seq<string>
    decreases |s|
  {
    if s == [] then []
    else match SplitOnce(s, "\n")
      case None => [s]
      case Some((line, rest)) =>
        [if EndsWith(line, "\r") then line[..|line| - 1] else line] + Lines(rest)
  }

  // ---------------------------------------------------------------------------
  // Facts about these operations

  /** A string with no occurrence of `p` is left as it is by `Replace`. */
  lemma {:induction false} ReplaceAbsent(s: string, p: string, rep: string)
    requires |p| > 0 && !Contains(s, p)
    ensures Replace(s, p, rep) == s
    decreases |s|
  {
    if s != [] {
      ReplaceAbsent(s[1..], p, rep);
    }
  }

  /** Splitting at `sep` and joining with `rep` is replacing `sep` by `rep`. */
  lemma {:induction false} JoinSplitIsReplace(s: string, sep: string, rep: string)
    requires |sep| > 0
    ensures Join(Split(s, sep), rep) == Replace(s, sep, rep)
    decreases |s|
  {
    if StartsWith(s, sep) {
      JoinSplitIsReplace(s[|sep|..], sep, rep);
      JoinCons([], Split(s[|sep|..], sep), rep);
    } else if s != [] {
      JoinSplitIsReplace(s[1..], sep, rep);
      JoinExtendFirst(s[0], Split(s[1..], sep), rep);
    }
  }

  /** Joining the parts of a split with the separator gives the text back. */
  lemma SplitJoin(s: string, sep: string)
    requires |sep| > 0
    ensures Join(Split(s, sep), sep) == s
  {
    JoinSplitIsReplace(s, sep, sep);
    ReplaceSelf(s, sep);
  }

  lemma {:induction false} ReplaceSelf(s: string, p: string)
    requires |p| > 0
    ensures Replace(s, p, p) == s
    decreases |s|
  {
    if s != [] {
      if StartsWith(s, p) {
        ReplaceSelf(s[|p|..], p);
        assert s == s[..|p|] + s[|p|..];
      } else {
        ReplaceSelf(s[1..], p);
        assert s == [s[0]] + s[1..];
      }
    }
  }

  lemma JoinCons(part: string, rest: seq<string>, sep: string)
    requires |rest| > 0
    ensures Join([part] + rest, sep) == part + sep + Join(rest, sep)
  {
    assert ([part] + rest)[1..] == rest;
  }

  /** Putting a character in front of the first part puts it in front of the join. */
  lemma JoinExtendFirst(c: char, parts: seq<string>, sep: string)
    requires |parts| > 0
    ensures Join([[c] + parts[0]] + parts[1..], sep) == [c] + Join(parts, sep)
  {
    if |parts| > 1 {
      JoinCons([c] + parts[0], parts[1..], sep);
      JoinCons(parts[0], parts[1..], sep);
      assert [parts[0]] + parts[1..] == parts;
    }
  }

  /** Joining words with single spaces and splitting on whitespace gives the words
      back. */
  lemma {:induction false} SplitWhitespaceJoin(ws: seq<string>)
    requires Words(ws)
    ensures SplitWhitespace(Join(ws, " ")) == ws
    decreases |ws|
  {
    if |ws| == 1 {
      SplitWhitespaceOfWord(ws[0]);
    } else if |ws| > 1 {
      var w, rest := ws[0], Join(ws[1..], " ");
      assert NoWhitespace(w) && |w| > 0;
      assert (" " + rest)[0] == ' ';
      calc {
        SplitWhitespace(Join(ws, " "));
        { assert Join(ws, " ") == w + (" " + rest); }
        SplitWhitespace(w + (" " + rest));
        { SplitWhitespaceFirstWord(w, " " + rest); }
        [w] + SplitWhitespace(" " + rest);
        { SpaceSkipped(rest); }
        [w] + SplitWhitespace(rest);
        { SplitWhitespaceJoin(ws[1..]); }
        [w] + ws[1..];
        { assert ws == [w] + ws[1..]; }
        ws;
      }
    }
  }

  /** A word followed by whitespace or nothing is the first part. */
  lemma SplitWhitespaceFirstWord(w: string, t: string)
    requires |w| > 0 && NoWhitespace(w) && (t == [] || IsWhitespace(t[0]))
    ensures SplitWhitespace(w + t) == [w] + SplitWhitespace(t)
  {
    var j := w + t;
    assert j[0] == w[0];
    assert TrimStart(j) == j;
    WordLengthAppend(w, t);
    assert WordLength(t) == 0;
    assert j[..|w|] == w && j[|w|..] == t;
  }

  lemma SpaceSkipped(t: string)
    ensures SplitWhitespace(" " + t) == SplitWhitespace(t)
  {
    var s := " " + t;
    assert TrimStart(s) == TrimStart(t) by {
      assert s[0] == ' ' && s[1..] == t;
    }
    SplitFromTrimmed(s);
    SplitFromTrimmed(t);
  }

  /** Splitting only looks at a text from its first non-whitespace character on. */
  lemma SplitFromTrimmed(s: string)
    ensures SplitWhitespace(s) == SplitWhitespace(TrimStart(s))
  {
    var t := TrimStart(s);
    assert TrimStart(t) == t by {
      assert t == [] || !IsWhitespace(t[0]);
    }
  }

  lemma {:induction false} WordLengthAppend(w: string, t: string)
    requires NoWhitespace(w)
    ensures WordLength(w + t) == |w| + WordLength(t)
  {
    if w == [] {
      assert w + t == t;
    } else {
      assert !IsWhitespace(w[0]);
      assert (w + t)[0] == w[0] && (w + t)[1..] == w[1..] + t;
      WordLengthAppend(w[1..], t);
    }
  }

  /** A run of `c` in front of a text not starting with `c` is exactly what
      `TrimStartMatches` removes. */
  lemma TrimStartMatchesRun(c: char, k: nat, t: string)
    requires t == [] || t[0] != c
    ensures TrimStartMatches(seq(k, _ => c) + t, c) == t
  {
    var s := seq(k, _ => c) + t;
    var r := TrimStartMatches(s, c);
    assert |s| - |r| <= k by {
      if |t| > 0 {
        assert s[k] == t[0];
      }
    }
    assert |s| - |r| >= k by {
      if |r| > 0 {
        assert r[0] == s[|s| - |r|];
      }
    }
    assert r == s[k..] == t;
  }

  /** A run of `c` after a text not ending in `c` is exactly what `TrimEndMatches`
      removes. */
  lemma {:induction false} TrimEndMatchesRun(c: char, k: nat, t: string)
    requires t == [] || t[|t| - 1] != c
    ensures TrimEndMatches(t + seq(k, _ => c), c) == t
  {
    if k > 0 {
      TrimEndMatchesRun(c, k - 1, t);
      assert (t + seq(k, _ => c))[..|t| + k - 1] == t + seq(k - 1, _ => c);
    }
  }

  /** A single word is split into itself. */
  lemma {:induction false} SplitWhitespaceOfWord(w: string)
    requires |w| > 0 && NoWhitespace(w)
    ensures SplitWhitespace(w) == [w]
  {
    WordLengthOfWord(w);
    assert TrimStart(w) == w;
    assert w[..WordLength(w)] == w && w[WordLength(w)..] == [];
    assert SplitWhitespace([]) == [];
  }

  lemma {:induction false} WordLengthOfWord(w: string)
    requires NoWhitespace(w)
    ensures WordLength(w) == |w|
  {
    if w != [] {
      WordLengthOfWord(w[1..]);
    }
  }
}

=== FILE: values.dfy ===
/** The value model: every value is a kind, an identifier and a textual payload. */
module Values {

  /** The kinds of value. The five of the struct definition and `Block`, which the
      `block` command stores. */
  datatype DataType = Int | Float | Str | Char | Bool | Block

  /** A binding, or a transient value carrying a sentinel identifier. */
  datatype Variable = Variable(kind: DataType, identifier: string, payload: string)

  /** Identifier of a literal, or of a value computed from an expression. */
  const Uninitialised: string := "$uninitialised$"

  /** Identifier of a value returned by a built-in function. */
  const Returned: string := "$returned$"

  /** The three ways an evaluation ends: a value, an error message, or a Rust panic
      (an `unwrap` on nothing, an index out of bounds), which ends the whole process. */
  datatype Outcome<+T> = Ok(val: T) | Err(msg: string) | Panic

  /** `represent_datatype`, with `"block"` for the kind its match does not list. */
  function KindName(k: DataType): (name: string)
    ensures name in {"int", "float", "str", "char", "bool", "block"}
  {
    match k
    case Bool => "bool"
    case Float => "float"
    case Int => "int"
    case Str => "str"
    case Char => "char"
    case Block => "block"
  }

  /** Different kinds have different names, so a kind name identifies its kind. */
  lemma KindNameInjective(j: DataType, k: DataType)
    ensures KindName(j) == KindName(k) <==> j == k
  {
  }
}
